=== FILE: README.md ===
# DeepProsperity core in Dafny

DeepProsperity is a personal habit tracker. A user keeps a catalogue of
*habits* and logs *entries*, each one completion of a habit on a calendar
day. Every habit and every entry belongs to one of six life categories:
Cuerpo, Energía, Mente, Trabajo, Relaciones and Dinero. The application
turns this data into several views:

- a per-category radar of completion percentages and a composite 0–100
  "prosperity" (balance) score;
- current and longest streaks of active days, and a level that counts the
  days logged on the day itself;
- the habits due on a viewed day (daily habits by weekday, one-off tasks by
  target date, with carry-over onto today);
- a summary of averages over all active days and a history list of day rows.

This project models that core as pure Dafny functions and methods over
immutable datatypes, and proves what the code promises about it. One module
per part of the program:

| module | models |
|---|---|
| `Seqs`, `Strings` | generic sequence helpers; JavaScript string order, digits, padding and `trim` |
| `Types` | categories, `Habit`, `Entry`, the partial update `HabitPatch` and its spread-merge |
| `Dates` | proleptic Gregorian calendar arithmetic and the `YYYY-MM-DD` strings of `dateUtils.ts` |
| `Caps` | per-category entry counts (`capsCalculator.ts`) |
| `Radar` | percentages, balance score and radar data (`radarCalculator.ts`, `useTodayStats.ts`) |
| `Streak` | level and current/longest streak (`streakCalculator.ts`) |
| `Schedule` | which habits and entries the home page shows for a viewed day (`HomePage.tsx`) |
| `Entries` | creating, toggling, editing and selecting entries (`entryManager.ts`, `useEntries.ts`) |
| `Habits` | the optimistic habit-list updates of `useHabits.ts` and `habitService.ts` |
| `QuickInput`, `Weekdays`, `HabitForm` | the quick-create panel, its sections and reordering, the weekday picker and the habit form |
| `Storage` | `sanitizeForFirestore`, `loadHabits` and the local-storage fallbacks of `firestoreService.ts` |
| `Defaults` | the 21 default habits and `createDefaultHabits` |
| `Summary` | the summary page's averages and the history page's day rows |

The environment is passed in as parameters:

- the current local day, as a `Civil` date `today` or its ISO string `todayISO`;
- the local calendar day of a timestamp, as a function `localDay`;
- `Math.sqrt`, as a function `sqrt` of which only `sqrt(0) == 0` and
  non-negativity are assumed (`Radar.IsSqrt`);
- the generated ids and the `Date.now()` readings (`clock(k)` is the k-th reading);
- whether a storage write succeeded, as the flags `persisted` and `stored`.

Optional TypeScript fields are `Option`s. A field of a partial update is an
`Option<Option<T>>`: the key is absent, present with `undefined`, or present
with a value. This makes `{ ...h, ...updates }` exact. Percentages and
scores are exact `real`s.

Where the code and its comments disagree, the model follows the code.
`useEntries.ts` says that completing a once-task is one-way, but
`toggleEntry` deletes the found entry whatever the habit's periodicity.
`Entries.ToggleEntry` therefore deletes it too.

## Model

| member | source | states |
|---|---|---|
| Dates.Next | src/utils/dateUtils.ts:102-106 | the following calendar day is a valid date one day number later (month and year rollover included) |
| Dates.Prev | src/utils/dateUtils.ts:102-106 | the preceding calendar day is a valid date one day number earlier |
| Dates.AddDays | src/utils/dateUtils.ts:102-106 | adding n days gives a valid date exactly n day numbers later, for any sign of n |
| Dates.AddDaysInverse | src/utils/dateUtils.ts:102-106 | adding n days and then -n days returns the original date; adding 0 days changes nothing |
| Dates.DayNumberInjective | src/utils/dateUtils.ts:92-97 | two valid dates with the same day number are the same date, so a day difference of 0 means the same day |
| Dates.BeforeIffDayNumber | src/utils/dateUtils.ts:92-97 | one date is chronologically before another exactly when its day number is smaller |
| Dates.DayOfWeek | src/utils/dateUtils.ts:111-113 | the weekday of a valid date is in 0..6 |
| Dates.DayOfWeekAnchors | src/utils/dateUtils.ts:111-113 | weekdays are numbered as `getDay()` numbers them: 1 January 1970 is 4 (Thursday) and 7 January 2024 is 0 (Sunday) |
| Dates.DayOfWeekAdvances | src/utils/dateUtils.ts:102-113 | the weekday advances by one, modulo 7, with each day, and by n modulo 7 over n days |
| Dates.ToISO | src/utils/dateUtils.ts:7-12 | a date is written as its year as printed, a dash, its month in two digits, a dash and its day in two digits, for every year |
| Dates.ToISOLayout | src/utils/dateUtils.ts:7-12 | a date with a four-digit year is written as year, month and day in fixed width, separated by dashes |
| Dates.ToISOFormat | src/utils/dateUtils.ts:7-12 | the written date is 10 characters long, with dashes at positions 4 and 7 and digit fields that read back as the year, month and day |
| Dates.ParseISO | src/utils/dateUtils.ts:51-53 | a string names a day only when it has the `DDDD-DD-DD` shape and its fields are the fixed-width year, month and day of a valid date |
| Strings.PadTwoDigits | src/utils/dateUtils.ts:9-10 | padding the decimal form of a number below 100 to two characters with '0' gives its two-digit form |
| Dates.ParseToISO | src/utils/dateUtils.ts:7-53 | parsing the ISO string of a date gives the date back, and that string is a well-formed ISO day |
| Dates.ToISOParse | src/utils/dateUtils.ts:7-53 | writing out a parsed well-formed ISO day gives back the same string |
| Dates.ISOLessIsChronological | src/pages/HomePage.tsx:107 | comparing two ISO day strings as strings orders them chronologically, and they are equal exactly when they name the same day |
| Dates.ISOLessIsCivilBefore | src/utils/dateUtils.ts:7-12 | the string order of two written dates agrees with the calendar order of the dates |
| Dates.DayOfWeekISO | src/utils/dateUtils.ts:111-113 | an ISO string has a weekday in 0..6 exactly when it parses |
| Dates.AddDaysToISO | src/utils/dateUtils.ts:102-106 | a string that names no day gives `NaN-NaN-NaN`; otherwise, while the year stays four digits, the result is a well-formed ISO day exactly n days later |
| Dates.AddDaysToISOInverse | src/utils/dateUtils.ts:102-106 | adding n days to an ISO day and then -n gives back the same string; adding 0 days changes nothing |
| Dates.DayOfWeekISOAdvances | src/utils/dateUtils.ts:102-113 | the weekday of the next ISO day is one more, modulo 7 |
| Dates.OffsetFromToday | src/utils/dateUtils.ts:92-97 | the offset from today is defined exactly for strings that parse |
| Dates.OffsetOfAddDays | src/utils/dateUtils.ts:92-106 | the offset from today of today plus n days is n |
| Dates.IsToday | src/utils/dateUtils.ts:44-46 | when today has a four-digit year, a string is today exactly when it is a well-formed ISO day naming today |
| Dates.IsTodayIffZeroOffset | src/utils/dateUtils.ts:44-46 | an ISO day is today exactly when its offset from today is 0 |
| Dates.DayLabelFor | src/utils/dateUtils.ts:130-137 | offset 0 is labelled "Hoy", -1 "Ayer", 1 "Mañana", and every other offset gets a locale date, each in both directions |
| Dates.DateLabelFor | src/utils/dateUtils.ts:118-125 | an ISO day is labelled "Hoy", "Ayer" or "Mañana" exactly when its offset from today is 0, -1 or 1 |
| Strings.LessTransitive | src/utils/streakCalculator.ts:31 | the order that JavaScript's `<` and default sort put strings in, read as code-point order, is transitive |
| Strings.LessTotal | src/utils/streakCalculator.ts:31 | of two distinct strings, one sorts before the other |
| Strings.Trim | src/components/habits/HabitForm.tsx:57 | the trimmed string is no longer than the input, neither starts nor ends with whitespace, and is empty when the input is all whitespace |
| Strings.TrimSpec | src/components/habits/HabitForm.tsx:57 | trimming keeps a contiguous window of the string with only whitespace cut off either side, and the result neither starts nor ends with whitespace |
| Strings.TrimEmptyIff | src/components/habits/HabitForm.tsx:57 | a string trims to empty exactly when it is all whitespace |
| Strings.TrimIdempotent | src/components/habits/HabitForm.tsx:65 | trimming a trimmed string changes nothing |
| Types.CategoriesOrderIsComplete | src/types/constants.ts:5-12 | the display order of categories lists every category |
| Types.Merge | src/hooks/useHabits.ts:57-61 | every field the update holds, even one holding `undefined`, replaces the habit's; every other field, the id and the creation time are kept |
| Types.MergeLaws | src/hooks/useHabits.ts:57-61 | merging an empty update leaves a habit unchanged, and merging the same update twice equals merging it once |
| Types.NewHabit | src/services/habitService.ts:47-52 | a stored new habit carries the generated id and creation time, and the payload's name, category and order |
| Caps.CategoryCountCons | src/utils/capsCalculator.ts:7-9 | a leading entry adds one to its own category's count and nothing to any other |
| Caps.CategoryCount | src/utils/capsCalculator.ts:7-9 | the count is at most the number of entries, zero exactly when no entry has the category, and all of them exactly when every entry has it |
| Caps.CategoryCounts | src/utils/capsCalculator.ts:14-24 | the counts table holds, for every category, the number of entries whose category snapshot is that category |
| Caps.CategoryCountsAddUp | src/utils/capsCalculator.ts:14-24 | the six category counts add up to the number of entries |
| Caps.CategoryCountPermutation | src/utils/capsCalculator.ts:7-9 | the count of a category does not depend on the order of the entries |
| Radar.PinnedCountsInsert | src/utils/radarCalculator.ts:7-17 | adding a habit anywhere in the list raises its category's pinned count by one when it is pinned, and changes no other count |
| Radar.PinnedCounts | src/utils/radarCalculator.ts:7-17 | each category's count is at most the number of habits, and zero exactly when no habit of that category is pinned |
| Radar.CategoryPercentage | src/utils/radarCalculator.ts:29-38 | a percentage lies in 0..100; it is 0 exactly when nothing was completed; with no pinned habits it is 100 exactly when something was; otherwise it is 100 exactly when completions reach the pinned count, and below that it is completed/total times 100 |
| Radar.RadarPercentages | src/utils/radarCalculator.ts:23-41 | each category's percentage is that of its entry count against its pinned-habit count, and lies in 0..100 |
| Radar.BalanceComponent | src/utils/radarCalculator.ts:70-76 | the balance part lies in 0..100, is 100 exactly when the spread is 0, and is 0 exactly when the spread reaches 40 |
| Radar.BalanceScore | src/utils/radarCalculator.ts:52-84 | the clamped score lies in 0..100 |
| Radar.BalanceScoreBounds | src/utils/radarCalculator.ts:52-84 | with percentages in 0..100 and a non-zero sum, the clamp never acts: the score lies between 0.8·mean and 0.8·mean + 20 |
| Radar.BalanceScoreZeroIff | src/utils/radarCalculator.ts:52-84 | for non-negative percentages, the score is 0 exactly when all six are 0 |
| Radar.BalanceScoreUniform | src/utils/radarCalculator.ts:52-84 | six equal positive percentages x score 0.8·x + 20, since their spread is 0 |
| Radar.ComputeRadarData | src/utils/radarCalculator.ts:89-122 | with no pinned habit the result is all zeros; otherwise the percentages are the per-category ones and the score is the balance score of those percentages; every value lies in 0..100 |
| Radar.RadarScoreZeroIff | src/utils/radarCalculator.ts:89-122 | with a pinned habit, the score is 0 exactly when no entry falls in any category |
| Radar.ComputeTodayStats | src/hooks/useTodayStats.ts:5-11 | today's stats are the radar of today's entries, the number of today's entries, and the number of pinned habits, which is 0 exactly when no habit is pinned, and then the radar is all zeros |
| Streak.CalculateLevel | src/utils/streakCalculator.ts:9-19 | the level is the number of distinct days on which some entry was logged on the day it is dated |
| Streak.LevelBounds | src/utils/streakCalculator.ts:9-19 | the level is at most the number of active days, which is at most the number of entries |
| Streak.BackdatedEntryKeepsLevel | src/utils/streakCalculator.ts:9-19 | adding an entry whose date differs from the local day of its timestamp does not change the level |
| Streak.SortedUnique | src/utils/streakCalculator.ts:31 | two strictly sorted lists with the same members are equal, so the sorted active days are determined by the set of dates |
| Streak.ActiveDays | src/utils/streakCalculator.ts:21-31 | the active days are the distinct entry dates, in strictly ascending order |
| Streak.StreakOf | src/utils/streakCalculator.ts:33-47 | the streak is 0 when neither today nor yesterday is active; otherwise it is the unbroken run of active days back from today (from yesterday when today is not active), capped at 365 days |
| Streak.CurrentStreak | src/utils/streakCalculator.ts:33-47 | the current streak is the run of active days counted back from today or yesterday, and is positive exactly when today or yesterday is active |
| Streak.MaxRun | src/utils/streakCalculator.ts:49-63 | the result is the length of a longest run of linked neighbours: some run has that length and none is longer |
| Streak.LongestRun | src/utils/streakCalculator.ts:49-63 | the longest run of consecutive calendar days in the sorted active days is attained and is not exceeded by any run |
| Streak.CalculateStreak | src/utils/streakCalculator.ts:21-70 | no entries give all zeros; otherwise the active days are the sorted distinct dates, the current streak is as above, and the longest streak is the larger of the current streak and the longest run of consecutive days: it is at least both, and equals one of them |
| Schedule.IsScheduled | src/pages/HomePage.tsx:103-139 | nothing is scheduled on a day before its creation day; a daily habit without a weekday list is scheduled on every day that parses from then on, and one with an empty list never; a once-task is scheduled on its target day from its creation day on, and otherwise only on a day it has an entry on or on today |
| Schedule.PeriodHabits | src/pages/HomePage.tsx:85-147 | the shown habits are a subsequence of the catalogue |
| Schedule.EntryHabitIdsOfPeriod | src/pages/HomePage.tsx:142-146 | a habit id occurs among the viewed day's entries exactly when the habit has an entry dated that day |
| Schedule.PeriodHabitsMembership | src/pages/HomePage.tsx:85-147 | in a catalogue with unique habit ids, a habit is shown exactly when its scheduling rules admit it or it has an entry dated the viewed day |
| Schedule.EntryOnDayIsShown | src/pages/HomePage.tsx:142-146 | a habit with an entry on the viewed day is always shown, even before its creation day |
| Schedule.BeforeCreationIsHidden | src/pages/HomePage.tsx:104-109 | a habit without an entry that day is hidden on days before the local day of its creation |
| Schedule.DailyRule | src/pages/HomePage.tsx:137-139 | a daily habit without an entry that day is shown exactly when the viewed day's weekday is among its weekdays (all days when it has none), and never when its weekday list is empty |
| Schedule.OnceOnTargetDay | src/pages/HomePage.tsx:111-136 | a once-task is shown on its target day, provided that day is not before its creation day |
| Schedule.OnceCarryOver | src/pages/HomePage.tsx:111-136 | on today, a once-task with no entry anywhere is shown exactly when it has no target date or its target date is not after today |
| Schedule.OnceElsewhereIsHidden | src/pages/HomePage.tsx:111-136 | a once-task is hidden on any day other than today and its target day on which it has no entry |
| Schedule.FilteredPeriodEntries | src/pages/HomePage.tsx:149-153 | filtering the viewed day's entries by the shown habits removes exactly the entries whose habit is not in the catalogue: each entry dated that day whose habit exists is kept, as many times as it occurs |
| Entries.CreateEntry | src/utils/entryManager.ts:7-22 | a new entry belongs to the habit, snapshots its category, is dated the given day or today when none is given, carries exactly the given unit value (none when none is given), and has no xp |
| Entries.CreateEntryFreshFields | src/utils/entryManager.ts:13-16 | the id and timestamp come from the environment, and two creations differ only in them |
| Entries.FindPeriodEntry | src/hooks/useEntries.ts:43-60 | a found entry is in the list and belongs to the habit |
| Entries.FindPeriodEntryIsFirst | src/hooks/useEntries.ts:43-60 | with a target date it finds the habit's first entry on that day; without one, a once-task's first entry on any day, and a daily habit's first entry today |
| Entries.ToggleEntry | src/hooks/useEntries.ts:65-83 | a failed write changes nothing; an addition appends one entry of the habit with a fresh id; a removal deletes the entry with some existing entry's id of the habit |
| Entries.ToggleActsOnDay | src/hooks/useEntries.ts:65-83 | the toggle adds exactly when the habit has no entry on the toggled day, dates the new entry that day, and otherwise removes the first entry of the habit on that day |
| Entries.ToggleKeepsOnePerHabitDay | src/hooks/useEntries.ts:65-83 | if no habit had two entries on one day, none has after a toggle |
| Entries.ToggleTwiceRestores | src/hooks/useEntries.ts:65-83 | toggling a habit on a day without an entry adds one, and toggling again removes it and restores the list |
| Entries.UpdateEntry | src/hooks/useEntries.ts:86-92 | a successful update replaces the entries with the updated id and leaves every other entry in place |
| Entries.DeleteEntry | src/hooks/useEntries.ts:95-101 | a successful delete removes every entry with the id and keeps all others in order, each as many times as it occurred; a failed one changes nothing |
| Entries.UpdateDeleteOnlyTouchId | src/hooks/useEntries.ts:86-101 | updating or deleting leaves the entries with other ids exactly as they were |
| Entries.EntriesForDate | src/hooks/useEntries.ts:109-111 | the selection keeps, in order, exactly the entries dated that day, each as many times as it occurs; the home page's `periodEntries` (`HomePage.tsx` 81-83) is this selection at the viewed day |
| Entries.EntriesByHabit | src/hooks/useEntries.ts:114-116 | the selection keeps, in order, exactly the entries of that habit, each as many times as it occurs |
| Habits.MinOrder | src/hooks/useHabits.ts:45-48 | the minimum is at most 0 and at most every habit's order, a missing order counting as 0 |
| Habits.MinOrderAttained | src/hooks/useHabits.ts:45-48 | the minimum is 0 or the order of some habit |
| Habits.FirstOrder | src/hooks/useHabits.ts:45-48 | a new habit's default order is negative and below every existing order |
| Habits.WithDefaultOrder | src/hooks/useHabits.ts:44-52 | the payload always ends up with an order, keeping an explicit one and otherwise taking the default |
| Habits.AddHabit | src/hooks/useHabits.ts:44-52 | adding appends one habit with the new id, creation time, name and category and keeps the others |
| Habits.AddHabitOrder | src/hooks/useHabits.ts:44-52 | an explicit order is kept; without one, the new habit sorts before every habit that has an order |
| Habits.UpdateHabit | src/hooks/useHabits.ts:55-61 | exactly the habits with the id are merged with the update, and the others are unchanged |
| Habits.UpdateHabitLaws | src/hooks/useHabits.ts:55-61 | updating keeps ids in place, an empty update changes nothing, and applying an update twice equals applying it once |
| Habits.DeleteHabit | src/hooks/useHabits.ts:89-95 | a successful delete removes every habit with the id and keeps all others in order, each as many times as it occurred; a failed one changes nothing |
| Habits.FlipPin | src/hooks/useHabits.ts:108-114 | a flipped habit is pinned exactly when it was not |
| Habits.TogglePin | src/hooks/useHabits.ts:108-114 | exactly the habits with the id have their pin flipped |
| Habits.TogglePinTwice | src/hooks/useHabits.ts:108-114 | toggling twice restores whether each habit is pinned and changes nothing else, and toggling three times equals toggling once |
| Habits.HabitsByCategory | src/hooks/useHabits.ts:103-105 | the selection keeps, in order, exactly the habits of the category, each as many times as it occurs |
| Habits.HabitsByCategoryPartition | src/hooks/useHabits.ts:103-105 | the six category selections together hold as many habits as the catalogue |
| Weekdays.ToggleDay | src/components/input/QuickInput.tsx:115-123 | a missing day is appended; the only day is kept; otherwise every copy of the day is removed and every other day is kept in order, as many times as it occurs |
| Weekdays.ToggleDayKeepsADay | src/components/habits/HabitForm.tsx:43-51 | for a list with no repeated day, the toggled list has no repeated day and is non-empty whenever the original list was non-empty |
| Weekdays.ToggleDayTwice | src/components/input/QuickInput.tsx:115-123 | adding a missing day to a non-empty list and toggling it again restores the list |
| Weekdays.RepeatedDayEmpties | src/components/input/QuickInput.tsx:115-123 | a list consisting of one day twice is emptied by toggling that day, because the length test counts entries rather than distinct days |
| HabitForm.InitialState | src/components/habits/HabitForm.tsx:24-41 | a new form is empty with category Cuerpo and all weekdays; an edit form is a task exactly for a once-habit and falls back to the defaults for missing fields |
| HabitForm.Submit | src/components/habits/HabitForm.tsx:53-73 | a blank name is rejected with the form's message; otherwise the payload is a creation payload with xp 0, periodicity once exactly for a task, and weekdays exactly for a daily habit |
| HabitForm.SubmitThenReopen | src/components/habits/HabitForm.tsx:24-73 | reopening the form on what it saved restores the submitted state, with trimmed texts, all weekdays for a task, and no error |
| HabitForm.SubmitClearsBlankDescription | src/components/habits/HabitForm.tsx:64-66 | the habit merged with a saved edit has the trimmed name, and has no description exactly when the entered one is blank |
| QuickInput.IsCompletedInPeriod | src/components/input/QuickInput.tsx:20-25 | a habit is completed in the period exactly when some period entry belongs to it |
| QuickInput.VisibleHabits | src/components/input/QuickInput.tsx:68-81 | the listed habits are, in catalogue order, the habits that are pinned, once-tasks or completed in the period and match the selected category, each as many times as in the catalogue |
| QuickInput.QuickCreate | src/components/input/QuickInput.tsx:87-106 | nothing is created exactly when the name is blank; otherwise the payload is a creation payload |
| QuickInput.QuickCreateThenAdd | src/components/input/QuickInput.tsx:87-113 | the habit appended to the catalogue is pinned, in the chosen category, with the trimmed name; it is a once-task exactly for a task, has weekdays exactly when daily, a target date exactly for a task created on a given day, and takes the first order of the habits shown in the panel, below every one of them |
| QuickInput.SortByOrder | src/components/input/QuickInput.tsx:151-162 | the result is sorted by order and is a permutation of the input |
| QuickInput.SplitSections | src/components/input/QuickInput.tsx:151-162 | every section is sorted by order |
| QuickInput.SectionsPartition | src/components/input/QuickInput.tsx:151-169 | the three sections together are a permutation of the visible habits, and each holds exactly the habits of its section |
| QuickInput.HabitSection | src/components/input/QuickInput.tsx:165-169 | a habit is in the completed section exactly when the period has an entry of it, whatever its flags, and in the before-sleep section exactly when it has none and is flagged before sleep |
| QuickInput.MoveGroup | src/components/input/QuickInput.tsx:131-146 | the group is the visible habits with the same completion state, sorted by order |
| QuickInput.MoveHabit | src/components/input/QuickInput.tsx:131-146 | moving past the edge of the group produces no update, and any other move produces exactly two |
| QuickInput.SwapWithNeighbour | src/components/input/QuickInput.tsx:131-146 | there is no update exactly when the neighbour in that direction does not exist; otherwise the two habits receive each other's order |
| QuickInput.MoveHabitExchanges | src/components/input/QuickInput.tsx:131-146 | with unique ids, a two-update move gives the habit its neighbour's order and the neighbour the habit's |
| QuickInput.ApplyTwoOrderUpdates | src/components/input/QuickInput.tsx:131-146 | applying two order updates to distinct ids sets exactly those two habits' orders |
| QuickInput.MoveGroupUnique | src/components/input/QuickInput.tsx:131-146 | in a catalogue with unique ids, the moved habit is found at its own position in its group |
| QuickInput.Move | src/components/input/QuickInput.tsx:213-227 | moving an item puts it at the target index, is a permutation, and leaves the other items in their order |
| QuickInput.RankUpdates | src/components/input/QuickInput.tsx:213-227 | each habit of the reordered section gets its position as its order |
| QuickInput.CrossSectionMoveReaches | src/components/input/QuickInput.tsx:262-284 | after a drop on another section, the habit's updates and completion toggle put it in the target section |
| QuickInput.DropOnHabit | src/components/input/QuickInput.tsx:198-236 | dropping a habit on itself changes nothing, and dropping it on a habit of another section is a cross-section move |
| QuickInput.DropReordersSection | src/components/input/QuickInput.tsx:213-227 | dropping on a habit of the same section renumbers the section in the order that moving the dragged habit to the target's place gives |
| Storage.Sanitize | src/services/firestoreService.ts:40-56 | primitive values pass through, and arrays and objects stay arrays and objects |
| Storage.SanitizeItemsIsFilterMap | src/services/firestoreService.ts:44-47 | arrays lose exactly their undefined items and keep the others in order, each sanitized |
| Storage.SanitizeFieldsIsFilterMap | src/services/firestoreService.ts:49-55 | objects lose exactly their undefined-valued keys and keep the others in order, each value sanitized |
| Storage.SanitizeRemovesUndefined | src/services/firestoreService.ts:40-56 | a sanitized value holds no undefined at any depth |
| Storage.SanitizeKeepsDefined | src/services/firestoreService.ts:40-56 | a value without undefined anywhere is unchanged |
| Storage.SanitizeIdempotent | src/services/firestoreService.ts:40-56 | sanitizing twice equals sanitizing once, and a value is unchanged exactly when it is undefined or holds no undefined |
| Storage.LoadHabits | src/services/firestoreService.ts:187-198 | one habit is loaded per valid document, and every loaded habit has a name |
| Storage.LoadHabitsKeepsValid | src/services/firestoreService.ts:187-198 | the loaded habits are the valid documents' habits, in order |
| Storage.LoadStoredHabits | src/services/firestoreService.ts:187-198 | loading the documents of named habits gives back the habits |
| Storage.LocalDelete | src/services/firestoreService.ts:160-163 | the local delete reports the storage outcome; when it succeeds it removes every item with the id and keeps all others in order, each as many times as it occurred, and when it fails the list is unchanged |
| Storage.LocalReplace | src/services/firestoreService.ts:287-295 | the local replace succeeds exactly when storage works and the id exists, and then replaces the first item with that id; otherwise nothing changes |
| Storage.LocalReplaceThenFind | src/services/firestoreService.ts:213-221 | after a successful replace, looking the id up finds the new item |
| Storage.LocalUpdateFields | src/services/firestoreService.ts:243-251 | the local field update succeeds exactly when storage works and the id exists, and then merges the first habit with that id; otherwise nothing changes |
| Storage.LocalUpdateFieldsIsReplace | src/services/firestoreService.ts:243-251 | updating fields is replacing the habit by its merge with the update, and an empty update leaves the list unchanged |
| Defaults.CreateHabits | src/config/defaultHabits.ts:230-243 | each default becomes one pinned habit with its data, its position as order, and an id and creation time from successive clock readings |
| Defaults.CreateDefaultHabits | src/config/defaultHabits.ts:230-243 | the default catalogue has 21 habits |
| Defaults.DefaultsAreDaily | src/config/defaultHabits.ts:15-225 | every default habit is named, daily on all weekdays, and has xp 0 |
| Defaults.DefaultsCoverCategories | src/config/defaultHabits.ts:15-225 | every category has at least one default habit |
| Defaults.DefaultIdInjective | src/config/defaultHabits.ts:232 | default ids with different indices differ, whatever the clock readings |
| Defaults.DefaultIdsDistinct | src/config/defaultHabits.ts:230-243 | the created default habits have pairwise distinct ids |
| Summary.GroupByDateIsExact | src/pages/SummaryPage.tsx:16-21 | each date group holds exactly the entries of its day in order, no two groups share a day, and every entry's day has a group |
| Summary.GroupByDate | src/pages/SummaryPage.tsx:16-21 | there are at most as many date groups as entries, and no group exactly when there is no entry |
| Summary.GroupedCountIsTotal | src/pages/SummaryPage.tsx:16-21 | the groups together hold as many entries as the input |
| Summary.GroupDaysAreDateSet | src/pages/SummaryPage.tsx:23 | the group days are exactly the distinct entry dates, one group per date |
| Summary.AveragePercentages | src/pages/SummaryPage.tsx:43-55 | each average percentage lies in 0..100 and is the sum of the daily percentages divided by the number of days |
| Summary.ComputeSummary | src/pages/SummaryPage.tsx:14-65 | the day count is the number of distinct dates; no entries give all zeros; tasks per day is entries over days; the averages are the daily radar values summed and divided by the number of days, all within 0..100 |
| Summary.AverageTimesDays | src/pages/SummaryPage.tsx:52-63 | the average multiplied by the number of days gives back the total, including the empty case |
| Summary.LevelOf | src/components/history/HistoricalDaysList.tsx:34-43 | a day's prosperity level lies in 0..100 |
| Summary.SortDescending | src/components/history/HistoricalDaysList.tsx:46 | rows with distinct days come out strictly newest first, with the same rows and the same completed total |
| Summary.HistoryRows | src/components/history/HistoricalDaysList.tsx:19-46 | the history rows are strictly newest first |
| Summary.HistoryRowFacts | src/components/history/HistoricalDaysList.tsx:29-43 | each row is an active day, counts that day's entries, counts the pinned habits, and carries the rounded balance score of that day's entries |
| Summary.HistoryRowsDays | src/components/history/HistoricalDaysList.tsx:19-26 | there is exactly one row per distinct entry date |
| Summary.HistoryRowsCompletedTotal | src/components/history/HistoricalDaysList.tsx:34-43 | the completed counts of the rows add up to the number of entries |

## Left out

- Persistence: the Firestore calls, snapshots, the local-to-cloud migration and the reloads after a write (`useHabits.ts` 68-83 and 119-123) are not modelled. A write is reduced to its success flag.
- `addDocument`'s local append, authentication, routing, rendering, the completion sound and particle effects, and the thin service wrappers are not modelled.
- Time zones: `localDay` and `today` are parameters, and day offsets are exact differences of day numbers. `getOffsetFromDateISO` rounds the millisecond gap to whole days, so it agrees across daylight-saving shifts.
- Streak.DayDiff / Streak.CalculateStreak: the longest-streak loop (`streakCalculator.ts:55`) floors the millisecond gap between two local midnights. Across a spring-forward night that gap is 23 hours, which floors to 0 days, so the code restarts the run there. The model counts the two days as consecutive.
- Dates.ParseISO: only strict `YYYY-MM-DD` strings naming a real day parse. The lenient forms JavaScript's `Date` also accepts are left out.
- Dates.ToISOLayout, Dates.ParseToISO, Dates.ToISOParse and the other ISO lemmas require a year from 1000 to 9999. `toISO` writes the year without zero padding, so other years do not have the fixed layout.
- Dates.DateLabelFor: the text of `toLocaleDateString` is not modelled; such days get an abstract locale-date label.
- Summary.SortDescending: `localeCompare` is modelled as the code-point order of `Strings.Less`, which agrees with it on well-formed ISO days.
- Strings.Less: JavaScript compares strings by UTF-16 code units; the model compares code points. The two orders differ only between characters in U+E000..U+FFFF and characters beyond U+FFFF. They agree on the ASCII day strings the program compares.
- Radar.BalanceScore: `Math.sqrt` is a parameter of which only `sqrt(0) == 0` and non-negativity are assumed. The score is bounded, lies within 20 points above 0.8 times the mean (`Radar.BalanceScoreBounds`), is zero exactly when all percentages are zero, and is exact for uniform radars; for uneven radars it is not pinned down further. Floating-point rounding is not modelled.
- QuickInput.SortByOrder: the sort is stable, but stability is not stated.
- Entries.ToggleActsOnDay, Entries.ToggleKeepsOnePerHabitDay and Entries.ToggleTwiceRestores assume a non-empty `todayISO`, as `getTodayISO` always returns.
- Entries.ToggleEntry: a once-task's entry is deleted by a second toggle, as the code does, although a comment in `useEntries.ts` calls that completion one-way.
- QuickInput.MoveHabit requires the habit to be among the visible habits. Every up and down button (`QuickInput.tsx` 505-653) passes a habit of a shown section, so the requirement holds wherever the code calls it. For a habit not in its group, `findIndex` gives -1: moving up then does nothing, and moving down in a non-empty group reads `group[-1].order` and throws a `TypeError`. Neither case is modelled.
- QuickInput.MoveGroup: regular and before-sleep habits share one move group, as in the code, even though they are shown in separate sections.
- Storage.LoadHabits: a document whose category is a non-empty string that names no category is not modelled, because the category is a datatype.
- Storage.Sanitize: object keys keep their given order. JavaScript's reordering of integer-like keys is not modelled.
- Defaults.CreateHabits: `Date.now()` is `clock(k)`. The i-th habit's id uses reading 2i and its creation time reading 2i+1.
- Weekdays.ToggleDayKeepsADay requires the list to hold no repeated day. The pickers only ever build such lists, from the default of all seven days by appending missing days and filtering; a list loaded with a repeat can be emptied by toggling (`Weekdays.RepeatedDayEmpties`).
- Summary.AverageTimesDays is stated for any average, day count and total related as the summary page relates them, rather than about `ComputeSummary` directly.
- Types: the unit type of a habit is an abstract datatype (`UnitType`); its display names are not modelled.
- HabitForm.SubmitClearsBlankDescription is about the merged habit held in memory. With Firestore configured, `updateHabitFields` sends the sanitized update (`firestoreService.ts:255`), which drops `description: undefined`. The cloud document then keeps its old description, and it comes back on the next load. The cloud write is not modelled.
- QuickInput.QuickCreateThenAdd: the panel computes the new order from the habits it shows, not from the whole catalogue. A hidden habit can have a smaller order than the new one.
- Dates.AddDaysToISO and Dates.IsToday state their day facts only for four-digit years, where `toISO` writes the fixed layout.

=== FILE: caps.dfy ===
/** Per-category entry counts (`capsCalculator`). */
module Caps {
  import opened Seqs
  import opened Types

  /** `getCategoryCount(entries, c)`: entries whose category snapshot is c;
      zero exactly when no entry has category c, all of them exactly when
      every entry has it. */
  function CategoryCount(es: seq<Entry>, c: Category): (n: nat)
    ensures n <= |es|
    ensures n == 0 <==> forall i :: 0 <= i < |es| ==> es[i].categorySnapshot != c
    ensures n == |es| <==> forall i :: 0 <= i < |es| ==> es[i].categorySnapshot == c
  {
    CountNoneIff(es, (e: Entry) => e.categorySnapshot == c);
    CountAllIff(es, (e: Entry) => e.categorySnapshot == c);
    Count(es, (e: Entry) => e.categorySnapshot == c)
  }

  /** One entry contributes to exactly its own category. */
  lemma CategoryCountCons(e: Entry, es: seq<Entry>, c: Category)
    ensures CategoryCount([e] + es, c) == (if e.categorySnapshot == c then 1 else 0) + CategoryCount(es, c)
  {
    assert ([e] + es)[1..] == es;
  }

  lemma CategoryCountSnoc(es: seq<Entry>, e: Entry, c: Category)
    ensures CategoryCount(es + [e], c) == CategoryCount(es, c) + (if e.categorySnapshot == c then 1 else 0)
  {
    CountAppend(es, [e], (x: Entry) => x.categorySnapshot == c);
  }

  /** `getCategoryCounts(entries)`: start every category at zero and bump the
      category of each entry in turn. */
  method CategoryCounts(es: seq<Entry>) returns (counts: PerCategory<nat>)
    ensures forall c :: counts.Get(c) == CategoryCount(es, c)
    ensures |es| == 0 ==> counts == Constant(0)
  {
    counts := Constant(0);
    var i := 0;
    while i < |es|
      invariant 0 <= i <= |es|
      invariant forall c :: counts.Get(c) == CategoryCount(es[..i], c)
      invariant i == 0 ==> counts == Constant(0)
    {
      var e := es[i];
      forall c
        ensures CategoryCount(es[..i + 1], c) == CategoryCount(es[..i], c) + (if e.categorySnapshot == c then 1 else 0)
      {
        assert es[..i + 1] == es[..i] + [e];
        CategoryCountSnoc(es[..i], e, c);
      }
      counts := counts.Set(e.categorySnapshot, counts.Get(e.categorySnapshot) + 1);
      i := i + 1;
    }
    assert es[..i] == es;
  }

  /** The six counts in `CategoriesOrder` add up to the number of entries:
      every entry is counted under exactly one category. */
  lemma {:induction false} CategoryCountsAddUp(es: seq<Entry>)
    ensures CategoryCount(es, Cuerpo) + CategoryCount(es, Energia) + CategoryCount(es, Trabajo) +
            CategoryCount(es, Dinero) + CategoryCount(es, Relaciones) + CategoryCount(es, Mente) == |es|
  {
    if |es| > 0 {
      CategoryCountsAddUp(es[1..]);
      CategoryCountHead(es, Cuerpo);
      CategoryCountHead(es, Energia);
      CategoryCountHead(es, Trabajo);
      CategoryCountHead(es, Dinero);
      CategoryCountHead(es, Relaciones);
      CategoryCountHead(es, Mente);
    }
  }

  /** The first entry contributes to exactly its own category. */
  lemma CategoryCountHead(es: seq<Entry>, c: Category)
    requires |es| > 0
    ensures CategoryCount(es, c) == (if es[0].categorySnapshot == c then 1 else 0) + CategoryCount(es[1..], c)
  {
    assert es == [es[0]] + es[1..];
    CategoryCountCons(es[0], es[1..], c);
  }

  /** Reordering the entries does not change any count. */
  lemma CategoryCountPermutation(a: seq<Entry>, b: seq<Entry>, c: Category)
    requires multiset(a) == multiset(b)
    ensures CategoryCount(a, c) == CategoryCount(b, c)
  {
    CountPermutation(a, b, (e: Entry) => e.categorySnapshot == c);
  }
}

=== FILE: dates.dfy ===
/** Calendar-day arithmetic over ISO `YYYY-MM-DD` strings. A local calendar
    day is a `Civil` (year, month, day) of the proleptic Gregorian calendar and
    has an integer `DayNumber` (days since 1970-01-01). "Today" is always an
    explicit parameter; JavaScript's `Invalid Date` is `None`. */
module Dates {
  import opened Seqs
  import opened Strings

  datatype Civil = Civil(year: int, month: int, day: int)

  predicate IsLeapYear(y: int) {
    y % 4 == 0 && (y % 100 != 0 || y % 400 == 0)
  }

  function DaysInMonth(y: int, m: int): int
    requires 1 <= m <= 12
  {
    if m == 2 then (if IsLeapYear(y) then 29 else 28)
    else if m == 4 || m == 6 || m == 9 || m == 11 then 30
    else 31
  }

  /** A real calendar day, which is what every JavaScript `Date` denotes. */
  predicate Valid(c: Civil) {
    1 <= c.month <= 12 && 1 <= c.day <= DaysInMonth(c.year, c.month)
  }

  function YearLength(y: int): int {
    if IsLeapYear(y) then 366 else 365
  }

  /** Leap years among the years before y, up to a constant. */
  function LeapsBefore(y: int): int {
    (y - 1) / 4 - (y - 1) / 100 + (y - 1) / 400
  }

  function DaysBeforeYear(y: int): int {
    365 * (y - 1970) + LeapsBefore(y) - LeapsBefore(1970)
  }

  function DaysBeforeMonth(y: int, m: int): int
    requires 1 <= m <= 12
  {
    (match m
     case 1 => 0 case 2 => 31 case 3 => 59 case 4 => 90 case 5 => 120 case 6 => 151
     case 7 => 181 case 8 => 212 case 9 => 243 case 10 => 273 case 11 => 304 case _ => 334)
    + (if m > 2 && IsLeapYear(y) then 1 else 0)
  }

  /** Days since 1970-01-01 (which is day 0). */
  function DayNumber(c: Civil): int
    requires Valid(c)
  {
    DaysBeforeYear(c.year) + DaysBeforeMonth(c.year, c.month) + c.day - 1
  }

  lemma DivStep(y: int)
    ensures y / 4 - (y - 1) / 4 == if y % 4 == 0 then 1 else 0
    ensures y / 100 - (y - 1) / 100 == if y % 100 == 0 then 1 else 0
    ensures y / 400 - (y - 1) / 400 == if y % 400 == 0 then 1 else 0
  {
  }

  lemma DaysBeforeYearStep(y: int)
    ensures DaysBeforeYear(y + 1) == DaysBeforeYear(y) + YearLength(y)
  {
    LeapStep(y);
  }

  /** Year y adds a leap day to the count exactly when it is a leap year. */
  lemma LeapStep(y: int)
    ensures LeapsBefore(y + 1) - LeapsBefore(y) == if IsLeapYear(y) then 1 else 0
  {
    DivStep(y);
    DivisibilityChain(y);
  }

  lemma DivisibilityChain(y: int)
    ensures y % 400 == 0 ==> y % 100 == 0
    ensures y % 100 == 0 ==> y % 4 == 0
  {
    if y % 400 == 0 { MultipleMod(y, 100, 4); }
    if y % 100 == 0 { MultipleMod(y, 4, 25); }
  }

  /** A multiple of d * k is a multiple of d. */
  lemma MultipleMod(y: int, d: int, k: int)
    requires d > 0 && k > 0 && y % (d * k) == 0
    ensures y % d == 0
  {
    var q := y / (d * k);
    assert y == d * (k * q);
    ModOfMultiple(d, k * q);
  }

  /** The remainder of d * m by d is 0. */
  lemma ModOfMultiple(d: int, m: int)
    requires d > 0
    ensures (d * m) % d == 0
  {
    var x := d * m;
    var t, r := x / d, x % d;
    assert x == d * t + r;
    assert d * (m - t) == r;
    if m - t >= 1 {
      MulAtLeast(d, m - t);
    } else if m - t <= -1 {
      MulAtLeast(d, t - m);
    }
  }

  lemma MulAtLeast(d: int, k: int)
    requires d > 0 && k >= 1
    ensures d * k >= d
  {
  }

  lemma DaysBeforeMonthStep(y: int, m: int)
    requires 1 <= m < 12
    ensures DaysBeforeMonth(y, m + 1) == DaysBeforeMonth(y, m) + DaysInMonth(y, m)
  {
  }

  lemma {:induction false} DaysBeforeYearMonotone(y1: int, y2: int)
    requires y1 < y2
    ensures DaysBeforeYear(y1) + YearLength(y1) <= DaysBeforeYear(y2)
    decreases y2 - y1
  {
    DaysBeforeYearStep(y1);
    if y1 + 1 < y2 {
      DaysBeforeYearMonotone(y1 + 1, y2);
    }
  }

  lemma {:induction false} DaysBeforeMonthMonotone(y: int, m1: int, m2: int)
    requires 1 <= m1 < m2 <= 12
    ensures DaysBeforeMonth(y, m1) + DaysInMonth(y, m1) <= DaysBeforeMonth(y, m2)
    decreases m2 - m1
  {
    DaysBeforeMonthStep(y, m1);
    if m1 + 1 < m2 {
      DaysBeforeMonthMonotone(y, m1 + 1, m2);
    }
  }

  /** The chronological order of calendar days. */
  predicate Before(a: Civil, b: Civil) {
    a.year < b.year || (a.year == b.year && (a.month < b.month || (a.month == b.month && a.day < b.day)))
  }

  /** Later calendar days have larger day numbers. */
  lemma DayNumberMonotone(a: Civil, b: Civil)
    requires Valid(a) && Valid(b) && Before(a, b)
    ensures DayNumber(a) < DayNumber(b)
  {
    if a.year < b.year {
      assert DaysBeforeMonth(a.year, a.month) + DaysInMonth(a.year, a.month) <= YearLength(a.year) by {
        if a.month < 12 { DaysBeforeMonthMonotone(a.year, a.month, 12); }
      }
      DaysBeforeYearMonotone(a.year, b.year);
    } else if a.month < b.month {
      DaysBeforeMonthMonotone(a.year, a.month, b.month);
    }
  }

  /** Different calendar days have different day numbers. */
  lemma DayNumberInjective(a: Civil, b: Civil)
    requires Valid(a) && Valid(b) && DayNumber(a) == DayNumber(b)
    ensures a == b
  {
    if Before(a, b) {
      DayNumberMonotone(a, b);
    } else if Before(b, a) {
      DayNumberMonotone(b, a);
    }
  }

  /** Earlier-or-equal by day number is exactly earlier-or-equal by calendar. */
  lemma BeforeIffDayNumber(a: Civil, b: Civil)
    requires Valid(a) && Valid(b)
    ensures Before(a, b) <==> DayNumber(a) < DayNumber(b)
  {
    if Before(a, b) {
      DayNumberMonotone(a, b);
    } else if Before(b, a) {
      DayNumberMonotone(b, a);
    }
  }

  /** The following calendar day (`setDate(getDate() + 1)`). */
  function Next(c: Civil): (r: Civil)
    requires Valid(c)
    ensures Valid(r) && DayNumber(r) == DayNumber(c) + 1
  {
    if c.day < DaysInMonth(c.year, c.month) then Civil(c.year, c.month, c.day + 1)
    else if c.month < 12 then
      DaysBeforeMonthStep(c.year, c.month);
      Civil(c.year, c.month + 1, 1)
    else
      DaysBeforeYearStep(c.year);
      Civil(c.year + 1, 1, 1)
  }

  /** The preceding calendar day (`setDate(getDate() - 1)`). */
  function Prev(c: Civil): (r: Civil)
    requires Valid(c)
    ensures Valid(r) && DayNumber(r) == DayNumber(c) - 1
  {
    if c.day > 1 then Civil(c.year, c.month, c.day - 1)
    else if c.month > 1 then
      DaysBeforeMonthStep(c.year, c.month - 1);
      Civil(c.year, c.month - 1, DaysInMonth(c.year, c.month - 1))
    else
      DaysBeforeYearStep(c.year - 1);
      Civil(c.year - 1, 12, 31)
  }

  /** The day n days after c (before it when n < 0), rolling over months and
      years as `Date.prototype.setDate` does. */
  function AddDays(c: Civil, n: int): (r: Civil)
    requires Valid(c)
    ensures Valid(r) && DayNumber(r) == DayNumber(c) + n
    decreases if n >= 0 then n else -n
  {
    if n == 0 then c
    else if n > 0 then AddDays(Next(c), n - 1)
    else AddDays(Prev(c), n + 1)
  }

  /** Going n days forward and n days back returns to the same day, across
      month and year boundaries. */
  lemma AddDaysInverse(c: Civil, n: int)
    requires Valid(c)
    ensures AddDays(AddDays(c, n), -n) == c
    ensures AddDays(c, 0) == c
  {
    DayNumberInjective(AddDays(AddDays(c, n), -n), c);
  }

  /** The weekday of day number d: 1970-01-01 (day 0) was a Thursday. */
  function Weekday(d: int): (w: int)
    ensures 0 <= w < 7
  {
    (d + 4) % 7
  }

  /** `Date.prototype.getDay()`: 0 = Sunday … 6 = Saturday. */
  function DayOfWeek(c: Civil): (w: int)
    requires Valid(c)
    ensures 0 <= w < 7
  {
    Weekday(DayNumber(c))
  }

  /** The anchor of `getDay()`: 1 January 1970 was a Thursday (4), and
      7 January 2024 a Sunday (0). */
  lemma DayOfWeekAnchors()
    ensures DayOfWeek(Civil(1970, 1, 1)) == 4
    ensures DayOfWeek(Civil(2024, 1, 7)) == 0
  {
  }

  /** n days later is n weekdays later, modulo the week. */
  lemma DayOfWeekAdvances(c: Civil, n: int)
    requires Valid(c)
    ensures DayOfWeek(Next(c)) == (DayOfWeek(c) + 1) % 7
    ensures DayOfWeek(AddDays(c, n)) == (DayOfWeek(c) + n) % 7
  {
    DayOfWeekLater(c, Next(c), 1);
    DayOfWeekLater(c, AddDays(c, n), n);
  }

  lemma DayOfWeekLater(a: Civil, b: Civil, n: int)
    requires Valid(a) && Valid(b) && DayNumber(b) == DayNumber(a) + n
    ensures DayOfWeek(b) == (DayOfWeek(a) + n) % 7
  {
    WeekdayShift(DayNumber(a), DayNumber(b), n);
  }

  lemma WeekdayShift(d: int, e: int, n: int)
    requires e == d + n
    ensures Weekday(e) == (Weekday(d) + n) % 7
  {
    var k := d + 4;
    var q := k / 7;
    assert k == 7 * q + k % 7;
    assert k + n == 7 * q + (k % 7 + n);
  }

  // ---------------------------------------------------------------- ISO strings

  /** `toISO(date)`: `${year}-${month}-${day}` with month and day padded to
      two digits with '0'; the year is printed as is. */
  function ToISO(c: Civil): (s: string)
    requires Valid(c)
    ensures s == IntToString(c.year) + ("-" + (Fixed(c.month, 2) + ("-" + Fixed(c.day, 2))))
  {
    PadTwoDigits(c.month);
    PadTwoDigits(c.day);
    IntToString(c.year) + ("-" + (PadStart(NatToString(c.month), 2, '0') + ("-" + PadStart(NatToString(c.day), 2, '0'))))
  }

  /** What `toISO` prints for an `Invalid Date`. */
  const InvalidISO: string := "NaN-NaN-NaN"

  /** The ten-character layout `DDDD-DD-DD`. */
  predicate HasISOShape(s: string) {
    |s| == 10 && s[4] == '-' && s[7] == '-' &&
    AllDigits(s[..4]) && AllDigits(s[5..7]) && AllDigits(s[8..])
  }

  /** `new Date(s + 'T00:00:00')`: the local day named by a `YYYY-MM-DD`
      string, or `None` (an `Invalid Date`) for anything else. */
  function ParseISO(s: string): (r: Option<Civil>)
    ensures r.Some? ==> HasISOShape(s) && Valid(r.value)
    ensures r.Some? ==> 0 <= r.value.year && Fixed(r.value.year, 4) == s[..4] && Fixed(r.value.month, 2) == s[5..7] && Fixed(r.value.day, 2) == s[8..]
  {
    if !HasISOShape(s) then None
    else
      var c := Civil(ParseDigits(s[..4]), ParseDigits(s[5..7]), ParseDigits(s[8..]));
      FixedParse(s[..4]);
      FixedParse(s[5..7]);
      FixedParse(s[8..]);
      if Valid(c) then Some(c) else None
  }

  /** A well-formed ISO day as `toISO` prints it: parseable, four-digit year. */
  predicate IsISODay(s: string) {
    ParseISO(s).Some? && s[0] != '0'
  }

  /** The day an ISO day string names. */
  function DayOf(s: string): Civil
    requires IsISODay(s)
  {
    ParseISO(s).value
  }

  /** A day of a four-digit year prints as `YYYY-MM-DD`. */
  lemma ToISOLayout(c: Civil)
    requires Valid(c) && 1000 <= c.year <= 9999
    ensures ToISO(c) == Fixed(c.year, 4) + ("-" + (Fixed(c.month, 2) + ("-" + Fixed(c.day, 2))))
  {
    FourDigits(c.year);
  }

  lemma FixedLeadingZero(n: nat, k: nat)
    requires 1 <= k && n < Pow10(k - 1)
    ensures Fixed(n, k)[0] == '0'
  {
    if k > 1 {
      FixedLeadingZero(n / 10, k - 1);
    }
  }

  /** A digit string with a leading zero has a value below 10^(length - 1). */
  lemma {:induction false} LeadingZeroSmall(s: string)
    requires |s| >= 1 && AllDigits(s) && s[0] == '0'
    ensures ParseDigits(s) < Pow10(|s| - 1)
    decreases |s|
  {
    if |s| > 1 {
      var init := s[..|s| - 1];
      assert init[0] == '0';
      LeadingZeroSmall(init);
      assert Pow10(|s| - 1) == 10 * Pow10(|s| - 2);
    }
  }

  /** `toISO` prints the year, a dash, the 1-based month in two digits, a dash
      and the day of the month in two digits; reading the fields back gives
      the day it printed. */
  lemma ToISOFormat(c: Civil)
    requires Valid(c) && 1000 <= c.year <= 9999
    ensures var s := ToISO(c);
      |s| == 10 && s[4] == '-' && s[7] == '-' &&
      AllDigits(s[..4]) && AllDigits(s[5..7]) && AllDigits(s[8..]) &&
      ParseDigits(s[..4]) == c.year && ParseDigits(s[5..7]) == c.month && ParseDigits(s[8..]) == c.day
  {
    ToISOLayout(c);
    JoinFields(Fixed(c.year, 4), Fixed(c.month, 2), Fixed(c.day, 2));
    assert Pow10(4) == 10000 && Pow10(2) == 100;
    ParseFixed(c.year, 4);
    ParseFixed(c.month, 2);
    ParseFixed(c.day, 2);
  }

  /** Where the three fields sit in `YYYY-MM-DD`. */
  lemma JoinFields(y: string, m: string, d: string)
    requires |y| == 4 && |m| == 2 && |d| == 2
    ensures var s := y + ("-" + (m + ("-" + d)));
      |s| == 10 && s[4] == '-' && s[7] == '-' && s[..4] == y && s[5..7] == m && s[8..] == d
  {
    var s := y + ("-" + (m + ("-" + d)));
    assert s[..4] == y;
    assert s[5..7] == m;
    assert s[8..] == d;
  }

  /** Parsing what `toISO` printed gives back the same day. */
  lemma ParseToISO(c: Civil)
    requires Valid(c) && 1000 <= c.year <= 9999
    ensures ParseISO(ToISO(c)) == Some(c)
    ensures IsISODay(ToISO(c))
  {
    ToISOFormat(c);
    ToISOLayout(c);
    assert ToISO(c)[0] == Fixed(c.year, 4)[0];
    ParseFixed(c.year, 4);
    if Fixed(c.year, 4)[0] == '0' {
      LeadingZeroSmall(Fixed(c.year, 4));
      assert false;
    }
  }

  /** `toISO(parseISO(s)) == s` for every well-formed day string. */
  lemma ToISOParse(s: string)
    requires IsISODay(s)
    ensures 1000 <= DayOf(s).year <= 9999
    ensures ToISO(DayOf(s)) == s
  {
    var c := DayOf(s);
    ISODayFields(s);
    ToISOLayout(c);
    ISOShapeSplit(s);
  }

  /** The fields of a well-formed day string are the fixed-width forms of
      its year, month and day. */
  lemma ISODayFields(s: string)
    requires IsISODay(s)
    ensures 1000 <= DayOf(s).year <= 9999
    ensures Fixed(DayOf(s).year, 4) == s[..4]
    ensures Fixed(DayOf(s).month, 2) == s[5..7]
    ensures Fixed(DayOf(s).day, 2) == s[8..]
  {
    var c := DayOf(s);
    FixedParse(s[..4]);
    assert Pow10(4) == 10000;
    if c.year < 1000 {
      assert Pow10(3) == 1000;
      FixedLeadingZero(c.year, 4);
      assert false;
    }
  }

  lemma ISOShapeSplit(s: string)
    requires HasISOShape(s)
    ensures s == s[..4] + ("-" + (s[5..7] + ("-" + s[8..])))
  {
  }

  /** The comparison the application performs on day strings (`a < b`) is
      the chronological comparison of the days they name. */
  lemma ISOLessIsChronological(a: string, b: string)
    requires IsISODay(a) && IsISODay(b)
    ensures Less(a, b) <==> DayNumber(DayOf(a)) < DayNumber(DayOf(b))
    ensures a == b <==> DayNumber(DayOf(a)) == DayNumber(DayOf(b))
  {
    var ca, cb := DayOf(a), DayOf(b);
    ToISOParse(a);
    ToISOParse(b);
    ToISOLayout(ca);
    ToISOLayout(cb);
    ISOLessIsCivilBefore(ca, cb);
    BeforeIffDayNumber(ca, cb);
    BeforeIffDayNumber(cb, ca);
    if DayNumber(ca) == DayNumber(cb) {
      DayNumberInjective(ca, cb);
    }
  }

  lemma ISOLessIsCivilBefore(ca: Civil, cb: Civil)
    requires Valid(ca) && 1000 <= ca.year <= 9999
    requires Valid(cb) && 1000 <= cb.year <= 9999
    ensures Less(ToISO(ca), ToISO(cb)) <==> Before(ca, cb)
  {
    ToISOLayout(ca);
    ToISOLayout(cb);
    var ya, yb := Fixed(ca.year, 4), Fixed(cb.year, 4);
    var ma, mb := Fixed(ca.month, 2), Fixed(cb.month, 2);
    var da, db := Fixed(ca.day, 2), Fixed(cb.day, 2);
    FixedLess(ca.year, cb.year, 4);
    FixedInjective(ca.year, cb.year, 4);
    FixedLess(ca.month, cb.month, 2);
    FixedInjective(ca.month, cb.month, 2);
    FixedLess(ca.day, cb.day, 2);
    LessIrreflexive("-");
    LessAppend(ya, yb, "-" + (ma + ("-" + da)), "-" + (mb + ("-" + db)));
    LessAppend("-", "-", ma + ("-" + da), mb + ("-" + db));
    LessAppend(ma, mb, "-" + da, "-" + db);
    LessAppend("-", "-", da, db);
  }

  // ---------------------------------------------------------------- dateUtils

  /** `getTodayISO()`, for the given local day. */
  function TodayISO(today: Civil): string
    requires Valid(today)
  {
    ToISO(today)
  }

  /** `isToday(dateISO)`: for a today with a four-digit year, exactly the
      well-formed day string naming today. */
  predicate IsToday(today: Civil, s: string): (b: bool)
    requires Valid(today)
    ensures 1000 <= today.year <= 9999 ==> (b <==> IsISODay(s) && DayOf(s) == today)
  {
    if 1000 <= today.year <= 9999 && IsISODay(s) then
      ParseToISO(today);
      ToISOParse(s);
      s == TodayISO(today)
    else if 1000 <= today.year <= 9999 then
      ParseToISO(today);
      s == TodayISO(today)
    else
      s == TodayISO(today)
  }

  /** `getOffsetFromDateISO(dateISO)`: signed whole days from today to the
      day named by s, or `None` (NaN) when s names no day. */
  function OffsetFromToday(today: Civil, s: string): (r: Option<int>)
    requires Valid(today)
    ensures r.Some? <==> ParseISO(s).Some?
  {
    match ParseISO(s)
    case Some(c) => Some(DayNumber(c) - DayNumber(today))
    case None => None
  }

  /** `addDaysToDateISO(dateISO, days)`: an unparseable day gives the
      `Invalid Date` string; otherwise, while the year stays four digits, a
      well-formed day string n days later. */
  function AddDaysToISO(s: string, n: int): (r: string)
    ensures ParseISO(s).None? ==> r == InvalidISO
    ensures ParseISO(s).Some? && 1000 <= AddDays(ParseISO(s).value, n).year <= 9999 ==>
      IsISODay(r) && DayNumber(DayOf(r)) == DayNumber(ParseISO(s).value) + n
  {
    match ParseISO(s)
    case Some(c) =>
      var d := AddDays(c, n);
      if 1000 <= d.year <= 9999 then
        ParseToISO(d);
        ToISO(d)
      else
        ToISO(d)
    case None => InvalidISO
  }

  /** `getDayOfWeekFromDateISO(dateISO)`, `None` for NaN. */
  function DayOfWeekISO(s: string): (r: Option<int>)
    ensures r.Some? ==> 0 <= r.value < 7
    ensures r.Some? <==> ParseISO(s).Some?
  {
    match ParseISO(s)
    case Some(c) => Some(DayOfWeek(c))
    case None => None
  }

  /** `getDaysAgo(days)`. */
  function DaysAgoISO(today: Civil, n: int): string
    requires Valid(today)
  {
    ToISO(AddDays(today, -n))
  }

  /** Round trip of `addDaysToDateISO` on a well-formed day, as long as the
      intermediate day still has a four-digit year. */
  lemma AddDaysToISOInverse(s: string, n: int)
    requires IsISODay(s)
    requires 1000 <= AddDays(DayOf(s), n).year <= 9999
    ensures AddDaysToISO(AddDaysToISO(s, n), -n) == s
    ensures AddDaysToISO(s, 0) == s
  {
    var c := DayOf(s);
    var d := AddDays(c, n);
    assert AddDaysToISO(s, n) == ToISO(d);
    ParseToISO(d);
    AddDaysInverse(c, n);
    assert AddDaysToISO(ToISO(d), -n) == ToISO(c);
    ToISOParse(s);
  }

  /** Adding one day to a day string advances its weekday by one. */
  lemma DayOfWeekISOAdvances(s: string)
    requires IsISODay(s)
    requires AddDays(DayOf(s), 1).year <= 9999
    ensures DayOfWeekISO(AddDaysToISO(s, 1)) == Some((DayOfWeekISO(s).value + 1) % 7)
  {
    var c := DayOf(s);
    var d := AddDays(c, 1);
    ToISOParse(s);
    assert d == Next(c);
    ParseToISO(d);
    WeekdayOfParsed(s, AddDaysToISO(s, 1), 1);
  }

  lemma WeekdayOfParsed(s: string, t: string, n: int)
    requires ParseISO(s).Some? && ParseISO(t).Some?
    requires DayNumber(ParseISO(t).value) == DayNumber(ParseISO(s).value) + n
    ensures DayOfWeekISO(t) == Some((DayOfWeekISO(s).value + n) % 7)
  {
    DayOfWeekLater(ParseISO(s).value, ParseISO(t).value, n);
  }

  /** The day n days from today is n days from today. */
  lemma OffsetOfAddDays(today: Civil, n: int)
    requires Valid(today) && 1000 <= today.year <= 9999
    requires 1000 <= AddDays(today, n).year <= 9999
    ensures OffsetFromToday(today, AddDaysToISO(TodayISO(today), n)) == Some(n)
  {
    ParseToISO(today);
    var d := AddDays(today, n);
    assert AddDaysToISO(TodayISO(today), n) == ToISO(d);
    ParseToISO(d);
    OffsetOfParsed(today, ToISO(d), n);
  }

  lemma OffsetOfParsed(today: Civil, t: string, n: int)
    requires Valid(today) && ParseISO(t).Some?
    requires DayNumber(ParseISO(t).value) == DayNumber(today) + n
    ensures OffsetFromToday(today, t) == Some(n)
  {
  }

  /** `isToday(d)` holds exactly for the day whose offset from today is 0. */
  lemma IsTodayIffZeroOffset(today: Civil, s: string)
    requires Valid(today) && 1000 <= today.year <= 9999
    requires IsISODay(s)
    ensures IsToday(today, s) <==> OffsetFromToday(today, s) == Some(0)
  {
    ParseToISO(today);
    ToISOParse(s);
    if DayNumber(DayOf(s)) == DayNumber(today) {
      DayNumberInjective(DayOf(s), today);
    }
  }

  /** The label of a day: a fixed relative word, or the day to be written in
      the `es-ES` locale format (which the model does not spell out). */
  datatype DayLabel = Relative(text: string) | LocaleDate(offset: int)

  /** `formatDayLabel(daysOffset)`. */
  function DayLabelFor(offset: int): (r: DayLabel)
    ensures r == Relative("Hoy") <==> offset == 0
    ensures r == Relative("Ayer") <==> offset == -1
    ensures r == Relative("Mañana") <==> offset == 1
    ensures r.LocaleDate? <==> offset !in {-1, 0, 1}
  {
    if offset == 0 then Relative("Hoy")
    else if offset == -1 then Relative("Ayer")
    else if offset == 1 then Relative("Mañana")
    else LocaleDate(offset)
  }

  /** `formatDateLabel(dateISO)`. A string that names no day has a NaN
      offset and falls through to the locale branch (`None` here). */
  function DateLabelFor(today: Civil, s: string): (r: Option<DayLabel>)
    requires Valid(today)
    ensures r == Some(Relative("Hoy")) <==> OffsetFromToday(today, s) == Some(0)
    ensures r == Some(Relative("Ayer")) <==> OffsetFromToday(today, s) == Some(-1)
    ensures r == Some(Relative("Mañana")) <==> OffsetFromToday(today, s) == Some(1)
  {
    match OffsetFromToday(today, s)
    case Some(k) => Some(DayLabelFor(k))
    case None => None
  }
}

=== FILE: defaults.dfy ===
/** The catalogue of habits a new account starts with, and its conversion
    into stored habits. The clock `Date.now()` is a parameter: `clock(k)` is
    the reading of its k-th call, two calls per habit (id, then createdAt). */
module Defaults {
  import opened Seqs
  import opened Strings
  import opened Types

  /** One element of `DEFAULT_HABITS`. */
  datatype DefaultHabitData = DefaultHabitData(
    name: string,
    description: string,
    category: Category,
    xp: int,
    periodicity: Periodicity,
    daysOfWeek: seq<int>)

  /** `DEFAULT_HABITS`, in the order of the source. */
  const DefaultHabits: seq<DefaultHabitData> :=
    [
      DefaultHabitData("Prepara el Descanso",
        "Evita pantallas al menos 30 minutos antes de dormir.",
        Energia, 0, Daily, [0, 1, 2, 3, 4, 5, 6]),
      DefaultHabitData("Duerme entre 6-8h",
        "Recupera tu cuerpo y mente lo suficiente.",
        Energia, 0, Daily, [0, 1, 2, 3, 4, 5, 6]),
      DefaultHabitData("Plan del Día",
        "Crea en esta aplicación las tareas imprescindibles para hoy.",
        Mente, 0, Daily, [0, 1, 2, 3, 4, 5, 6]),
      DefaultHabitData("Visualización de Éxito",
        "Cierra los ojos e imagina con claridad que has logrado tu objetivo.",
        Mente, 0, Daily, [0, 1, 2, 3, 4, 5, 6]),
      DefaultHabitData("Ritual de Gratitud (3 cosas)",
        "Agradece conscientemente tres cosas de tu día.",
        Mente, 0, Daily, [0, 1, 2, 3, 4, 5, 6]),
      DefaultHabitData("Mejora de Habilidad Clave",
        "Aprende algo útil que aumente tu valor personal o profesional.",
        Trabajo, 0, Daily, [0, 1, 2, 3, 4, 5, 6]),
      DefaultHabitData("Paso Estratégico",
        "Haz una acción concreta que te acerque a tu objetivo principal.",
        Trabajo, 0, Daily, [0, 1, 2, 3, 4, 5, 6]),
      DefaultHabitData("Control de Finanzas",
        "Revisa tus ingresos y gastos para mantener el control.",
        Dinero, 0, Daily, [0, 1, 2, 3, 4, 5, 6]),
      DefaultHabitData("Capricho",
        "Evita una compra impulsiva que no necesitas.",
        Dinero, 0, Daily, [0, 1, 2, 3, 4, 5, 6]),
      DefaultHabitData("Micro-Lección Financiera",
        "Aprende algo nuevo sobre ahorro, inversión o gestión del dinero.",
        Dinero, 0, Daily, [0, 1, 2, 3, 4, 5, 6]),
      DefaultHabitData("Conexión Real",
        "Habla o comparte un momento significativo con alguien.",
        Relaciones, 0, Daily, [0, 1, 2, 3, 4, 5, 6]),
      DefaultHabitData("Acto de Servicio",
        "Ayuda a alguien sin esperar nada a cambio.",
        Relaciones, 0, Daily, [0, 1, 2, 3, 4, 5, 6]),
      DefaultHabitData("Tiempo de Calidad",
        "Dedica atención plena a las personas importantes para ti.",
        Relaciones, 0, Daily, [0, 1, 2, 3, 4, 5, 6]),
      DefaultHabitData("Día sin Quejas",
        "No te has quejado ni resoplado.",
        Mente, 0, Daily, [0, 1, 2, 3, 4, 5, 6]),
      DefaultHabitData("Intención Pura",
        "No se las deseado mal a nadie.",
        Mente, 0, Daily, [0, 1, 2, 3, 4, 5, 6]),
      DefaultHabitData("Lectura (15\')",
        "Lee al menos 15 minutos un libro.",
        Mente, 0, Daily, [0, 1, 2, 3, 4, 5, 6]),
      DefaultHabitData("Movimiento Diario (20 min)",
        "Realiza al menos 20 minutos de actividad física, aunque sea caminar.",
        Cuerpo, 0, Daily, [0, 1, 2, 3, 4, 5, 6]),
      DefaultHabitData("Duchate",
        "Lávate el cuerpo completo.",
        Cuerpo, 0, Daily, [0, 1, 2, 3, 4, 5, 6]),
      DefaultHabitData("Dientes",
        "Lavate los dientes.",
        Cuerpo, 0, Daily, [0, 1, 2, 3, 4, 5, 6]),
      DefaultHabitData("Pulmones Limpios",
        "No fumes durante todo el día.",
        Cuerpo, 0, Daily, [0, 1, 2, 3, 4, 5, 6]),
      DefaultHabitData("0 Alcohol",
        "No consumas alcohol para mantener tu cuerpo limpio y enfocado.",
        Cuerpo, 0, Daily, [0, 1, 2, 3, 4, 5, 6])
    ]

  /** `default-habit-${index}-${Date.now()}`. */
  function DefaultId(index: nat, time: Timestamp): string {
    "default-habit-" + NatToString(index) + "-" + IntToString(time)
  }

  /** The stored habit built from the element at `index`. */
  function DefaultHabit(d: DefaultHabitData, index: nat, idTime: Timestamp, createdAt: Timestamp): Habit {
    Habit(
      id := DefaultId(index, idTime),
      name := d.name,
      description := Some(d.description),
      category := d.category,
      xp := d.xp,
      unitType := None,
      minThreshold := None,
      tags := None,
      isPinned := Some(true),
      periodicity := Some(d.periodicity),
      daysOfWeek := Some(d.daysOfWeek),
      targetDate := None,
      order := Some(index),
      isBeforeSleep := None,
      createdAt := createdAt)
  }

  /** The element at `index` made a habit, the clock read twice in turn. */
  function DefaultHabitAt(clock: nat -> Timestamp): (DefaultHabitData, nat) -> Habit {
    (d: DefaultHabitData, index: nat) => DefaultHabit(d, index, clock(2 * index), clock(2 * index + 1))
  }

  /** `data.map((d, index) => ...)`: one pinned habit per element, in
      order, with the element's fields and its index as order. */
  function CreateHabits(data: seq<DefaultHabitData>, clock: nat -> Timestamp): (r: seq<Habit>)
    ensures |r| == |data|
    ensures forall i :: 0 <= i < |r| ==>
      r[i].name == data[i].name && r[i].description == Some(data[i].description) &&
      r[i].category == data[i].category && r[i].xp == data[i].xp &&
      r[i].periodicity == Some(data[i].periodicity) && r[i].daysOfWeek == Some(data[i].daysOfWeek)
    ensures forall i :: 0 <= i < |r| ==> r[i].order == Some(i) && IsPinned(r[i])
    ensures forall i :: 0 <= i < |r| ==> r[i].createdAt == clock(2 * i + 1)
    ensures forall i :: 0 <= i < |r| ==> r[i].id == DefaultId(i, clock(2 * i))
  {
    var r := MapIndexed(data, DefaultHabitAt(clock));
    assert forall i :: 0 <= i < |r| ==> r[i] == DefaultHabit(data[i], i, clock(2 * i), clock(2 * i + 1));
    r
  }

  /** `createDefaultHabits()`. */
  function CreateDefaultHabits(clock: nat -> Timestamp): (r: seq<Habit>)
    ensures |r| == 21
    ensures r == CreateHabits(DefaultHabits, clock)
  {
    CreateHabits(DefaultHabits, clock)
  }

  /** Every catalogue element is a daily habit on all seven weekdays worth
      no xp, with a non-empty name. */
  lemma DefaultsAreDaily()
    ensures forall i :: 0 <= i < |DefaultHabits| ==>
      DefaultHabits[i].periodicity == Daily && DefaultHabits[i].daysOfWeek == AllDays &&
      DefaultHabits[i].xp == 0 && DefaultHabits[i].name != ""
  {
  }

  /** Each of the six categories has at least one default habit. */
  lemma DefaultsCoverCategories(c: Category)
    ensures exists i :: 0 <= i < |DefaultHabits| && DefaultHabits[i].category == c
  {
    var i := match c
      case Energia => 0
      case Mente => 2
      case Trabajo => 5
      case Dinero => 7
      case Relaciones => 10
      case Cuerpo => 16;
    assert DefaultHabits[i].category == c;
  }

  /** Reading back the digits of a number gives the number. */
  lemma {:induction false} ParseNatToString(n: nat)
    ensures ParseDigits(NatToString(n)) == n
    decreases n
  {
    var s := NatToString(n);
    if n >= 10 {
      ParseNatToString(n / 10);
      assert s[..|s| - 1] == NatToString(n / 10);
    }
  }

  /** Two generated ids are equal only for the same index, whatever the clock
      read: the index is followed by '-', which is not a digit. */
  lemma DefaultIdInjective(i: nat, j: nat, t: Timestamp, u: Timestamp)
    requires DefaultId(i, t) == DefaultId(j, u)
    ensures i == j
  {
    DigitsBeforeDash("default-habit-", NatToString(i), NatToString(j), IntToString(t), IntToString(u));
    ParseNatToString(i);
    ParseNatToString(j);
  }

  /** Digits followed by a dash are delimited by it: the first dash after the
      common prefix ends both digit strings. */
  lemma DigitsBeforeDash(p: string, a: string, b: string, x: string, y: string)
    requires AllDigits(a) && AllDigits(b)
    requires p + a + "-" + x == p + b + "-" + y
    ensures a == b
  {
    var s := p + a + "-" + x;
    assert s[|p| + |a|] == '-';
    assert (p + b + "-" + y)[|p| + |b|] == '-';
    assert |a| == |b| by {
      if |a| < |b| {
        assert false;
      } else if |b| < |a| {
        assert false;
      }
    }
    assert a == s[|p|..|p| + |a|];
    assert b == (p + b + "-" + y)[|p|..|p| + |b|];
  }

  /** The generated habits have pairwise distinct ids. */
  lemma DefaultIdsDistinct(data: seq<DefaultHabitData>, clock: nat -> Timestamp)
    ensures UniqueIds(CreateHabits(data, clock))
  {
    var r := CreateHabits(data, clock);
    forall i, j | 0 <= i < j < |r| ensures r[i].id != r[j].id {
      assert r[i].id == DefaultId(i, clock(2 * i));
      assert r[j].id == DefaultId(j, clock(2 * j));
      if r[i].id == r[j].id {
        DefaultIdInjective(i, j, clock(2 * i), clock(2 * j));
      }
    }
  }
}

=== FILE: entries.dfy ===
/** Creating an entry and the transitions of the entry list: finding the entry
    that completes a habit for a period, toggling completion, updating,
    deleting and selecting by day. Each persistence call is reduced to the
    success flag it reports; the generated id, the clock reading and today's
    day string are parameters. */
module Entries {
  import opened Seqs
  import opened Types

  /** `createEntry(habit, unitValue, dateISO)`, where `id` is what the id
      generator returns, `timestamp` what `Date.now()` returns and `todayISO`
      what `getTodayISO()` returns. */
  function CreateEntry(h: Habit, unitValue: Option<real>, dateISO: Option<string>,
                       todayISO: string, id: string, timestamp: Timestamp): (e: Entry)
    ensures e.habitId == h.id && e.categorySnapshot == h.category
    ensures e.dateISO == (if IsTruthy(dateISO) then dateISO.value else todayISO)
    ensures e.unitValue == unitValue
    ensures e.xpBase == 0 && e.xpEffective == 0
  {
    Entry(id, h.id, if IsTruthy(dateISO) then dateISO.value else todayISO, timestamp, unitValue, 0, 0, h.category)
  }

  /** The generated id and timestamp end up in the id and timestamp fields
      and nowhere else: two creations that differ only in them differ only
      in those two fields. */
  lemma CreateEntryFreshFields(h: Habit, unitValue: Option<real>, dateISO: Option<string>, todayISO: string,
                               id1: string, t1: Timestamp, id2: string, t2: Timestamp)
    ensures CreateEntry(h, unitValue, dateISO, todayISO, id1, t1).id == id1
    ensures CreateEntry(h, unitValue, dateISO, todayISO, id1, t1).timestamp == t1
    ensures CreateEntry(h, unitValue, dateISO, todayISO, id2, t2) ==
            CreateEntry(h, unitValue, dateISO, todayISO, id1, t1).(id := id2, timestamp := t2)
  {
  }

  /** `e => e.habitId === id && e.dateISO === d`. */
  function OfHabitOn(id: string, d: string): Entry -> bool {
    (e: Entry) => e.habitId == id && e.dateISO == d
  }

  /** `e => e.id !== id`. */
  function WithoutId(id: string): Entry -> bool {
    (e: Entry) => e.id != id
  }

  /** `findPeriodEntry(habit, targetDateISO)` over the current entries. */
  function FindPeriodEntry(es: seq<Entry>, h: Habit, target: Option<string>, todayISO: string): (r: Option<Entry>)
    ensures r.Some? ==> r.value in es && r.value.habitId == h.id
  {
    var habitEntries := Filter(es, OfHabit(h.id));
    if IsTruthy(target) then Find(habitEntries, OnDay(target.value))
    else match PeriodicityOf(h)
      case Once => if |habitEntries| == 0 then None else Some(habitEntries[0])
      case Daily => Find(habitEntries, OnDay(todayISO))
  }

  /** With a date, the entry found is the first entry of the habit dated on
      it; without one, a once habit finds its first entry of any day and a
      daily habit its first entry of today. */
  lemma FindPeriodEntryIsFirst(es: seq<Entry>, h: Habit, target: Option<string>, todayISO: string)
    ensures IsTruthy(target) ==>
      FindPeriodEntry(es, h, target, todayISO) == Find(es, OfHabitOn(h.id, target.value))
    ensures !IsTruthy(target) && PeriodicityOf(h) == Once ==>
      FindPeriodEntry(es, h, target, todayISO) == Find(es, OfHabit(h.id))
    ensures !IsTruthy(target) && PeriodicityOf(h) == Daily ==>
      FindPeriodEntry(es, h, target, todayISO) == Find(es, OfHabitOn(h.id, todayISO))
  {
    if IsTruthy(target) {
      FindFilter(es, OfHabit(h.id), OnDay(target.value), OfHabitOn(h.id, target.value));
    } else if PeriodicityOf(h) == Once {
      FilterHead(es, OfHabit(h.id));
    } else {
      FindFilter(es, OfHabit(h.id), OnDay(todayISO), OfHabitOn(h.id, todayISO));
    }
  }

  /** The day a toggle acts on: `targetDateISO || getTodayISO()`. */
  function ToggleDate(target: Option<string>, todayISO: string): string {
    if IsTruthy(target) then target.value else todayISO
  }

  datatype ToggleResult = ToggleResult(entries: seq<Entry>, success: bool, added: bool)

  /** `toggleEntry(habit, targetDateISO)`: `persisted` is what the delete or
      add call reports, and `newId`/`timestamp` are what `createEntry` would
      generate. An existing entry is deleted whatever the habit's
      periodicity, once tasks included. */
  function ToggleEntry(es: seq<Entry>, h: Habit, target: Option<string>, todayISO: string,
                       newId: string, timestamp: Timestamp, persisted: bool): (r: ToggleResult)
    ensures r.success == persisted
    ensures !persisted ==> r.entries == es
    ensures persisted && r.added ==>
      |r.entries| == |es| + 1 && r.entries[..|es|] == es &&
      r.entries[|es|].id == newId && r.entries[|es|].habitId == h.id &&
      r.entries[|es|].categorySnapshot == h.category && r.entries[|es|].unitValue.None?
    ensures persisted && !r.added ==>
      exists i :: 0 <= i < |es| && es[i].habitId == h.id && r.entries == Filter(es, WithoutId(es[i].id))
  {
    var d := ToggleDate(target, todayISO);
    match FindPeriodEntry(es, h, Some(d), todayISO)
    case Some(existing) =>
      var i :| 0 <= i < |es| && es[i] == existing;
      ToggleResult(if persisted then Filter(es, WithoutId(existing.id)) else es, persisted, false)
    case None =>
      var e := CreateEntry(h, None, Some(d), todayISO, newId, timestamp);
      assert (es + [e])[..|es|] == es;
      ToggleResult(if persisted then es + [e] else es, persisted, true)
  }

  /** With a non-empty today (`getTodayISO` always returns one), a toggle adds
      exactly when the habit has no entry on the toggled day, the added entry
      is dated that day, and otherwise the first entry of the habit on that
      day is the one removed. */
  lemma ToggleActsOnDay(es: seq<Entry>, h: Habit, target: Option<string>, todayISO: string,
                        newId: string, timestamp: Timestamp, persisted: bool)
    requires todayISO != ""
    ensures var d := ToggleDate(target, todayISO);
      var r := ToggleEntry(es, h, target, todayISO, newId, timestamp, persisted);
      (r.added <==> forall i :: 0 <= i < |es| ==> !OfHabitOn(h.id, d)(es[i])) &&
      (persisted && r.added ==> r.entries[|es|].dateISO == d) &&
      (persisted && !r.added ==> r.entries == Filter(es, WithoutId(Find(es, OfHabitOn(h.id, d)).value.id)))
  {
    var d := ToggleDate(target, todayISO);
    FindPeriodEntryIsFirst(es, h, Some(d), todayISO);
  }

  /** At most one entry per habit and day. */
  predicate OnePerHabitDay(es: seq<Entry>) {
    forall i, j :: 0 <= i < j < |es| ==> !(es[i].habitId == es[j].habitId && es[i].dateISO == es[j].dateISO)
  }

  /** Distinct habit-day keys, as a relation between earlier and later entries. */
  function DifferentHabitDay(): (Entry, Entry) -> bool {
    (a: Entry, b: Entry) => !(a.habitId == b.habitId && a.dateISO == b.dateISO)
  }

  lemma FilterKeepsOnePerHabitDay(es: seq<Entry>, p: Entry -> bool)
    requires OnePerHabitDay(es)
    ensures OnePerHabitDay(Filter(es, p))
  {
    assert Pairwise(es, DifferentHabitDay());
    FilterKeepsPairwise(es, p, DifferentHabitDay());
    var r := Filter(es, p);
    assert Pairwise(r, DifferentHabitDay());
  }

  /** Toggling keeps at most one entry per habit and day. */
  lemma ToggleKeepsOnePerHabitDay(es: seq<Entry>, h: Habit, target: Option<string>, todayISO: string,
                                  newId: string, timestamp: Timestamp, persisted: bool)
    requires todayISO != ""
    requires OnePerHabitDay(es)
    ensures OnePerHabitDay(ToggleEntry(es, h, target, todayISO, newId, timestamp, persisted).entries)
  {
    var r := ToggleEntry(es, h, target, todayISO, newId, timestamp, persisted);
    ToggleActsOnDay(es, h, target, todayISO, newId, timestamp, persisted);
    if persisted {
      if r.added {
        var out := r.entries;
        forall i, j | 0 <= i < j < |out|
          ensures !(out[i].habitId == out[j].habitId && out[i].dateISO == out[j].dateISO)
        {
          assert out[i] == es[i];
          if j < |es| { assert out[j] == es[j]; }
        }
      } else {
        var x :| 0 <= x < |es| && es[x].habitId == h.id && r.entries == Filter(es, WithoutId(es[x].id));
        FilterKeepsOnePerHabitDay(es, WithoutId(es[x].id));
      }
    }
  }

  /** Two successful toggles of a habit that has no entry on the day, the
      first adding an entry with an id no other entry has, give back the
      original list. */
  lemma ToggleTwiceRestores(es: seq<Entry>, h: Habit, target: Option<string>, todayISO: string,
                            newId: string, timestamp: Timestamp, otherId: string, otherTimestamp: Timestamp)
    requires todayISO != ""
    requires forall i :: 0 <= i < |es| ==> !OfHabitOn(h.id, ToggleDate(target, todayISO))(es[i])
    requires forall i :: 0 <= i < |es| ==> es[i].id != newId
    ensures var once := ToggleEntry(es, h, target, todayISO, newId, timestamp, true);
      once.added &&
      var twice := ToggleEntry(once.entries, h, target, todayISO, otherId, otherTimestamp, true);
      !twice.added && twice.entries == es
  {
    var d := ToggleDate(target, todayISO);
    var once := ToggleEntry(es, h, target, todayISO, newId, timestamp, true);
    ToggleActsOnDay(es, h, target, todayISO, newId, timestamp, true);
    var e := once.entries[|es|];
    assert once.entries == es + [e];
    FindCons([e], OfHabitOn(h.id, d));
    assert Find([e], OfHabitOn(h.id, d)) == Some(e);
    FindFilter(es + [e], OfHabit(h.id), OnDay(d), OfHabitOn(h.id, d));
    FilterAppend(es, [e], OfHabit(h.id));
    FilterNone(es, OfHabitOn(h.id, d));
    FindFilter(es, OfHabit(h.id), OnDay(d), OfHabitOn(h.id, d));
    FilterHead(Filter(es, OfHabit(h.id)), OnDay(d));
    ToggleActsOnDay(once.entries, h, target, todayISO, otherId, otherTimestamp, true);
    FindAppendMissing(es, [e], OfHabitOn(h.id, d));
    FilterAppend(es, [e], WithoutId(newId));
    FilterAll(es, WithoutId(newId));
  }

  /** When nothing in a satisfies p, searching a + b searches b. */
  lemma {:induction false} FindAppendMissing<T>(a: seq<T>, b: seq<T>, p: T -> bool)
    requires forall i :: 0 <= i < |a| ==> !p(a[i])
    ensures Find(a + b, p) == Find(b, p)
    decreases |a|
  {
    if |a| > 0 {
      FindCons(a + b, p);
      assert (a + b)[1..] == a[1..] + b;
      FindAppendMissing(a[1..], b, p);
    } else {
      assert a + b == b;
    }
  }

  /** `updateEntry(updatedEntry)`: on success every entry with the same id is
      replaced by it. */
  function UpdateEntry(es: seq<Entry>, u: Entry, persisted: bool): (r: seq<Entry>)
    ensures |r| == |es|
    ensures forall i :: 0 <= i < |es| ==> r[i] == (if persisted && es[i].id == u.id then u else es[i])
  {
    if persisted then MapWhere(es, (e: Entry) => e.id == u.id, (e: Entry) => u) else es
  }

  /** `deleteEntry(entryId)`: on success every entry with that id is removed. */
  function DeleteEntry(es: seq<Entry>, id: string, persisted: bool): (r: seq<Entry>)
    ensures IsSubsequence(r, es)
    ensures persisted ==> forall i :: 0 <= i < |r| ==> r[i].id != id
    ensures forall i :: 0 <= i < |es| && es[i].id != id ==> es[i] in r
    ensures persisted ==> forall e :: multiset(r)[e] == if e.id != id then multiset(es)[e] else 0
    ensures !persisted ==> r == es
  {
    FilterIsSubsequence(es, WithoutId(id));
    FilterMultiset(es, WithoutId(id));
    SubsequenceRefl(es);
    if persisted then Filter(es, WithoutId(id)) else es
  }

  /** Updating and deleting touch only the entries with the given id: the
      entries with any other id are kept, in order. */
  lemma UpdateDeleteOnlyTouchId(es: seq<Entry>, u: Entry, id: string)
    ensures Filter(UpdateEntry(es, u, true), WithoutId(u.id)) == Filter(es, WithoutId(u.id))
    ensures Filter(DeleteEntry(es, id, true), WithoutId(id)) == Filter(es, WithoutId(id))
  {
    UpdateKeepsOthers(es, u);
    FilterTwice(es, WithoutId(id));
  }

  lemma {:induction false} UpdateKeepsOthers(es: seq<Entry>, u: Entry)
    ensures Filter(UpdateEntry(es, u, true), WithoutId(u.id)) == Filter(es, WithoutId(u.id))
    decreases |es|
  {
    if |es| > 0 {
      var r := UpdateEntry(es, u, true);
      assert r[1..] == UpdateEntry(es[1..], u, true);
      UpdateKeepsOthers(es[1..], u);
    }
  }

  lemma {:induction false} FilterTwice<T>(s: seq<T>, p: T -> bool)
    ensures Filter(Filter(s, p), p) == Filter(s, p)
    decreases |s|
  {
    if |s| > 0 {
      FilterTwice(s[1..], p);
      if p(s[0]) {
        assert ([s[0]] + Filter(s[1..], p))[1..] == Filter(s[1..], p);
      }
    }
  }

  /** `getEntriesForDate(dateISO)`; `getTodayEntries()` is the same at today,
      and the home page's `periodEntries` the same at the viewed day. */
  function EntriesForDate(es: seq<Entry>, d: string): (r: seq<Entry>)
    ensures IsSubsequence(r, es)
    ensures forall i :: 0 <= i < |r| ==> r[i].dateISO == d
    ensures forall e :: multiset(r)[e] == if e.dateISO == d then multiset(es)[e] else 0
  {
    FilterIsSubsequence(es, OnDay(d));
    FilterMultiset(es, OnDay(d));
    Filter(es, OnDay(d))
  }

  /** `getEntriesByHabit(habitId)`. */
  function EntriesByHabit(es: seq<Entry>, id: string): (r: seq<Entry>)
    ensures IsSubsequence(r, es)
    ensures forall i :: 0 <= i < |r| ==> r[i].habitId == id
    ensures forall e :: multiset(r)[e] == if e.habitId == id then multiset(es)[e] else 0
  {
    FilterIsSubsequence(es, OfHabit(id));
    FilterMultiset(es, OfHabit(id));
    Filter(es, OfHabit(id))
  }
}

=== FILE: habitform.dfy ===
/** The create/edit habit form: the field values it starts from and what
    submitting it produces — an error message for a blank name, otherwise the
    habit payload handed to `onSave`. */
module HabitForm {
  import opened Seqs
  import opened Strings
  import opened Types

  datatype FormState = FormState(
    name: string,
    description: string,
    category: Category,
    isTask: bool,
    daysOfWeek: seq<int>,
    isBeforeSleep: bool,
    error: string)

  /** The state set from `initialData` (absent for a new habit). A string or
      array field that is missing falls back to its default; an empty array
      is kept, since arrays are truthy. */
  function InitialState(initial: Option<HabitPatch>): (s: FormState)
    ensures s.isTask <==> initial.Some? && initial.value.periodicity == Some(Some(Once))
    ensures s.error == ""
    ensures initial.None? ==> s == FormState("", "", Cuerpo, false, AllDays, false, "")
    ensures initial.Some? && initial.value.category.None? ==> s.category == Cuerpo
    ensures initial.Some? && !(initial.value.daysOfWeek.Some? && initial.value.daysOfWeek.value.Some?) ==> s.daysOfWeek == AllDays
  {
    match initial
    case None => FormState("", "", Cuerpo, false, AllDays, false, "")
    case Some(d) =>
      FormState(
        d.name.GetOr(""),
        if d.description.Some? && d.description.value.Some? then d.description.value.value else "",
        d.category.GetOr(Cuerpo),
        d.periodicity == Some(Some(Once)),
        if d.daysOfWeek.Some? && d.daysOfWeek.value.Some? then d.daysOfWeek.value.value else AllDays,
        d.isBeforeSleep == Some(Some(true)),
        "")
  }

  const BlankNameError: string := "Por favor ingresa un nombre para la tarea"

  datatype Submission = Rejected(error: string) | Saved(payload: HabitPatch)

  /** `handleSubmit`: a blank trimmed name is rejected with the form's error
      message; otherwise the payload carries the trimmed name, the trimmed
      description (or `undefined` when blank), xp 0, `once` exactly for a
      task, and the weekdays only for a daily habit. */
  function Submit(s: FormState): (r: Submission)
    ensures r.Rejected? <==> AllWhitespace(s.name)
    ensures r.Rejected? ==> r.error == BlankNameError
    ensures r.Saved? ==> IsCreationPayload(r.payload) && r.payload.xp == Some(0)
    ensures r.Saved? ==> (r.payload.periodicity == Some(Some(Once)) <==> s.isTask)
    ensures r.Saved? ==> (r.payload.daysOfWeek.Some? <==> !s.isTask)
  {
    TrimEmptyIff(s.name);
    if Trim(s.name) == "" then Rejected(BlankNameError)
    else
      var description := Trim(s.description);
      Saved(HabitPatch(
        name := Some(Trim(s.name)),
        description := Some(if description == "" then None else Some(description)),
        category := Some(s.category),
        xp := Some(0),
        unitType := None,
        minThreshold := None,
        tags := None,
        isPinned := None,
        periodicity := Some(Some(if s.isTask then Once else Daily)),
        daysOfWeek := if !s.isTask then Some(Some(s.daysOfWeek)) else None,
        targetDate := None,
        order := None,
        isBeforeSleep := Some(Some(s.isBeforeSleep))))
  }

  /** Reopening the form on what it saved gives back the submitted state,
      except that name and description come back trimmed, a task comes back
      with all weekdays, and the error is cleared. */
  lemma SubmitThenReopen(s: FormState)
    requires !AllWhitespace(s.name)
    ensures Submit(s).Saved?
    ensures InitialState(Some(Submit(s).payload)) ==
      s.(name := Trim(s.name), description := Trim(s.description),
         daysOfWeek := if s.isTask then AllDays else s.daysOfWeek, error := "")
  {
    var p := SubmitFields(s);
    var t := s.(name := Trim(s.name), description := Trim(s.description),
                daysOfWeek := if s.isTask then AllDays else s.daysOfWeek, error := "");
    ReopenFields(p, t.name, t.description, s.category, s.isTask, s.daysOfWeek, s.isBeforeSleep);
  }

  /** The fields of a saved payload the form reads back. */
  lemma SubmitFields(s: FormState) returns (p: HabitPatch)
    requires !AllWhitespace(s.name)
    ensures Submit(s) == Saved(p)
    ensures p.name == Some(Trim(s.name))
    ensures p.description == Some(if Trim(s.description) == "" then None else Some(Trim(s.description)))
    ensures p.category == Some(s.category)
    ensures p.periodicity == Some(Some(if s.isTask then Once else Daily))
    ensures p.daysOfWeek == if !s.isTask then Some(Some(s.daysOfWeek)) else None
    ensures p.isBeforeSleep == Some(Some(s.isBeforeSleep))
  {
    TrimEmptyIff(s.name);
    p := Submit(s).payload;
  }

  /** The state the form opens with on a payload holding these fields. */
  lemma ReopenFields(p: HabitPatch, name: string, description: string, category: Category,
                     isTask: bool, days: seq<int>, isBeforeSleep: bool)
    requires p.name == Some(name)
    requires p.description == Some(if description == "" then None else Some(description))
    requires p.category == Some(category)
    requires p.periodicity == Some(Some(if isTask then Once else Daily))
    requires p.daysOfWeek == if !isTask then Some(Some(days)) else None
    requires p.isBeforeSleep == Some(Some(isBeforeSleep))
    ensures InitialState(Some(p)) ==
      FormState(name, description, category, isTask, if isTask then AllDays else days, isBeforeSleep, "")
  {
  }

  /** Editing a habit saves a payload whose merge into the habit leaves the
      edited name trimmed and clears the description when it is blank: the
      description key is always sent, holding `undefined` when blank. */
  lemma SubmitClearsBlankDescription(s: FormState, h: Habit)
    requires !AllWhitespace(s.name)
    ensures Submit(s).Saved?
    ensures var merged := Merge(h, Submit(s).payload);
      merged.name == Trim(s.name) &&
      (AllWhitespace(s.description) <==> merged.description.None?)
  {
    TrimEmptyIff(s.description);
  }
}

=== FILE: habits.dfy ===
/** The optimistic habit-list transitions of the habits hook: adding a habit
    with a default order, merging updates, deleting, toggling the pin and
    selecting by category. Persistence is reduced to the success flag it
    reports; the generated id and the clock reading are parameters. */
module Habits {
  import opened Seqs
  import opened Types

  /** `h.order ?? 0`. */
  function OrderOrZero(h: Habit): int {
    h.order.GetOr(0)
  }

  /** `Math.min(0, ...habits.map(h => h.order ?? 0))`. */
  function MinOrder(hs: seq<Habit>): (m: int)
    ensures m <= 0
    ensures forall i :: 0 <= i < |hs| ==> m <= OrderOrZero(hs[i])
  {
    if |hs| == 0 then 0
    else
      var rest := MinOrder(hs[1..]);
      if OrderOrZero(hs[0]) < rest then OrderOrZero(hs[0]) else rest
  }

  /** The minimum is 0 or the order (or 0) of some habit. */
  lemma {:induction false} MinOrderAttained(hs: seq<Habit>)
    ensures MinOrder(hs) == 0 || exists i :: 0 <= i < |hs| && OrderOrZero(hs[i]) == MinOrder(hs)
  {
    if |hs| > 0 {
      MinOrderAttained(hs[1..]);
      if MinOrder(hs) != OrderOrZero(hs[0]) && MinOrder(hs) != 0 {
        var i :| 0 <= i < |hs[1..]| && OrderOrZero(hs[1..][i]) == MinOrder(hs[1..]);
        assert hs[i + 1] == hs[1..][i];
      }
    }
  }

  /** The order a new habit gets when it has none: one below every order in
      use (a missing order counting as 0), so it sorts first. */
  function FirstOrder(hs: seq<Habit>): (o: int)
    ensures o < 0
    ensures forall i :: 0 <= i < |hs| ==> o < OrderOrZero(hs[i])
  {
    MinOrder(hs) - 1
  }

  /** The payload with its order filled in: `habitData.order === undefined`
      holds both for an absent key and for a key holding `undefined`. */
  function WithDefaultOrder(hs: seq<Habit>, data: HabitPatch): (r: HabitPatch)
    ensures r.order.Some? && r.order.value.Some?
    ensures data.order.Some? && data.order.value.Some? ==> r == data
    ensures !(data.order.Some? && data.order.value.Some?) ==> r == data.(order := Some(Some(FirstOrder(hs))))
  {
    if data.order.None? || data.order.value.None? then data.(order := Some(Some(FirstOrder(hs)))) else data
  }

  /** `addHabit(habitData)`: the stored habit `{ ...habitData, id, createdAt }`
      is appended to the list. */
  function AddHabit(hs: seq<Habit>, data: HabitPatch, id: string, createdAt: Timestamp): (r: seq<Habit>)
    requires IsCreationPayload(data)
    ensures |r| == |hs| + 1 && r[..|hs|] == hs
    ensures r[|hs|].id == id && r[|hs|].createdAt == createdAt
    ensures r[|hs|].name == data.name.value && r[|hs|].category == data.category.value
  {
    var h := NewHabit(WithDefaultOrder(hs, data), id, createdAt);
    assert (hs + [h])[..|hs|] == hs;
    hs + [h]
  }

  /** An explicit order is kept; without one the new habit's order is below
      every existing habit's order. */
  lemma AddHabitOrder(hs: seq<Habit>, data: HabitPatch, id: string, createdAt: Timestamp)
    requires IsCreationPayload(data)
    ensures var h := AddHabit(hs, data, id, createdAt)[|hs|];
      h.order.Some? &&
      (data.order.Some? && data.order.value.Some? ==> h.order == data.order.value) &&
      (!(data.order.Some? && data.order.value.Some?) ==>
         h.order.value < 0 && forall i :: 0 <= i < |hs| && hs[i].order.Some? ==> h.order.value < hs[i].order.value)
  {
    var h := AddHabit(hs, data, id, createdAt)[|hs|];
    if !(data.order.Some? && data.order.value.Some?) {
      assert h.order == Some(FirstOrder(hs));
      forall i | 0 <= i < |hs| && hs[i].order.Some?
        ensures h.order.value < hs[i].order.value
      {
        assert OrderOrZero(hs[i]) == hs[i].order.value;
      }
    }
  }

  /** `updateHabit(habitId, updates)`, the optimistic local update:
      `{ ...h, ...updates }` for the habits with that id. */
  function UpdateHabit(hs: seq<Habit>, id: string, u: HabitPatch): (r: seq<Habit>)
    ensures |r| == |hs|
    ensures forall i :: 0 <= i < |hs| ==> r[i] == (if hs[i].id == id then Merge(hs[i], u) else hs[i])
  {
    MapWhere(hs, (h: Habit) => h.id == id, (h: Habit) => Merge(h, u))
  }

  /** Updating keeps every id in place, an empty update changes nothing, and
      applying the same update twice is the same as applying it once. */
  lemma UpdateHabitLaws(hs: seq<Habit>, id: string, u: HabitPatch)
    ensures forall i :: 0 <= i < |hs| ==> UpdateHabit(hs, id, u)[i].id == hs[i].id
    ensures UpdateHabit(hs, id, EmptyPatch) == hs
    ensures UpdateHabit(UpdateHabit(hs, id, u), id, u) == UpdateHabit(hs, id, u)
  {
    forall i | 0 <= i < |hs| {
      MergeLaws(hs[i], u);
    }
  }

  /** `deleteHabit(habitId)`: on success every habit with that id is removed. */
  function DeleteHabit(hs: seq<Habit>, id: string, persisted: bool): (r: seq<Habit>)
    ensures IsSubsequence(r, hs)
    ensures persisted ==> forall i :: 0 <= i < |r| ==> r[i].id != id
    ensures forall i :: 0 <= i < |hs| && hs[i].id != id ==> hs[i] in r
    ensures persisted ==> forall h :: multiset(r)[h] == if h.id != id then multiset(hs)[h] else 0
    ensures !persisted ==> r == hs
  {
    FilterIsSubsequence(hs, (h: Habit) => h.id != id);
    FilterMultiset(hs, (h: Habit) => h.id != id);
    SubsequenceRefl(hs);
    if persisted then Filter(hs, (h: Habit) => h.id != id) else hs
  }

  /** `{ ...h, isPinned: !h.isPinned }`: a missing pin reads as unpinned. */
  function FlipPin(h: Habit): (r: Habit)
    ensures IsPinned(r) <==> !IsPinned(h)
    ensures r.isPinned.Some?
  {
    h.(isPinned := Some(!IsPinned(h)))
  }

  /** `togglePin(habitId)`, the optimistic local update. */
  function TogglePin(hs: seq<Habit>, id: string): (r: seq<Habit>)
    ensures |r| == |hs|
    ensures forall i :: 0 <= i < |hs| ==> r[i] == (if hs[i].id == id then FlipPin(hs[i]) else hs[i])
  {
    MapWhere(hs, (h: Habit) => h.id == id, FlipPin)
  }

  /** Toggling twice restores whether each habit is pinned and changes
      nothing else but the representation of a missing pin, and toggling a
      third time is the same as toggling once. */
  lemma TogglePinTwice(hs: seq<Habit>, id: string)
    ensures var twice := TogglePin(TogglePin(hs, id), id);
      |twice| == |hs| &&
      forall i :: 0 <= i < |hs| ==>
        (IsPinned(twice[i]) <==> IsPinned(hs[i])) && twice[i] == hs[i].(isPinned := twice[i].isPinned)
    ensures TogglePin(TogglePin(TogglePin(hs, id), id), id) == TogglePin(hs, id)
  {
  }

  /** `getHabitsByCategory(category)`. */
  function HabitsByCategory(hs: seq<Habit>, c: Category): (r: seq<Habit>)
    ensures IsSubsequence(r, hs)
    ensures forall i :: 0 <= i < |r| ==> r[i].category == c
    ensures forall h :: multiset(r)[h] == if h.category == c then multiset(hs)[h] else 0
  {
    FilterIsSubsequence(hs, (h: Habit) => h.category == c);
    FilterMultiset(hs, (h: Habit) => h.category == c);
    Filter(hs, (h: Habit) => h.category == c)
  }

  /** The categories split the habit list: the six selections together hold
      as many habits as the list. */
  lemma {:induction false} HabitsByCategoryPartition(hs: seq<Habit>)
    ensures |HabitsByCategory(hs, Cuerpo)| + |HabitsByCategory(hs, Energia)| + |HabitsByCategory(hs, Trabajo)| +
            |HabitsByCategory(hs, Dinero)| + |HabitsByCategory(hs, Relaciones)| + |HabitsByCategory(hs, Mente)| == |hs|
    decreases |hs|
  {
    if |hs| > 0 {
      HabitsByCategoryPartition(hs[1..]);
      HabitsByCategoryHead(hs, Cuerpo);
      HabitsByCategoryHead(hs, Energia);
      HabitsByCategoryHead(hs, Trabajo);
      HabitsByCategoryHead(hs, Dinero);
      HabitsByCategoryHead(hs, Relaciones);
      HabitsByCategoryHead(hs, Mente);
    }
  }

  /** The first habit is selected by exactly its own category. */
  lemma HabitsByCategoryHead(hs: seq<Habit>, c: Category)
    requires |hs| > 0
    ensures |HabitsByCategory(hs, c)| == (if hs[0].category == c then 1 else 0) + |HabitsByCategory(hs[1..], c)|
  {
  }
}

=== FILE: quickinput.dfy ===
/** The quick-input panel of the home page: which habits it lists, the habit
    it creates from the quick-create form, moving a habit up or down, the
    three sections it shows (regular, before sleep, completed) and what a
    drag and drop asks the habit list to change. `pe` is always the entry
    list of the viewed period (`periodEntries`). Updates are returned as the
    `(habitId, updates)` calls the panel makes; they are applied with
    `Habits.UpdateHabit`. */
module QuickInput {
  import opened Seqs
  import opened Strings
  import opened Types
  import opened Habits

  /** `isHabitCompletedInPeriod(habit, periodEntries)`: some entry of the
      period belongs to the habit. */
  predicate IsCompletedInPeriod(h: Habit, pe: seq<Entry>): (b: bool)
    ensures b <==> exists i :: 0 <= i < |pe| && pe[i].habitId == h.id
  {
    var mine := Filter(pe, OfHabit(h.id));
    assert |mine| > 0 <==> exists i :: 0 <= i < |pe| && pe[i].habitId == h.id by {
      if exists i :: 0 <= i < |pe| && pe[i].habitId == h.id {
        var i :| 0 <= i < |pe| && pe[i].habitId == h.id;
        assert pe[i] in mine;
      }
      if |mine| > 0 {
        assert mine[0] in pe && mine[0].habitId == h.id;
        var i :| 0 <= i < |pe| && pe[i] == mine[0];
      }
    }
    |mine| > 0
  }

  /** The panel's tests on habits as values, so that equal calls give equal
      tests. */
  function CompletedIn(pe: seq<Entry>): Habit -> bool {
    (h: Habit) => IsCompletedInPeriod(h, pe)
  }

  function NotCompletedIn(pe: seq<Entry>): Habit -> bool {
    (h: Habit) => !IsCompletedInPeriod(h, pe)
  }

  /** Same completion state as h. */
  function SameCompletionAs(pe: seq<Entry>, h: Habit): Habit -> bool {
    (x: Habit) => IsCompletedInPeriod(x, pe) == IsCompletedInPeriod(h, pe)
  }

  function IsBeforeSleepTest(): Habit -> bool {
    (h: Habit) => IsBeforeSleep(h)
  }

  function IsRegular(): Habit -> bool {
    (h: Habit) => !IsBeforeSleep(h)
  }

  function HasId(id: string): Habit -> bool {
    (x: Habit) => x.id == id
  }

  /** The first filter: pinned, a once task, or with an entry in the period. */
  predicate IsListed(h: Habit, pe: seq<Entry>) {
    IsPinned(h) || PeriodicityOf(h) == Once || exists i :: 0 <= i < |pe| && pe[i].habitId == h.id
  }

  /** The category filter: no selection keeps everything. */
  predicate InCategory(h: Habit, selected: Option<Category>) {
    selected.None? || h.category == selected.value
  }

  function Listed(pe: seq<Entry>): Habit -> bool {
    (h: Habit) => IsListed(h, pe)
  }

  function OfCategory(selected: Option<Category>): Habit -> bool {
    (h: Habit) => InCategory(h, selected)
  }

  /** Listed and of the selected category. */
  function Shown(pe: seq<Entry>, selected: Option<Category>): Habit -> bool {
    (h: Habit) => IsListed(h, pe) && InCategory(h, selected)
  }

  /** `filteredHabits`: the listed habits of the selected category, in
      catalogue order, each as often as in the catalogue. */
  function VisibleHabits(hs: seq<Habit>, pe: seq<Entry>, selected: Option<Category>): (r: seq<Habit>)
    ensures IsSubsequence(r, hs)
    ensures forall h :: multiset(r)[h] == if IsListed(h, pe) && InCategory(h, selected) then multiset(hs)[h] else 0
  {
    FilterFilter(hs, Listed(pe), OfCategory(selected), Shown(pe, selected));
    FilterIsSubsequence(hs, Shown(pe, selected));
    FilterMultiset(hs, Shown(pe, selected));
    Filter(Filter(hs, Listed(pe)), OfCategory(selected))
  }

  // ---------------------------------------------------------------- quick create

  /** The quick-create form's fields. */
  datatype QuickForm = QuickForm(name: string, description: string, isTask: bool, daysOfWeek: seq<int>, isBeforeSleep: bool)

  /** `description.trim() || undefined`: the key is always present. */
  function TrimmedDescription(d: string): Option<Option<string>> {
    Some(if Trim(d) == "" then None else Some(Trim(d)))
  }

  /** `handleCategorySelect(category)`: the payload passed to `onCreateHabit`,
      or nothing when the trimmed name is empty. */
  function QuickCreate(hs: seq<Habit>, f: QuickForm, periodDate: Option<string>, c: Category): (r: Option<HabitPatch>)
    ensures r.None? <==> AllWhitespace(f.name)
    ensures r.Some? ==> IsCreationPayload(r.value)
  {
    TrimEmptyIff(f.name);
    if Trim(f.name) == "" then None else Some(QuickPayload(hs, f, periodDate, c))
  }

  /** The payload built from a form with a non-blank name: pinned, first in
      order, a task with the viewed day as target date or a daily habit with
      the chosen weekdays. */
  function QuickPayload(hs: seq<Habit>, f: QuickForm, periodDate: Option<string>, c: Category): (p: HabitPatch)
    ensures IsCreationPayload(p)
  {
    var periodicity := if f.isTask then Once else Daily;
    HabitPatch(
      name := Some(Trim(f.name)),
      description := TrimmedDescription(f.description),
      category := Some(c),
      xp := Some(0),
      unitType := None,
      minThreshold := None,
      tags := None,
      isPinned := Some(Some(true)),
      periodicity := Some(Some(periodicity)),
      daysOfWeek := if periodicity == Daily then Some(Some(f.daysOfWeek)) else None,
      targetDate := if periodicity == Once && IsTruthy(periodDate) then Some(Some(periodDate.value)) else None,
      order := Some(Some(FirstOrder(hs))),
      isBeforeSleep := Some(Some(f.isBeforeSleep)))
  }

  /** The habit that adding a quick-created payload stores. The panel
      computes the order from the habits it shows (`shown`), while the habit
      is appended to the whole catalogue (`all`). The new habit is pinned,
      sorted before every habit shown in the panel, a once task exactly when
      the task switch is on, with weekdays only when daily and the viewed day
      as target date only for a task created on a given day; its name is
      the trimmed name. */
  lemma QuickCreateThenAdd(shown: seq<Habit>, all: seq<Habit>, f: QuickForm, periodDate: Option<string>,
                           c: Category, id: string, createdAt: Timestamp)
    requires !AllWhitespace(f.name)
    ensures var payload := QuickCreate(shown, f, periodDate, c).value;
      var added := AddHabit(all, payload, id, createdAt);
      var h := added[|all|];
      |added| == |all| + 1 && added[..|all|] == all &&
      IsPinned(h) && h.category == c &&
      h.name == Trim(f.name) && (|h.name| == 0 || (!IsWhitespace(h.name[0]) && !IsWhitespace(h.name[|h.name| - 1]))) &&
      (PeriodicityOf(h) == Once <==> f.isTask) &&
      (h.daysOfWeek.Some? <==> !f.isTask) &&
      (h.targetDate.Some? <==> f.isTask && IsTruthy(periodDate)) &&
      h.order == Some(FirstOrder(shown)) && forall i :: 0 <= i < |shown| ==> h.order.value < OrderOrZero(shown[i])
  {
    TrimSpec(f.name);
  }

  // ---------------------------------------------------------------- order and sections

  /** `h.order ?? 999999`: habits without an order sort last. */
  function OrderKey(h: Habit): int {
    h.order.GetOr(999999)
  }

  predicate SortedByOrder(s: seq<Habit>) {
    SortedBy(s, OrderKey)
  }

  /** `.sort((a, b) => (a.order ?? 999999) - (b.order ?? 999999))`: a stable
      sort by order (equal keys keep their original order). */
  function SortByOrder(s: seq<Habit>): (r: seq<Habit>)
    ensures SortedByOrder(r)
    ensures |r| == |s|
    ensures multiset(r) == multiset(s)
  {
    SortBy(s, OrderKey)
  }

  /** The three sections a listed habit can be shown in. */
  datatype Section = Regular | BeforeSleep | Completed

  /** The section of a habit with the given completion state. */
  function SectionOf(completed: bool, h: Habit): Section {
    if completed then Completed
    else if IsBeforeSleep(h) then BeforeSleep
    else Regular
  }

  /** `getHabitSection(habit)`: completed when the period has an entry of
      the habit, whatever its kind; otherwise before sleep or regular by its
      flag. */
  function HabitSection(h: Habit, pe: seq<Entry>): (s: Section)
    ensures s == Completed <==> exists i :: 0 <= i < |pe| && pe[i].habitId == h.id
    ensures s == BeforeSleep <==> !(exists i :: 0 <= i < |pe| && pe[i].habitId == h.id) && IsBeforeSleep(h)
  {
    SectionOf(IsCompletedInPeriod(h, pe), h)
  }

  datatype Sections = Sections(regular: seq<Habit>, beforeSleep: seq<Habit>, completed: seq<Habit>)

  /** `incompleteHabits` (sorted), split into `regularIncomplete` and
      `beforeSleepIncomplete`, and `completedHabits` (sorted). */
  function SplitSections(visible: seq<Habit>, pe: seq<Entry>): (r: Sections)
    ensures SortedByOrder(r.regular) && SortedByOrder(r.beforeSleep) && SortedByOrder(r.completed)
  {
    var incomplete := SortByOrder(Filter(visible, NotCompletedIn(pe)));
    var byOrder := (a: Habit, b: Habit) => OrderKey(a) <= OrderKey(b);
    assert Pairwise(incomplete, byOrder);
    FilterKeepsPairwise(incomplete, IsRegular(), byOrder);
    FilterKeepsPairwise(incomplete, IsBeforeSleepTest(), byOrder);
    var regular := Filter(incomplete, IsRegular());
    var beforeSleep := Filter(incomplete, IsBeforeSleepTest());
    assert Pairwise(regular, byOrder) && Pairwise(beforeSleep, byOrder);
    Sections(regular, beforeSleep,
             SortByOrder(Filter(visible, CompletedIn(pe))))
  }

  /** The sections partition the visible habits: together they hold each
      visible habit exactly as often as the visible list does, and a habit is
      in a section exactly when it is visible and `getHabitSection` names
      that section. */
  lemma SectionsPartition(visible: seq<Habit>, pe: seq<Entry>)
    ensures var r := SplitSections(visible, pe);
      multiset(r.regular) + multiset(r.beforeSleep) + multiset(r.completed) == multiset(visible)
    ensures var r := SplitSections(visible, pe);
      forall h :: (h in r.regular <==> h in visible && HabitSection(h, pe) == Regular) &&
                  (h in r.beforeSleep <==> h in visible && HabitSection(h, pe) == BeforeSleep) &&
                  (h in r.completed <==> h in visible && HabitSection(h, pe) == Completed)
  {
    SectionsMultiset(visible, pe);
    forall h {
      SectionMembership(visible, pe, h);
    }
  }

  lemma SectionsMultiset(visible: seq<Habit>, pe: seq<Entry>)
    ensures var r := SplitSections(visible, pe);
      multiset(r.regular) + multiset(r.beforeSleep) + multiset(r.completed) == multiset(visible)
  {
    var incomplete := SortByOrder(Filter(visible, NotCompletedIn(pe)));
    FilterSplit(visible, CompletedIn(pe), NotCompletedIn(pe));
    FilterSplit(incomplete, IsRegular(), IsBeforeSleepTest());
  }

  lemma SectionMembership(visible: seq<Habit>, pe: seq<Entry>, h: Habit)
    ensures var r := SplitSections(visible, pe);
      (h in r.regular <==> h in visible && HabitSection(h, pe) == Regular) &&
      (h in r.beforeSleep <==> h in visible && HabitSection(h, pe) == BeforeSleep) &&
      (h in r.completed <==> h in visible && HabitSection(h, pe) == Completed)
  {
    var r := SplitSections(visible, pe);
    var incomplete := SortByOrder(Filter(visible, NotCompletedIn(pe)));
    FilterMembership(incomplete, IsRegular(), h);
    FilterMembership(incomplete, IsBeforeSleepTest(), h);
    FilterMembership(visible, NotCompletedIn(pe), h);
    FilterMembership(visible, CompletedIn(pe), h);
    assert h in incomplete <==> h in multiset(Filter(visible, NotCompletedIn(pe)));
    assert h in r.completed <==> h in multiset(Filter(visible, CompletedIn(pe)));
  }

  // ---------------------------------------------------------------- move up / down

  /** The habits that `handleMoveHabit` reorders h among: the visible habits
      with the same completion state, sorted by order. Regular and
      before-sleep habits form one group here even though they are shown in
      separate sections. */
  function MoveGroup(visible: seq<Habit>, pe: seq<Entry>, h: Habit): (g: seq<Habit>)
    ensures SortedByOrder(g)
    ensures multiset(g) == multiset(Filter(visible, SameCompletionAs(pe, h)))
  {
    SortByOrder(Filter(visible, SameCompletionAs(pe, h)))
  }

  /** `(id, { order })` as passed to `onUpdateHabit`. */
  datatype Update = Update(id: string, patch: HabitPatch)

  /** `handleMoveHabit(habit, direction)` for a habit shown in the panel:
      nothing at the edge of its group, otherwise two order updates. */
  function MoveHabit(visible: seq<Habit>, pe: seq<Entry>, h: Habit, up: bool): (r: seq<Update>)
    requires h in visible
    ensures var g := MoveGroup(visible, pe, h);
      var idx := FindIndex(g, HasId(h.id));
      0 <= idx < |g| &&
      (|r| == 0 <==> (up && idx == 0) || (!up && idx == |g| - 1)) &&
      (|r| != 0 ==> |r| == 2)
    ensures r == SwapWithNeighbour(MoveGroup(visible, pe, h), h, up)
  {
    var g := MoveGroup(visible, pe, h);
    FilterMembership(visible, SameCompletionAs(pe, h), h);
    assert h in multiset(g);
    assert HasId(h.id)(h);
    SwapWithNeighbour(g, h, up)
  }

  /** The updates that exchange h's order with its neighbour's in the
      group g, or none when there is no neighbour in that direction. */
  function SwapWithNeighbour(g: seq<Habit>, h: Habit, up: bool): (r: seq<Update>)
    requires FindIndex(g, HasId(h.id)) >= 0
    ensures var idx := FindIndex(g, HasId(h.id));
      var swapIdx := if up then idx - 1 else idx + 1;
      (|r| == 0 <==> swapIdx < 0 || swapIdx >= |g|) &&
      (|r| != 0 ==>
        0 <= idx < |g| && 0 <= swapIdx < |g| &&
        r == [Update(h.id, OrderPatch(g[swapIdx].order.GetOr(swapIdx))),
              Update(g[swapIdx].id, OrderPatch(g[idx].order.GetOr(idx)))])
  {
    var idx := FindIndex(g, HasId(h.id));
    var swapIdx := if up then idx - 1 else idx + 1;
    if swapIdx < 0 || swapIdx >= |g| then []
    else
      var currentOrder := g[idx].order.GetOr(idx);
      var swapOrder := g[swapIdx].order.GetOr(swapIdx);
      [Update(h.id, OrderPatch(swapOrder)), Update(g[swapIdx].id, OrderPatch(currentOrder))]
  }

  /** Apply the panel's updates in order. */
  function ApplyUpdates(hs: seq<Habit>, us: seq<Update>): (r: seq<Habit>)
    ensures |r| == |hs|
    decreases |us|
  {
    if |us| == 0 then hs else ApplyUpdates(UpdateHabit(hs, us[0].id, us[0].patch), us[1..])
  }

  lemma {:induction false} PermutationKeepsUniqueIds(r: seq<Habit>, s: seq<Habit>)
    requires multiset(r) == multiset(s)
    requires UniqueIds(s)
    ensures UniqueIds(r)
  {
    forall i, j | 0 <= i < j < |r|
      ensures r[i].id != r[j].id
    {
      assert r[i] in multiset(s) && r[j] in multiset(s);
      var a :| 0 <= a < |s| && s[a] == r[i];
      var b :| 0 <= b < |s| && s[b] == r[j];
      if r[i] == r[j] {
        assert r == r[..j] + [r[j]] + r[j + 1..];
        assert r[i] in r[..j];
        assert multiset(r)[r[i]] >= 2;
        UniqueIdsCountOnce(s, a);
        assert false;
      }
    }
  }

  /** With unique ids every habit of the list occurs in it exactly once. */
  lemma {:induction false} UniqueIdsCountOnce(s: seq<Habit>, a: int)
    requires UniqueIds(s) && 0 <= a < |s|
    ensures multiset(s)[s[a]] == 1
    decreases |s|
  {
    var x := s[a];
    assert s == s[..a] + [x] + s[a + 1..];
    assert x !in s[..a] by {
      forall k | 0 <= k < a ensures s[..a][k] != x { assert s[k].id != s[a].id; }
    }
    forall k | a + 1 <= k < |s| ensures s[k] != x { assert s[k].id != s[a].id; }
    assert x !in s[a + 1..];
    assert multiset(s[..a])[x] == 0 && multiset(s[a + 1..])[x] == 0;
  }

  /** The move group of a list with unique ids has unique ids, and the habit
      found in it is the moved habit itself. */
  lemma MoveGroupUnique(hs: seq<Habit>, visible: seq<Habit>, pe: seq<Entry>, h: Habit)
    requires UniqueIds(hs) && IsSubsequence(visible, hs) && h in visible
    ensures var g := MoveGroup(visible, pe, h);
      UniqueIds(g) && 0 <= FindIndex(g, HasId(h.id)) < |g| &&
      g[FindIndex(g, HasId(h.id))] == h
  {
    var g := MoveGroup(visible, pe, h);
    MoveGroupUniqueIds(hs, visible, pe, h);
    FilterMembership(visible, SameCompletionAs(pe, h), h);
    assert h in multiset(g);
    var k :| 0 <= k < |g| && g[k] == h;
    FindUniqueId(g, k);
  }

  lemma MoveGroupUniqueIds(hs: seq<Habit>, visible: seq<Habit>, pe: seq<Entry>, h: Habit)
    requires UniqueIds(hs) && IsSubsequence(visible, hs)
    ensures UniqueIds(MoveGroup(visible, pe, h))
  {
    var p := SameCompletionAs(pe, h);
    SubsequenceKeepsUniqueIds(visible, hs);
    FilterIsSubsequence(visible, p);
    SubsequenceKeepsUniqueIds(Filter(visible, p), visible);
    PermutationKeepsUniqueIds(MoveGroup(visible, pe, h), Filter(visible, p));
  }

  /** In a list with unique ids, looking up the id of position k finds k. */
  lemma FindUniqueId(g: seq<Habit>, k: int)
    requires UniqueIds(g) && 0 <= k < |g|
    ensures FindIndex(g, HasId(g[k].id)) == k
  {
    var i := FindIndex(g, HasId(g[k].id));
    assert HasId(g[k].id)(g[k]);
  }

  /** The list with the habits of id a given order x and those of id b
      order y, all else unchanged. */
  function Exchanged(hs: seq<Habit>, a: string, x: int, b: string, y: int): (r: seq<Habit>)
    ensures |r| == |hs|
  {
    seq(|hs|, i requires 0 <= i < |hs| =>
      if hs[i].id == a then hs[i].(order := Some(x))
      else if hs[i].id == b then hs[i].(order := Some(y))
      else hs[i])
  }

  /** Two order updates for different ids set exactly those two orders. */
  lemma ApplyTwoOrderUpdates(hs: seq<Habit>, a: string, x: int, b: string, y: int)
    requires a != b
    ensures ApplyUpdates(hs, [Update(a, OrderPatch(x)), Update(b, OrderPatch(y))]) == Exchanged(hs, a, x, b, y)
  {
    var us := [Update(a, OrderPatch(x)), Update(b, OrderPatch(y))];
    assert us[1..] == [Update(b, OrderPatch(y))];
    assert us[1..][1..] == [];
    var mid := UpdateHabit(hs, a, OrderPatch(x));
    var out := UpdateHabit(mid, b, OrderPatch(y));
    assert us[0] == Update(a, OrderPatch(x)) && us[1..][0] == Update(b, OrderPatch(y));
    assert ApplyUpdates(hs, us) == ApplyUpdates(mid, us[1..]);
    assert ApplyUpdates(mid, us[1..]) == ApplyUpdates(out, us[1..][1..]);
    forall i | 0 <= i < |hs|
      ensures out[i] == Exchanged(hs, a, x, b, y)[i]
    {
      MergeOrder(hs[i], x);
      MergeOrder(mid[i], y);
    }
  }

  /** Merging `{ order: o }` sets the order and nothing else. */
  lemma MergeOrder(h: Habit, o: int)
    ensures Merge(h, OrderPatch(o)) == h.(order := Some(o))
  {
  }

  /** Moving a habit of a list with unique ids away from the edge of its
      group issues two updates for two different habits: the habit takes its
      neighbour's order and the neighbour takes the habit's (a missing order
      reading as the group position). `ApplyTwoOrderUpdates` says that
      nothing else changes. */
  lemma MoveHabitExchanges(hs: seq<Habit>, visible: seq<Habit>, pe: seq<Entry>, h: Habit, up: bool)
    requires UniqueIds(hs) && IsSubsequence(visible, hs) && h in visible
    ensures var r := MoveHabit(visible, pe, h, up);
      var g := MoveGroup(visible, pe, h);
      var idx := FindIndex(g, HasId(h.id));
      var swapIdx := if up then idx - 1 else idx + 1;
      |r| == 2 ==>
        0 <= swapIdx < |g| && g[idx] == h && g[swapIdx].id != h.id &&
        r == [Update(h.id, OrderPatch(g[swapIdx].order.GetOr(swapIdx))),
              Update(g[swapIdx].id, OrderPatch(h.order.GetOr(idx)))]
  {
    var g := MoveGroup(visible, pe, h);
    MoveGroupUnique(hs, visible, pe, h);
    var idx := FindIndex(g, HasId(h.id));
    var swapIdx := if up then idx - 1 else idx + 1;
    if 0 <= swapIdx < |g| {
      assert g[swapIdx].id != g[idx].id;
    }
  }

  /** A subsequence of a list with unique ids has unique ids. */
  lemma {:induction false} SubsequenceKeepsUniqueIds(r: seq<Habit>, s: seq<Habit>)
    requires IsSubsequence(r, s)
    requires UniqueIds(s)
    ensures UniqueIds(r)
    decreases |s|
  {
    if |r| > 0 && |s| > 0 {
      assert UniqueIds(s[1..]) by {
        forall i, j | 0 <= i < j < |s[1..]| ensures s[1..][i].id != s[1..][j].id {
          assert s[1..][i] == s[i + 1] && s[1..][j] == s[j + 1];
        }
      }
      if r[0] == s[0] {
        SubsequenceKeepsUniqueIds(r[1..], s[1..]);
        SubsequenceMembers(r[1..], s[1..]);
        forall i, j | 0 <= i < j < |r| ensures r[i].id != r[j].id {
          assert r[j] == r[1..][j - 1];
          if i == 0 {
            assert r[j] in r[1..];
            var k :| 0 <= k < |s[1..]| && s[1..][k] == r[j];
            assert s[k + 1] == r[j];
          } else {
            assert r[i] == r[1..][i - 1];
          }
        }
      } else {
        SubsequenceKeepsUniqueIds(r, s[1..]);
      }
    }
  }

  /** Every element of a subsequence occurs in the sequence. */
  lemma {:induction false} SubsequenceMembers<T>(r: seq<T>, s: seq<T>)
    requires IsSubsequence(r, s)
    ensures forall x :: x in r ==> x in s
    decreases |s|
  {
    if |r| > 0 && |s| > 0 {
      if r[0] == s[0] {
        SubsequenceMembers(r[1..], s[1..]);
        forall x | x in r ensures x in s {
          if x != r[0] { assert x in r[1..]; assert x in s[1..]; }
        }
      } else {
        SubsequenceMembers(r, s[1..]);
      }
    }
  }

  // ---------------------------------------------------------------- drag and drop

  /** `reordered.splice(from, 1)` followed by `reordered.splice(to, 0, removed)`. */
  function Move<T>(s: seq<T>, from: int, to: int): (r: seq<T>)
    requires 0 <= from < |s| && 0 <= to < |s|
    ensures |r| == |s| && r[to] == s[from]
    ensures multiset(r) == multiset(s)
    ensures r[..to] + r[to + 1..] == s[..from] + s[from + 1..]
  {
    var rest := s[..from] + s[from + 1..];
    assert s == s[..from] + [s[from]] + s[from + 1..];
    var r := rest[..to] + [s[from]] + rest[to..];
    assert rest == rest[..to] + rest[to..];
    assert r[..to] == rest[..to] && r[to + 1..] == rest[to..];
    assert multiset(r) == multiset(rest[..to]) + multiset{s[from]} + multiset(rest[to..]);
    assert multiset(rest) == multiset(rest[..to]) + multiset(rest[to..]);
    assert multiset(s) == multiset(s[..from]) + multiset{s[from]} + multiset(s[from + 1..]);
    assert multiset(rest) == multiset(s[..from]) + multiset(s[from + 1..]);
    assert multiset(r) == multiset(rest) + multiset{s[from]};
    r
  }

  /** `reordered.map((habit, index) => onUpdateHabit(habit.id, { order: index }))`. */
  function RankUpdates(s: seq<Habit>): (r: seq<Update>)
    ensures |r| == |s|
    ensures forall i :: 0 <= i < |s| ==> r[i] == Update(s[i].id, OrderPatch(i))
  {
    seq(|s|, i requires 0 <= i < |s| => Update(s[i].id, OrderPatch(i)))
  }

  /** What a drop asks for: nothing, new orders for a section, or a move
      across sections (an `isBeforeSleep` update and/or a completion
      toggle). */
  datatype Drop = NoChange | Reorder(updates: seq<Update>) | CrossMove(patch: Option<HabitPatch>, toggle: bool)

  /** The displayed list of a section. */
  function SectionList(r: Sections, s: Section): seq<Habit> {
    match s
    case Regular => r.regular
    case BeforeSleep => r.beforeSleep
    case Completed => r.completed
  }

  /** `handleCrossSectionMove(habit, from, to)`. */
  function CrossSectionMove(from: Section, to: Section): (d: Drop)
    ensures d.CrossMove?
  {
    var patch :=
      if to == BeforeSleep then Some(BeforeSleepPatch(true))
      else if to == Regular then Some(BeforeSleepPatch(false))
      else None;
    CrossMove(patch, (from == Completed) != (to == Completed))
  }

  /** A cross-section move lands the habit in the target section, given that
      the requested toggle flips its completion in the period. */
  lemma CrossSectionMoveReaches(h: Habit, from: Section, to: Section)
    requires from != to
    requires from == Regular ==> !IsBeforeSleep(h)
    requires from == BeforeSleep ==> IsBeforeSleep(h)
    ensures var d := CrossSectionMove(from, to);
      var moved := if d.patch.Some? then Merge(h, d.patch.value) else h;
      SectionOf((from == Completed) != d.toggle, moved) == to
  {
  }

  /** `handleDrop(e, targetHabit)` with `dragged` the habit being dragged. */
  function DropOnHabit(visible: seq<Habit>, pe: seq<Entry>, dragged: Habit, target: Habit): (d: Drop)
    ensures dragged.id == target.id ==> d == NoChange
    ensures HabitSection(dragged, pe) != HabitSection(target, pe) && dragged.id != target.id ==>
      d == CrossSectionMove(HabitSection(dragged, pe), HabitSection(target, pe))
  {
    if dragged.id == target.id then NoChange
    else
      var source := HabitSection(dragged, pe);
      var dest := HabitSection(target, pe);
      if source == dest then
        var group := SectionList(SplitSections(visible, pe), dest);
        var di := FindIndex(group, HasId(dragged.id));
        var ti := FindIndex(group, HasId(target.id));
        if di != -1 && ti != -1 then Reorder(RankUpdates(Move(group, di, ti))) else NoChange
      else CrossSectionMove(source, dest)
  }

  /** A drop on a habit of the same section renumbers the whole section
      0..n-1 in the order `Move` produces: the section with the dragged habit
      taken out and put back at the target's position. */
  lemma DropReordersSection(visible: seq<Habit>, pe: seq<Entry>, dragged: Habit, target: Habit)
    requires dragged.id != target.id
    requires HabitSection(dragged, pe) == HabitSection(target, pe)
    ensures var group := SectionList(SplitSections(visible, pe), HabitSection(target, pe));
      var di := FindIndex(group, HasId(dragged.id));
      var ti := FindIndex(group, HasId(target.id));
      var d := DropOnHabit(visible, pe, dragged, target);
      (di == -1 || ti == -1 ==> d == NoChange) &&
      (di != -1 && ti != -1 ==>
        group[di].id == dragged.id && group[ti].id == target.id &&
        d == Reorder(RankUpdates(Move(group, di, ti))))
  {
  }
}

=== FILE: radar.dfy ===
/** The prosperity radar (`radarCalculator`, `useTodayStats`): one completion
    percentage per category and a combined 0..100 score that rewards both
    completion and an even spread across categories. Percentages are exact
    reals; the square root is a parameter satisfying `IsSqrt`. */
module Radar {
  import opened Seqs
  import opened Types
  import opened Caps

  function MinReal(a: real, b: real): real { if a <= b then a else b }
  function MaxReal(a: real, b: real): real { if a >= b then a else b }

  /** What the model knows of `Math.sqrt`: the root of 0 is 0 and the root
      of a non-negative number is non-negative. */
  ghost predicate IsSqrt(sqrt: real -> real) {
    sqrt(0.0) == 0.0 && forall x: real :: x >= 0.0 ==> sqrt(x) >= 0.0
  }

  /** Pinned habits of category c: the denominator of its percentage; zero
      exactly when no habit of c is pinned. */
  function PinnedCount(hs: seq<Habit>, c: Category): (n: nat)
    ensures n <= |hs|
    ensures n == 0 <==> forall i :: 0 <= i < |hs| ==> !(IsPinned(hs[i]) && hs[i].category == c)
  {
    CountNoneIff(hs, (h: Habit) => IsPinned(h) && h.category == c);
    Count(hs, (h: Habit) => IsPinned(h) && h.category == c)
  }

  /** `getPinnedCountsPerCategory(habits)`: per category, at most one per
      habit, and zero exactly for the categories without a pinned habit. */
  function PinnedCounts(hs: seq<Habit>): (r: PerCategory<nat>)
    ensures forall c :: r.Get(c) <= |hs|
    ensures forall c :: r.Get(c) == 0 <==> forall i :: 0 <= i < |hs| ==> !(IsPinned(hs[i]) && hs[i].category == c)
  {
    Tabulate((c: Category) => PinnedCount(hs, c))
  }

  /** Only pinned habits are counted: adding an unpinned habit, wherever it
      goes, changes no denominator, and a pinned one raises exactly its own. */
  lemma PinnedCountsInsert(a: seq<Habit>, h: Habit, b: seq<Habit>)
    ensures forall c :: PinnedCounts(a + [h] + b).Get(c) ==
                        PinnedCounts(a + b).Get(c) + (if IsPinned(h) && h.category == c then 1 else 0)
  {
    forall c
      ensures PinnedCount(a + [h] + b, c) == PinnedCount(a + b, c) + (if IsPinned(h) && h.category == c then 1 else 0)
    {
      var p := (x: Habit) => IsPinned(x) && x.category == c;
      CountAppend(a + [h], b, p);
      CountAppend(a, [h], p);
      CountAppend(a, b, p);
    }
  }

  /** The percentage of one category from its completed and pinned counts. */
  function CategoryPercentage(completed: nat, total: nat): (p: real)
    ensures 0.0 <= p <= 100.0
    ensures p == 0.0 <==> completed == 0
    ensures total == 0 ==> (p == 100.0 <==> completed > 0)
    ensures total > 0 ==> (p == 100.0 <==> completed >= total)
    ensures total > 0 && completed < total ==> p * total as real == completed as real * 100.0
  {
    if total == 0 then (if completed > 0 then 100.0 else 0.0)
    else MinReal(100.0, completed as real / total as real * 100.0)
  }

  /** `computeRadarPercentages(entries, habits)`. */
  function RadarPercentages(es: seq<Entry>, hs: seq<Habit>): (r: PerCategory<real>)
    ensures forall c :: r.Get(c) == CategoryPercentage(CategoryCount(es, c), PinnedCount(hs, c))
    ensures forall c :: 0.0 <= r.Get(c) <= 100.0
  {
    Tabulate((c: Category) => CategoryPercentage(CategoryCount(es, c), PinnedCounts(hs).Get(c)))
  }

  function SumReal6(vs: seq<real>): real
    requires |vs| == 6
  {
    vs[0] + vs[1] + vs[2] + vs[3] + vs[4] + vs[5]
  }

  function Sq(x: real): (r: real)
    ensures r >= 0.0
  {
    x * x
  }

  /** Population variance of the six values around their mean. */
  function Variance(p: PerCategory<real>): (v: real)
    ensures v >= 0.0
  {
    var vs := p.Values();
    var mean := SumReal6(vs) / 6.0;
    SumReal6([Sq(vs[0] - mean), Sq(vs[1] - mean), Sq(vs[2] - mean),
              Sq(vs[3] - mean), Sq(vs[4] - mean), Sq(vs[5] - mean)]) / 6.0
  }

  /** The balance component: 100 for a perfectly even spread, falling by
      2.5 points per point of standard deviation, floored at 0. */
  function BalanceComponent(stddev: real): (b: real)
    requires stddev >= 0.0
    ensures 0.0 <= b <= 100.0
    ensures b == 100.0 <==> stddev == 0.0
    ensures b == 0.0 <==> stddev >= 40.0
  {
    MaxReal(0.0, 100.0 - (stddev / 40.0) * 100.0)
  }

  /** `computeBalanceScore(percentages)`: 0 when the percentages sum to 0,
      otherwise 80% of the mean plus 20% of the balance component, clamped
      to [0, 100]. */
  function BalanceScore(p: PerCategory<real>, sqrt: real -> real): (s: real)
    requires IsSqrt(sqrt)
    ensures 0.0 <= s <= 100.0
  {
    var vs := p.Values();
    var total := SumReal6(vs);
    if total == 0.0 then 0.0
    else
      var mean := total / 6.0;
      var balance := BalanceComponent(sqrt(Variance(p)));
      MaxReal(0.0, MinReal(100.0, mean * 0.8 + balance * 0.2))
  }

  /** With every percentage in [0, 100] and a non-zero sum, the clamp never
      acts: the score lies between 80% of the mean and 20 points above it. */
  lemma BalanceScoreBounds(p: PerCategory<real>, sqrt: real -> real)
    requires IsSqrt(sqrt)
    requires forall c :: 0.0 <= p.Get(c) <= 100.0
    requires SumReal6(p.Values()) != 0.0
    ensures var mean := SumReal6(p.Values()) / 6.0;
      0.8 * mean <= BalanceScore(p, sqrt) <= 0.8 * mean + 20.0
  {
    var vs := p.Values();
    assert vs[0] == p.Get(Cuerpo) && vs[1] == p.Get(Energia) && vs[2] == p.Get(Trabajo);
    assert vs[3] == p.Get(Dinero) && vs[4] == p.Get(Relaciones) && vs[5] == p.Get(Mente);
    var mean := SumReal6(vs) / 6.0;
    assert 0.0 <= mean <= 100.0;
  }

  /** With non-negative percentages the score is 0 exactly when every
      percentage is 0. */
  lemma BalanceScoreZeroIff(p: PerCategory<real>, sqrt: real -> real)
    requires IsSqrt(sqrt)
    requires forall c :: p.Get(c) >= 0.0
    ensures BalanceScore(p, sqrt) == 0.0 <==> forall c :: p.Get(c) == 0.0
  {
    var vs := p.Values();
    assert vs[0] == p.Get(Cuerpo) && vs[1] == p.Get(Energia) && vs[2] == p.Get(Trabajo);
    assert vs[3] == p.Get(Dinero) && vs[4] == p.Get(Relaciones) && vs[5] == p.Get(Mente);
  }

  /** A perfectly even radar at level x > 0 has no spread, so its score is
      0.8 * x + 20. */
  lemma BalanceScoreUniform(p: PerCategory<real>, x: real, sqrt: real -> real)
    requires IsSqrt(sqrt)
    requires 0.0 < x <= 100.0 && p == Constant(x)
    ensures BalanceScore(p, sqrt) == 0.8 * x + 20.0
  {
    assert Variance(p) == 0.0;
  }

  datatype RadarData = RadarData(percentages: PerCategory<real>, balanceScore: real)

  const ZeroRadar: RadarData := RadarData(Constant(0.0), 0.0)

  /** `computeRadarData(entries, habits)`. */
  function ComputeRadarData(es: seq<Entry>, hs: seq<Habit>, sqrt: real -> real): (r: RadarData)
    requires IsSqrt(sqrt)
    ensures forall c :: 0.0 <= r.percentages.Get(c) <= 100.0
    ensures 0.0 <= r.balanceScore <= 100.0
    ensures Count(hs, IsPinned) == 0 ==> r == ZeroRadar
    ensures Count(hs, IsPinned) > 0 ==> r.percentages == RadarPercentages(es, hs)
    ensures Count(hs, IsPinned) > 0 ==> r.balanceScore == BalanceScore(r.percentages, sqrt)
  {
    if |hs| == 0 then ZeroRadar
    else if |Filter(hs, IsPinned)| == 0 then ZeroRadar
    else
      var percentages := RadarPercentages(es, hs);
      RadarData(percentages, BalanceScore(percentages, sqrt))
  }

  /** When some habit is pinned, the score is 0 exactly when no category has
      a completion, whatever the entries are. */
  lemma RadarScoreZeroIff(es: seq<Entry>, hs: seq<Habit>, sqrt: real -> real)
    requires IsSqrt(sqrt)
    requires Count(hs, IsPinned) > 0
    ensures ComputeRadarData(es, hs, sqrt).balanceScore == 0.0 <==>
      forall c :: CategoryCount(es, c) == 0
  {
    var p := RadarPercentages(es, hs);
    assert forall c :: p.Get(c) == 0.0 <==> CategoryCount(es, c) == 0;
    BalanceScoreZeroIff(p, sqrt);
  }

  datatype TodayStats = TodayStats(radarData: RadarData, entryCount: nat, totalCount: nat)

  /** `useTodayStats(todayEntries, habits)`. */
  function ComputeTodayStats(todayEntries: seq<Entry>, hs: seq<Habit>, sqrt: real -> real): (r: TodayStats)
    requires IsSqrt(sqrt)
    ensures r.radarData == ComputeRadarData(todayEntries, hs, sqrt)
    ensures r.entryCount == |todayEntries|
    ensures r.totalCount == Count(hs, IsPinned)
    ensures r.totalCount <= |hs|
    ensures r.totalCount == 0 ==> r.radarData == ZeroRadar
    ensures r.totalCount == 0 <==> forall i :: 0 <= i < |hs| ==> !IsPinned(hs[i])
  {
    TodayStats(ComputeRadarData(todayEntries, hs, sqrt), |todayEntries|, Count(hs, IsPinned))
  }
}

=== FILE: schedule.dfy ===
/** Which habits the home page shows for a viewed day (`periodHabits`) and
    which of that day's entries count towards its radar
    (`filteredPeriodEntries`). The viewed day's entries (`periodEntries`) are
    `EntriesForDate(es, viewing)`. Days are `YYYY-MM-DD` strings compared with
    JavaScript's string `<`; "today" is the string `todayISO`, and
    `localDay(t)` is the day string of timestamp t (`timestampToISO`). */
module Schedule {
  import opened Seqs
  import opened Strings
  import opened Types
  import opened Dates
  import opened Entries

  /** Habit `id` has an entry dated d. */
  predicate HasEntryOn(es: seq<Entry>, id: string, d: string) {
    exists i :: 0 <= i < |es| && es[i].habitId == id && es[i].dateISO == d
  }

  /** Habit `id` has an entry on any day. */
  predicate HasAnyEntry(es: seq<Entry>, id: string) {
    exists i :: 0 <= i < |es| && es[i].habitId == id
  }

  /** The days a daily habit is due: `h.daysOfWeek || ALL_DAYS`. An array is
      always truthy, so an empty list stays empty. */
  function DueDays(h: Habit): seq<int> {
    h.daysOfWeek.GetOr(AllDays)
  }

  /** One step of the `habits.forEach`: whether h's id is added to the
      scheduled set for the viewed day. Nothing is scheduled before the day it
      was created; a daily habit with an empty weekday list never is; a once
      task is scheduled on its target day, and otherwise only on a day it has
      an entry on or today. */
  predicate IsScheduled(h: Habit, es: seq<Entry>, viewing: string, todayISO: string, localDay: Timestamp -> string): (b: bool)
    ensures Less(viewing, localDay(h.createdAt)) ==> !b
    ensures PeriodicityOf(h) == Daily && h.daysOfWeek == Some([]) ==> !b
    ensures PeriodicityOf(h) == Daily && h.daysOfWeek.None? ==> (b <==> !Less(viewing, localDay(h.createdAt)) && ParseISO(viewing).Some?)
    ensures PeriodicityOf(h) == Once && h.targetDate == Some(viewing) && |viewing| > 0 ==> (b <==> !Less(viewing, localDay(h.createdAt)))
    ensures PeriodicityOf(h) == Once && b ==> h.targetDate == Some(viewing) || HasEntryOn(es, h.id, viewing) || viewing == todayISO
  {
    if Less(viewing, localDay(h.createdAt)) then false
    else match PeriodicityOf(h)
      case Once =>
        if IsTruthy(h.targetDate) && h.targetDate.value == viewing then true
        else if HasEntryOn(es, h.id, viewing) then true
        else if viewing == todayISO && !HasAnyEntry(es, h.id) then
          !IsTruthy(h.targetDate) || LessEq(h.targetDate.value, todayISO)
        else false
      case Daily =>
        match DayOfWeekISO(viewing)
        case None => false
        case Some(w) =>
          assert AllDays[w] == w;
          w in DueDays(h)
  }

  /** `scheduledHabitIds`. */
  function ScheduledIds(hs: seq<Habit>, es: seq<Entry>, viewing: string, todayISO: string, localDay: Timestamp -> string): set<string> {
    set i | 0 <= i < |hs| && IsScheduled(hs[i], es, viewing, todayISO, localDay) :: hs[i].id
  }

  /** `habitIdsWithEntries`: habits with an entry on the viewed day. */
  function EntryHabitIds(es: seq<Entry>): set<string> {
    set i | 0 <= i < |es| :: es[i].habitId
  }

  /** The filter condition of `periodHabits`. */
  predicate Shown(h: Habit, ids: set<string>, withEntries: set<string>) {
    h.id in ids || h.id in withEntries
  }

  /** `periodHabits`: the habits whose id is scheduled or has an entry on the
      viewed day, in their original order. */
  function PeriodHabits(hs: seq<Habit>, es: seq<Entry>, viewing: string, todayISO: string, localDay: Timestamp -> string): (r: seq<Habit>)
    ensures IsSubsequence(r, hs)
  {
    var ids := ScheduledIds(hs, es, viewing, todayISO, localDay);
    var withEntries := EntryHabitIds(EntriesForDate(es, viewing));
    FilterIsSubsequence(hs, (h: Habit) => Shown(h, ids, withEntries));
    Filter(hs, (h: Habit) => Shown(h, ids, withEntries))
  }

  lemma EntryHabitIdsOfPeriod(es: seq<Entry>, viewing: string, id: string)
    ensures id in EntryHabitIds(EntriesForDate(es, viewing)) <==> HasEntryOn(es, id, viewing)
  {
    var pe := EntriesForDate(es, viewing);
    if HasEntryOn(es, id, viewing) {
      var i :| 0 <= i < |es| && es[i].habitId == id && es[i].dateISO == viewing;
      assert es[i] in pe;
      var k :| 0 <= k < |pe| && pe[k] == es[i];
    }
    if id in EntryHabitIds(pe) {
      var k :| 0 <= k < |pe| && pe[k].habitId == id;
      assert pe[k] in es;
      var i :| 0 <= i < |es| && es[i] == pe[k];
    }
  }

  /** With unique ids, a habit is shown exactly when it is scheduled or has an
      entry on the viewed day. */
  lemma PeriodHabitsMembership(hs: seq<Habit>, es: seq<Entry>, viewing: string, todayISO: string,
                               localDay: Timestamp -> string, i: int)
    requires UniqueIds(hs) && 0 <= i < |hs|
    ensures hs[i] in PeriodHabits(hs, es, viewing, todayISO, localDay) <==>
            IsScheduled(hs[i], es, viewing, todayISO, localDay) || HasEntryOn(es, hs[i].id, viewing)
  {
    var ids := ScheduledIds(hs, es, viewing, todayISO, localDay);
    EntryHabitIdsOfPeriod(es, viewing, hs[i].id);
    if hs[i].id in ids {
      var j :| 0 <= j < |hs| && IsScheduled(hs[j], es, viewing, todayISO, localDay) && hs[j].id == hs[i].id;
      assert i == j;
    }
    if IsScheduled(hs[i], es, viewing, todayISO, localDay) {
      assert hs[i].id in ids;
    }
  }

  /** Every habit with an entry on the viewed day is shown, whatever its
      creation day or periodicity. */
  lemma EntryOnDayIsShown(hs: seq<Habit>, es: seq<Entry>, viewing: string, todayISO: string,
                          localDay: Timestamp -> string, i: int)
    requires 0 <= i < |hs| && HasEntryOn(es, hs[i].id, viewing)
    ensures hs[i] in PeriodHabits(hs, es, viewing, todayISO, localDay)
  {
    EntryHabitIdsOfPeriod(es, viewing, hs[i].id);
  }

  /** A habit viewed before the day it was created, with no entry that day,
      is hidden. */
  lemma BeforeCreationIsHidden(hs: seq<Habit>, es: seq<Entry>, viewing: string, todayISO: string,
                               localDay: Timestamp -> string, i: int)
    requires UniqueIds(hs) && 0 <= i < |hs|
    requires Less(viewing, localDay(hs[i].createdAt)) && !HasEntryOn(es, hs[i].id, viewing)
    ensures hs[i] !in PeriodHabits(hs, es, viewing, todayISO, localDay)
  {
    PeriodHabitsMembership(hs, es, viewing, todayISO, localDay, i);
  }

  /** A daily habit (a missing periodicity counts as daily) past its creation
      day and without an entry on the viewed day is shown exactly when the
      viewed weekday is among its days; a missing list means every day and an
      empty list means none. */
  lemma DailyRule(hs: seq<Habit>, es: seq<Entry>, viewing: string, todayISO: string,
                  localDay: Timestamp -> string, i: int)
    requires UniqueIds(hs) && 0 <= i < |hs|
    requires hs[i].periodicity != Some(Once)
    requires !Less(viewing, localDay(hs[i].createdAt)) && !HasEntryOn(es, hs[i].id, viewing)
    ensures hs[i] in PeriodHabits(hs, es, viewing, todayISO, localDay) <==>
            DayOfWeekISO(viewing).Some? &&
            (hs[i].daysOfWeek.None? || DayOfWeekISO(viewing).value in hs[i].daysOfWeek.value)
    ensures hs[i].daysOfWeek == Some([]) ==> hs[i] !in PeriodHabits(hs, es, viewing, todayISO, localDay)
  {
    PeriodHabitsMembership(hs, es, viewing, todayISO, localDay, i);
    DailyScheduled(hs[i], es, viewing, todayISO, localDay);
  }

  lemma DailyScheduled(h: Habit, es: seq<Entry>, viewing: string, todayISO: string, localDay: Timestamp -> string)
    requires h.periodicity != Some(Once) && !Less(viewing, localDay(h.createdAt))
    ensures IsScheduled(h, es, viewing, todayISO, localDay) <==>
            DayOfWeekISO(viewing).Some? &&
            (h.daysOfWeek.None? || DayOfWeekISO(viewing).value in h.daysOfWeek.value)
  {
    assert PeriodicityOf(h) == Daily;
    if DayOfWeekISO(viewing).Some? && h.daysOfWeek.None? {
      var w := DayOfWeekISO(viewing).value;
      assert AllDays[w] == w;
    }
  }

  /** A once task past its creation day is shown on its target day, done or
      not. */
  lemma OnceOnTargetDay(hs: seq<Habit>, es: seq<Entry>, viewing: string, todayISO: string,
                        localDay: Timestamp -> string, i: int)
    requires 0 <= i < |hs|
    requires hs[i].periodicity == Some(Once) && hs[i].targetDate == Some(viewing) && |viewing| > 0
    requires !Less(viewing, localDay(hs[i].createdAt))
    ensures hs[i] in PeriodHabits(hs, es, viewing, todayISO, localDay)
  {
    assert hs[i].id in ScheduledIds(hs, es, viewing, todayISO, localDay);
  }

  /** Carry-over: viewing today, a once task past its creation day that has
      no entry at all is shown exactly when it has no target day or its target
      day is not after today. */
  lemma OnceCarryOver(hs: seq<Habit>, es: seq<Entry>, todayISO: string,
                      localDay: Timestamp -> string, i: int)
    requires UniqueIds(hs) && 0 <= i < |hs|
    requires hs[i].periodicity == Some(Once) && !HasAnyEntry(es, hs[i].id)
    requires !Less(todayISO, localDay(hs[i].createdAt))
    ensures hs[i] in PeriodHabits(hs, es, todayISO, todayISO, localDay) <==>
            !IsTruthy(hs[i].targetDate) || LessEq(hs[i].targetDate.value, todayISO)
  {
    PeriodHabitsMembership(hs, es, todayISO, todayISO, localDay, i);
  }

  /** A once task is hidden on a day other than today that is neither its
      target day nor a day it has an entry on. */
  lemma OnceElsewhereIsHidden(hs: seq<Habit>, es: seq<Entry>, viewing: string, todayISO: string,
                              localDay: Timestamp -> string, i: int)
    requires UniqueIds(hs) && 0 <= i < |hs|
    requires hs[i].periodicity == Some(Once) && hs[i].targetDate != Some(viewing)
    requires viewing != todayISO && !HasEntryOn(es, hs[i].id, viewing)
    ensures hs[i] !in PeriodHabits(hs, es, viewing, todayISO, localDay)
  {
    PeriodHabitsMembership(hs, es, viewing, todayISO, localDay, i);
  }

  /** `filteredPeriodEntries`: the viewed day's entries whose habit is shown.
      Filtering by the shown habits drops exactly the entries whose habit no
      longer exists, since every entry of the viewed day with an existing
      habit has its habit shown; each kept entry occurs as often as in es. */
  function FilteredPeriodEntries(hs: seq<Habit>, es: seq<Entry>, viewing: string, todayISO: string,
                                 localDay: Timestamp -> string): (r: seq<Entry>)
    ensures r == Filter(EntriesForDate(es, viewing), OfHabitIn(HabitIds(hs)))
    ensures forall e :: multiset(r)[e] == if e.dateISO == viewing && e.habitId in HabitIds(hs) then multiset(es)[e] else 0
  {
    var pe := EntriesForDate(es, viewing);
    var shownIds := HabitIds(PeriodHabits(hs, es, viewing, todayISO, localDay));
    assert forall e | e in pe :: OfHabitIn(shownIds)(e) == OfHabitIn(HabitIds(hs))(e) by {
      forall e | e in pe
        ensures OfHabitIn(shownIds)(e) == OfHabitIn(HabitIds(hs))(e)
      {
        if e.habitId in shownIds {
          ShownIdExists(hs, es, viewing, todayISO, localDay, e.habitId);
        }
        if e.habitId in HabitIds(hs) {
          PeriodEntryHabitShown(hs, es, viewing, todayISO, localDay, e);
        }
      }
    }
    FilterCongruent(pe, OfHabitIn(shownIds), OfHabitIn(HabitIds(hs)));
    FilterMultiset(pe, OfHabitIn(HabitIds(hs)));
    Filter(pe, OfHabitIn(shownIds))
  }

  /** `ids.has(entry.habitId)`. */
  function OfHabitIn(ids: set<string>): Entry -> bool {
    (e: Entry) => e.habitId in ids
  }

  lemma ShownIdExists(hs: seq<Habit>, es: seq<Entry>, viewing: string, todayISO: string,
                      localDay: Timestamp -> string, id: string)
    requires id in HabitIds(PeriodHabits(hs, es, viewing, todayISO, localDay))
    ensures id in HabitIds(hs)
  {
    var ph := PeriodHabits(hs, es, viewing, todayISO, localDay);
    var j :| 0 <= j < |ph| && ph[j].id == id;
    assert ph[j] in hs;
    var i :| 0 <= i < |hs| && hs[i] == ph[j];
  }

  lemma PeriodEntryHabitShown(hs: seq<Habit>, es: seq<Entry>, viewing: string, todayISO: string,
                              localDay: Timestamp -> string, e: Entry)
    requires e in EntriesForDate(es, viewing) && e.habitId in HabitIds(hs)
    ensures e.habitId in HabitIds(PeriodHabits(hs, es, viewing, todayISO, localDay))
  {
    var ph := PeriodHabits(hs, es, viewing, todayISO, localDay);
    var pe := EntriesForDate(es, viewing);
    var i :| 0 <= i < |hs| && hs[i].id == e.habitId;
    var k :| 0 <= k < |pe| && pe[k] == e;
    assert e in es;
    var m :| 0 <= m < |es| && es[m] == e;
    EntryOnDayIsShown(hs, es, viewing, todayISO, localDay, i);
    var j :| 0 <= j < |ph| && ph[j] == hs[i];
  }
}

=== FILE: seqs.dfy ===
/** Generic sequence vocabulary shared by the whole model: optional values and
    the array combinators the application uses (`filter`, `find`, `findIndex`,
    `map` with a condition, `some`), each with the facts the other modules need. */
module Seqs {

  /** A JavaScript value that may be `undefined`. */
  datatype Option<+T> = None | Some(value: T) {
    function GetOr(default: T): T {
      match this
      case Some(v) => v
      case None => default
    }
  }

  /** `r` is obtained from `s` by deleting elements, keeping the order of the rest. */
  predicate IsSubsequence<T(==)>(r: seq<T>, s: seq<T>)
    decreases |s|
  {
    if |r| == 0 then true
    else if |s| == 0 then false
    else if r[0] == s[0] then IsSubsequence(r[1..], s[1..])
    else IsSubsequence(r, s[1..])
  }

  lemma SubsequenceRefl<T>(s: seq<T>)
    ensures IsSubsequence(s, s)
  {
    if |s| > 0 { SubsequenceRefl(s[1..]); }
  }

  /** `Array.prototype.filter`. */
  function Filter<T>(s: seq<T>, p: T -> bool): (r: seq<T>)
    ensures |r| <= |s|
    ensures forall i :: 0 <= i < |r| ==> r[i] in s && p(r[i])
    ensures forall i :: 0 <= i < |s| && p(s[i]) ==> s[i] in r
    decreases |s|
  {
    if |s| == 0 then []
    else if p(s[0]) then [s[0]] + Filter(s[1..], p)
    else Filter(s[1..], p)
  }

  lemma FilterIsSubsequence<T>(s: seq<T>, p: T -> bool)
    ensures IsSubsequence(Filter(s, p), s)
  {
    if |s| > 0 {
      FilterIsSubsequence(s[1..], p);
      if !p(s[0]) {
        var r := Filter(s[1..], p);
        SubsequenceSkipHead(r, s);
      }
    }
  }

  /** Dropping the head of the longer sequence keeps a subsequence relation. */
  lemma SubsequenceSkipHead<T>(r: seq<T>, s: seq<T>)
    requires |s| > 0
    requires IsSubsequence(r, s[1..])
    ensures IsSubsequence(r, s)
    decreases |s|, 0
  {
    if |r| > 0 && r[0] == s[0] {
      // r[1..] is a subsequence of r, which is a subsequence of s[1..]
      SubsequenceTail(r, s[1..]);
    }
  }

  /** If r is a subsequence of s then so is r without its head. */
  lemma SubsequenceTail<T>(r: seq<T>, s: seq<T>)
    requires |r| > 0
    requires IsSubsequence(r, s)
    ensures IsSubsequence(r[1..], s)
    decreases |s|, 1
  {
    if r[0] == s[0] {
      SubsequenceSkipHead(r[1..], s);
    } else {
      SubsequenceTail(r, s[1..]);
      SubsequenceSkipHead(r[1..], s);
    }
  }

  /** Nothing satisfies p, so nothing is kept. */
  lemma FilterNone<T>(s: seq<T>, p: T -> bool)
    requires forall i :: 0 <= i < |s| ==> !p(s[i])
    ensures Filter(s, p) == []
  {
    if |s| > 0 { FilterNone(s[1..], p); }
  }

  /** x is kept exactly when it occurs and satisfies p. */
  lemma FilterMembership<T>(s: seq<T>, p: T -> bool, x: T)
    ensures x in Filter(s, p) <==> x in s && p(x)
  {
    if x in s && p(x) {
      var i :| 0 <= i < |s| && s[i] == x;
    }
  }

  /** Filtering keeps every element that satisfies p as many times as it
      occurs, and no other element. */
  lemma {:induction false} FilterMultiset<T>(s: seq<T>, p: T -> bool)
    ensures forall x :: multiset(Filter(s, p))[x] == if p(x) then multiset(s)[x] else 0
  {
    if |s| > 0 {
      FilterMultiset(s[1..], p);
      assert s == [s[0]] + s[1..];
    }
  }

  /** Filtering twice is filtering once by both conditions. */
  lemma {:induction false} FilterFilter<T>(s: seq<T>, p: T -> bool, q: T -> bool, pq: T -> bool)
    requires forall x :: pq(x) == (p(x) && q(x))
    ensures Filter(Filter(s, p), q) == Filter(s, pq)
    decreases |s|
  {
    if |s| > 0 {
      FilterFilter(s[1..], p, q, pq);
      if p(s[0]) {
        assert ([s[0]] + Filter(s[1..], p))[1..] == Filter(s[1..], p);
      }
    }
  }

  /** A condition and its negation split a sequence: the two filtered parts
      together hold every element exactly as often as the sequence does. */
  lemma {:induction false} FilterSplit<T>(s: seq<T>, p: T -> bool, q: T -> bool)
    requires forall x :: q(x) == !p(x)
    ensures multiset(Filter(s, p)) + multiset(Filter(s, q)) == multiset(s)
    decreases |s|
  {
    if |s| > 0 {
      FilterSplit(s[1..], p, q);
      var h := s[0];
      assert s == [h] + s[1..];
      assert multiset(s) == multiset{h} + multiset(s[1..]);
      if p(h) {
        assert multiset(Filter(s, p)) == multiset{h} + multiset(Filter(s[1..], p));
        assert Filter(s, q) == Filter(s[1..], q);
      } else {
        assert Filter(s, p) == Filter(s[1..], p);
        assert multiset(Filter(s, q)) == multiset{h} + multiset(Filter(s[1..], q));
      }
    }
  }

  /** rel holds between every element and every later one. */
  predicate Pairwise<T>(s: seq<T>, rel: (T, T) -> bool) {
    forall i, j :: 0 <= i < j < |s| ==> rel(s[i], s[j])
  }

  /** Filtering keeps the order of what it keeps, so a relation between
      earlier and later elements survives. */
  lemma {:induction false} FilterKeepsPairwise<T>(s: seq<T>, p: T -> bool, rel: (T, T) -> bool)
    requires Pairwise(s, rel)
    ensures Pairwise(Filter(s, p), rel)
    decreases |s|
  {
    if |s| > 0 {
      assert Pairwise(s[1..], rel) by {
        forall i, j | 0 <= i < j < |s[1..]|
          ensures rel(s[1..][i], s[1..][j])
        {
          assert s[1..][i] == s[i + 1] && s[1..][j] == s[j + 1];
        }
      }
      FilterKeepsPairwise(s[1..], p, rel);
      if p(s[0]) {
        var rest := Filter(s[1..], p);
        var r := [s[0]] + rest;
        forall i, j | 0 <= i < j < |r|
          ensures rel(r[i], r[j])
        {
          assert r[j] == rest[j - 1];
          if i == 0 {
            var k :| 0 <= k < |s[1..]| && s[1..][k] == rest[j - 1];
            assert s[k + 1] == rest[j - 1];
          } else {
            assert r[i] == rest[i - 1];
          }
        }
      }
    }
  }

  /** Everything satisfies p, so everything is kept. */
  lemma FilterAll<T>(s: seq<T>, p: T -> bool)
    requires forall i :: 0 <= i < |s| ==> p(s[i])
    ensures Filter(s, p) == s
  {
    if |s| > 0 { FilterAll(s[1..], p); }
  }

  lemma FilterAppend<T>(a: seq<T>, b: seq<T>, p: T -> bool)
    ensures Filter(a + b, p) == Filter(a, p) + Filter(b, p)
  {
    if |a| > 0 {
      assert (a + b)[1..] == a[1..] + b;
      FilterAppend(a[1..], b, p);
    } else {
      assert a + b == b;
    }
  }

  /** Two predicates that agree on every element of s filter it identically. */
  lemma FilterCongruent<T>(s: seq<T>, p: T -> bool, q: T -> bool)
    requires forall x :: x in s ==> (p(x) <==> q(x))
    ensures Filter(s, p) == Filter(s, q)
  {
    if |s| > 0 { FilterCongruent(s[1..], p, q); }
  }

  /** Number of elements satisfying p (`s.filter(p).length`). */
  function Count<T>(s: seq<T>, p: T -> bool): nat {
    |Filter(s, p)|
  }

  /** No element is counted exactly when none satisfies p. */
  lemma CountNoneIff<T>(s: seq<T>, p: T -> bool)
    ensures Count(s, p) == 0 <==> forall i :: 0 <= i < |s| ==> !p(s[i])
  {
    if forall i :: 0 <= i < |s| ==> !p(s[i]) {
      FilterNone(s, p);
    }
  }

  /** Every element is counted exactly when all satisfy p. */
  lemma {:induction false} CountAllIff<T>(s: seq<T>, p: T -> bool)
    ensures Count(s, p) == |s| <==> forall i :: 0 <= i < |s| ==> p(s[i])
    decreases |s|
  {
    if |s| > 0 {
      CountAllIff(s[1..], p);
      if forall i :: 0 <= i < |s| ==> p(s[i]) {
        assert forall i :: 0 <= i < |s| - 1 ==> p(s[1..][i]);
      } else if p(s[0]) {
        var i :| 0 <= i < |s| && !p(s[i]);
        assert !p(s[1..][i - 1]);
      }
    }
  }

  lemma CountAppend<T>(a: seq<T>, b: seq<T>, p: T -> bool)
    ensures Count(a + b, p) == Count(a, p) + Count(b, p)
  {
    FilterAppend(a, b, p);
  }

  /** Counting does not depend on the order of the elements. */
  lemma {:induction false} CountPermutation<T>(a: seq<T>, b: seq<T>, p: T -> bool)
    requires multiset(a) == multiset(b)
    ensures Count(a, p) == Count(b, p)
    decreases |a|
  {
    if |a| == 0 {
      assert |b| == |multiset(b)| == 0;
    } else {
      var x := a[0];
      assert x in multiset(b);
      var i :| 0 <= i < |b| && b[i] == x;
      var b' := b[..i] + b[i+1..];
      assert b == b[..i] + [x] + b[i+1..];
      assert a == [x] + a[1..];
      assert multiset(a) == multiset([x]) + multiset(a[1..]);
      assert multiset(b) == multiset(b[..i]) + multiset([x]) + multiset(b[i+1..]);
      assert multiset(b') == multiset(b[..i]) + multiset(b[i+1..]);
      assert multiset(a[1..]) == multiset(a) - multiset([x]);
      assert multiset(b') == multiset(b) - multiset([x]);
      CountPermutation(a[1..], b', p);
      CountAppend([x], a[1..], p);
      CountAppend(b[..i] + [x], b[i+1..], p);
      CountAppend(b[..i], [x], p);
      CountAppend(b[..i], b[i+1..], p);
    }
  }

  /** `Array.prototype.findIndex`: the first index satisfying p, or -1. */
  function FindIndex<T>(s: seq<T>, p: T -> bool): (r: int)
    ensures -1 <= r < |s|
    ensures r == -1 <==> forall i :: 0 <= i < |s| ==> !p(s[i])
    ensures r >= 0 ==> p(s[r]) && forall j :: 0 <= j < r ==> !p(s[j])
    decreases |s|
  {
    if |s| == 0 then -1
    else if p(s[0]) then 0
    else
      var k := FindIndex(s[1..], p);
      if k == -1 then -1 else k + 1
  }

  /** `Array.prototype.find`: the first element satisfying p, if any. */
  function Find<T>(s: seq<T>, p: T -> bool): (r: Option<T>)
    ensures r.None? <==> forall i :: 0 <= i < |s| ==> !p(s[i])
    ensures r.Some? ==> exists i :: 0 <= i < |s| && s[i] == r.value && p(s[i]) &&
                          forall j :: 0 <= j < i ==> !p(s[j])
  {
    var k := FindIndex(s, p);
    if k == -1 then None else Some(s[k])
  }

  /** `find` looks at the head first. */
  lemma FindCons<T>(s: seq<T>, p: T -> bool)
    requires |s| > 0
    ensures Find(s, p) == if p(s[0]) then Some(s[0]) else Find(s[1..], p)
  {
  }

  /** The first kept element is the first element satisfying p. */
  lemma {:induction false} FilterHead<T>(s: seq<T>, p: T -> bool)
    ensures Find(s, p) == if |Filter(s, p)| == 0 then None else Some(Filter(s, p)[0])
    decreases |s|
  {
    if |s| > 0 {
      FindCons(s, p);
      FilterHead(s[1..], p);
    }
  }

  /** Searching the elements that satisfy p for one satisfying q finds the
      first element that satisfies both. */
  lemma {:induction false} FindFilter<T>(s: seq<T>, p: T -> bool, q: T -> bool, pq: T -> bool)
    requires forall x :: pq(x) == (p(x) && q(x))
    ensures Find(Filter(s, p), q) == Find(s, pq)
    decreases |s|
  {
    if |s| > 0 {
      FindCons(s, pq);
      FindFilter(s[1..], p, q, pq);
      var rest := Filter(s[1..], p);
      if p(s[0]) {
        assert Filter(s, p) == [s[0]] + rest;
        assert ([s[0]] + rest)[1..] == rest;
        FindCons([s[0]] + rest, q);
      }
    }
  }

  /** `s.map(x => p(x) ? f(x) : x)`: rewrite exactly the elements satisfying p. */
  function MapWhere<T>(s: seq<T>, p: T -> bool, f: T -> T): (r: seq<T>)
    ensures |r| == |s|
    ensures forall i :: 0 <= i < |s| ==> r[i] == (if p(s[i]) then f(s[i]) else s[i])
  {
    seq(|s|, i requires 0 <= i < |s| => if p(s[i]) then f(s[i]) else s[i])
  }

  /** `s.map((x, i) => f(x, i))`. */
  function MapIndexed<A, B>(s: seq<A>, f: (A, nat) -> B): (r: seq<B>)
    ensures |r| == |s|
    ensures forall i :: 0 <= i < |s| ==> r[i] == f(s[i], i)
  {
    seq(|s|, i requires 0 <= i < |s| => f(s[i], i))
  }

  /** Elements pairwise distinct. */
  predicate Distinct<T(==)>(s: seq<T>) {
    forall i, j :: 0 <= i < j < |s| ==> s[i] != s[j]
  }

  /** Every element of a sequence of naturals-valued sizes summed. */
  function Sum(s: seq<int>): int {
    if |s| == 0 then 0 else s[0] + Sum(s[1..])
  }

  lemma SumAppend(a: seq<int>, b: seq<int>)
    ensures Sum(a + b) == Sum(a) + Sum(b)
  {
    if |a| == 0 {
      assert a + b == b;
    } else {
      assert (a + b)[1..] == a[1..] + b;
      SumAppend(a[1..], b);
    }
  }

  function SumReal(s: seq<real>): real {
    if |s| == 0 then 0.0 else s[0] + SumReal(s[1..])
  }

  /** Keys never decrease along the sequence. */
  predicate SortedBy<T>(s: seq<T>, key: T -> int) {
    forall i, j :: 0 <= i < j < |s| ==> key(s[i]) <= key(s[j])
  }

  /** Insert x before the first element whose key is at least as large as
      x's, so that x goes in front of the elements with an equal key. */
  function InsertBy<T>(x: T, s: seq<T>, key: T -> int): (r: seq<T>)
    requires SortedBy(s, key)
    ensures SortedBy(r, key)
    ensures |r| == |s| + 1
    ensures multiset(r) == multiset(s) + multiset{x}
    ensures r[0] == x || (|s| > 0 && r[0] == s[0])
  {
    if |s| == 0 then [x]
    else if key(x) <= key(s[0]) then
      SortedCons(x, s, key);
      [x] + s
    else
      var rest := InsertBy(x, s[1..], key);
      assert s == [s[0]] + s[1..];
      SortedCons(s[0], rest, key);
      [s[0]] + rest
  }

  /** An element no larger than the head of a sorted list may go in front. */
  lemma SortedCons<T>(y: T, s: seq<T>, key: T -> int)
    requires SortedBy(s, key) && (|s| > 0 ==> key(y) <= key(s[0]))
    ensures SortedBy([y] + s, key)
  {
    var r := [y] + s;
    forall i, j | 0 <= i < j < |r| ensures key(r[i]) <= key(r[j]) {
      assert r[j] == s[j - 1];
      if i > 0 { assert r[i] == s[i - 1]; }
    }
  }

  /** A stable insertion sort by key: each element goes before the later
      elements with an equal key. */
  function SortBy<T>(s: seq<T>, key: T -> int): (r: seq<T>)
    ensures SortedBy(r, key)
    ensures |r| == |s|
    ensures multiset(r) == multiset(s)
  {
    if |s| == 0 then []
    else
      assert s == [s[0]] + s[1..];
      InsertBy(s[0], SortBy(s[1..], key), key)
  }
}

=== FILE: storage.dfy ===
/** The pure helpers of the persistence layer: stripping `undefined` from a
    value before it is written, the validity filter applied to loaded habits,
    and the list updates done on the local-storage copy when the cloud store
    is not configured. The storage itself is not modelled: a write is
    reduced to the success flag `setStorageItem` reports. */
module Storage {
  import opened Seqs
  import opened Types

  // ---------------------------------------------------------------- sanitizing

  /** A JavaScript value as far as `sanitizeForFirestore` can tell them
      apart. An object is the list of its own enumerable properties in
      `Object.entries` order. */
  datatype Value =
    | Undefined
    | Null
    | Bool(b: bool)
    | Num(n: real)
    | Str(s: string)
    | Arr(items: seq<Value>)
    | Obj(fields: seq<Field>)

  datatype Field = Field(key: string, val: Value)

  /** `item !== undefined`. */
  function IsDefined(): Value -> bool {
    (v: Value) => !v.Undefined?
  }

  /** `value !== undefined` for a property. */
  function HasDefinedValue(): Field -> bool {
    (f: Field) => !f.val.Undefined?
  }

  /** `sanitizeForFirestore(data)`. */
  function Sanitize(v: Value): (r: Value)
    ensures !v.Arr? && !v.Obj? ==> r == v
    ensures v.Arr? <==> r.Arr?
    ensures v.Obj? <==> r.Obj?
    decreases v, 1
  {
    match v
    case Arr(xs) => Arr(SanitizeItems(xs))
    case Obj(fs) => Obj(SanitizeFields(fs))
    case _ => v
  }

  /** `.filter(item => item !== undefined).map(sanitizeForFirestore)`. */
  function SanitizeItems(xs: seq<Value>): (r: seq<Value>)
    ensures |r| == Count(xs, IsDefined())
    decreases xs, 0
  {
    if |xs| == 0 then []
    else if xs[0].Undefined? then SanitizeItems(xs[1..])
    else [Sanitize(xs[0])] + SanitizeItems(xs[1..])
  }

  /** The properties with a defined value, each with its value sanitized, in
      the original order. */
  function SanitizeFields(fs: seq<Field>): (r: seq<Field>)
    ensures |r| == Count(fs, HasDefinedValue())
    decreases fs, 0
  {
    if |fs| == 0 then []
    else if fs[0].val.Undefined? then SanitizeFields(fs[1..])
    else [Field(fs[0].key, Sanitize(fs[0].val))] + SanitizeFields(fs[1..])
  }

  /** No `undefined` anywhere in the value. */
  predicate DefinedDeep(v: Value)
    decreases v
  {
    match v
    case Undefined => false
    case Arr(xs) => forall i :: 0 <= i < |xs| ==> DefinedDeep(xs[i])
    case Obj(fs) => forall i :: 0 <= i < |fs| ==> DefinedDeep(fs[i].val)
    case _ => true
  }

  /** Arrays lose exactly their `undefined` elements and keep the others in
      order, each sanitized. */
  lemma {:induction false} SanitizeItemsIsFilterMap(xs: seq<Value>)
    ensures var kept := Filter(xs, IsDefined());
      |SanitizeItems(xs)| == |kept| &&
      forall i :: 0 <= i < |kept| ==> SanitizeItems(xs)[i] == Sanitize(kept[i])
    decreases |xs|
  {
    if |xs| > 0 {
      SanitizeItemsIsFilterMap(xs[1..]);
    }
  }

  /** Objects lose exactly their `undefined`-valued keys and keep the others
      in order, each value sanitized. */
  lemma {:induction false} SanitizeFieldsIsFilterMap(fs: seq<Field>)
    ensures var kept := Filter(fs, HasDefinedValue());
      |SanitizeFields(fs)| == |kept| &&
      forall i :: 0 <= i < |kept| ==>
        SanitizeFields(fs)[i] == Field(kept[i].key, Sanitize(kept[i].val))
    decreases |fs|
  {
    if |fs| > 0 {
      SanitizeFieldsIsFilterMap(fs[1..]);
    }
  }

  /** The result of sanitizing anything but `undefined` itself holds no
      `undefined` at any depth. */
  lemma {:induction false} SanitizeRemovesUndefined(v: Value)
    requires !v.Undefined?
    ensures DefinedDeep(Sanitize(v))
    decreases v, 1
  {
    match v
    case Arr(xs) => SanitizeItemsDefined(xs);
    case Obj(fs) => SanitizeFieldsDefined(fs);
    case _ =>
  }

  lemma {:induction false} SanitizeItemsDefined(xs: seq<Value>)
    ensures forall i :: 0 <= i < |SanitizeItems(xs)| ==> DefinedDeep(SanitizeItems(xs)[i])
    decreases xs, 0
  {
    if |xs| > 0 {
      SanitizeItemsDefined(xs[1..]);
      if !xs[0].Undefined? {
        SanitizeRemovesUndefined(xs[0]);
        var r := SanitizeItems(xs);
        assert r == [Sanitize(xs[0])] + SanitizeItems(xs[1..]);
        forall i | 0 <= i < |r| ensures DefinedDeep(r[i]) {
          if i > 0 { assert r[i] == SanitizeItems(xs[1..])[i - 1]; }
        }
      }
    }
  }

  lemma {:induction false} SanitizeFieldsDefined(fs: seq<Field>)
    ensures forall i :: 0 <= i < |SanitizeFields(fs)| ==> DefinedDeep(SanitizeFields(fs)[i].val)
    decreases fs, 0
  {
    if |fs| > 0 {
      SanitizeFieldsDefined(fs[1..]);
      if !fs[0].val.Undefined? {
        SanitizeRemovesUndefined(fs[0].val);
        var r := SanitizeFields(fs);
        assert r == [Field(fs[0].key, Sanitize(fs[0].val))] + SanitizeFields(fs[1..]);
        forall i | 0 <= i < |r| ensures DefinedDeep(r[i].val) {
          if i > 0 { assert r[i] == SanitizeFields(fs[1..])[i - 1]; }
        }
      }
    }
  }

  /** A value with no `undefined` anywhere is left as it is. */
  lemma {:induction false} SanitizeKeepsDefined(v: Value)
    requires DefinedDeep(v)
    ensures Sanitize(v) == v
    decreases v, 1
  {
    match v
    case Arr(xs) => SanitizeItemsKeepsDefined(xs);
    case Obj(fs) => SanitizeFieldsKeepsDefined(fs);
    case _ =>
  }

  lemma {:induction false} SanitizeItemsKeepsDefined(xs: seq<Value>)
    requires forall i :: 0 <= i < |xs| ==> DefinedDeep(xs[i])
    ensures SanitizeItems(xs) == xs
    decreases xs, 0
  {
    if |xs| > 0 {
      SanitizeKeepsDefined(xs[0]);
      SanitizeItemsKeepsDefined(xs[1..]);
      assert !xs[0].Undefined?;
      assert SanitizeItems(xs) == [Sanitize(xs[0])] + SanitizeItems(xs[1..]);
      assert xs == [xs[0]] + xs[1..];
    }
  }

  lemma {:induction false} SanitizeFieldsKeepsDefined(fs: seq<Field>)
    requires forall i :: 0 <= i < |fs| ==> DefinedDeep(fs[i].val)
    ensures SanitizeFields(fs) == fs
    decreases fs, 0
  {
    if |fs| > 0 {
      SanitizeKeepsDefined(fs[0].val);
      SanitizeFieldsKeepsDefined(fs[1..]);
      assert !fs[0].val.Undefined?;
      assert SanitizeFields(fs) == [Field(fs[0].key, Sanitize(fs[0].val))] + SanitizeFields(fs[1..]);
      assert Field(fs[0].key, Sanitize(fs[0].val)) == fs[0];
      assert fs == [fs[0]] + fs[1..];
    }
  }

  /** Sanitizing is idempotent, and a value is left unchanged exactly when it
      is `undefined` or holds no `undefined` anywhere. */
  lemma SanitizeIdempotent(v: Value)
    ensures Sanitize(Sanitize(v)) == Sanitize(v)
    ensures Sanitize(v) == v <==> v.Undefined? || DefinedDeep(v)
  {
    if !v.Undefined? {
      SanitizeRemovesUndefined(v);
      SanitizeKeepsDefined(Sanitize(v));
      if DefinedDeep(v) { SanitizeKeepsDefined(v); }
    }
  }

  // ---------------------------------------------------------------- loading habits

  /** A loaded habit document: name and category may be missing in a
      corrupt document; `body` holds the other fields. */
  datatype HabitDoc = HabitDoc(name: Option<string>, category: Option<Category>, body: Habit)

  /** `h.name && h.category`. */
  predicate IsValidDoc(d: HabitDoc) {
    IsTruthy(d.name) && d.category.Some?
  }

  function DocHabit(d: HabitDoc): Habit
    requires IsValidDoc(d)
  {
    d.body.(name := d.name.value, category := d.category.value)
  }

  /** The loop of `loadHabits`: the valid documents, in order. */
  function LoadHabits(docs: seq<HabitDoc>): (r: seq<Habit>)
    ensures |r| == Count(docs, (d: HabitDoc) => IsValidDoc(d))
    ensures forall i :: 0 <= i < |r| ==> r[i].name != ""
  {
    if |docs| == 0 then []
    else if IsValidDoc(docs[0]) then [DocHabit(docs[0])] + LoadHabits(docs[1..])
    else LoadHabits(docs[1..])
  }

  /** The document a well-formed habit is stored as. */
  function HabitToDoc(h: Habit): HabitDoc {
    HabitDoc(Some(h.name), Some(h.category), h)
  }

  /** Loading keeps exactly the valid documents, in their order; loading
      what was stored for a list of named habits gives the list back. */
  lemma {:induction false} LoadHabitsKeepsValid(docs: seq<HabitDoc>)
    ensures var valid := Filter(docs, (d: HabitDoc) => IsValidDoc(d));
      forall i :: 0 <= i < |valid| ==> LoadHabits(docs)[i] == DocHabit(valid[i])
    decreases |docs|
  {
    if |docs| > 0 {
      LoadHabitsKeepsValid(docs[1..]);
    }
  }

  lemma {:induction false} LoadStoredHabits(hs: seq<Habit>)
    requires forall i :: 0 <= i < |hs| ==> hs[i].name != ""
    ensures LoadHabits(seq(|hs|, i requires 0 <= i < |hs| => HabitToDoc(hs[i]))) == hs
    decreases |hs|
  {
    if |hs| > 0 {
      var docs := seq(|hs|, i requires 0 <= i < |hs| => HabitToDoc(hs[i]));
      assert docs[1..] == seq(|hs[1..]|, i requires 0 <= i < |hs[1..]| => HabitToDoc(hs[1..][i]));
      LoadStoredHabits(hs[1..]);
      assert hs == [hs[0]] + hs[1..];
    }
  }

  // ---------------------------------------------------------------- local fallback

  /** The stored list after a local write: the new list when the write
      succeeds, the old one otherwise. */
  datatype LocalWrite<T> = LocalWrite(ok: bool, items: seq<T>)

  /** The local branch of `deleteDocument`: drop every item with the id. */
  function LocalDelete<T(!new)>(items: seq<T>, idOf: T -> string, id: string, stored: bool): (r: LocalWrite<T>)
    ensures r.ok == stored
    ensures r.ok ==> forall i :: 0 <= i < |r.items| ==> idOf(r.items[i]) != id
    ensures IsSubsequence(r.items, items)
    ensures forall i :: 0 <= i < |items| && idOf(items[i]) != id ==> items[i] in r.items
    ensures r.ok ==> forall x :: multiset(r.items)[x] == if idOf(x) != id then multiset(items)[x] else 0
    ensures !r.ok ==> r.items == items
  {
    var kept := Filter(items, (x: T) => idOf(x) != id);
    FilterIsSubsequence(items, (x: T) => idOf(x) != id);
    FilterMultiset(items, (x: T) => idOf(x) != id);
    SubsequenceRefl(items);
    LocalWrite(stored, if stored then kept else items)
  }

  /** The lookup `item.id === id`, for items whose id `idOf` reads. */
  function IdIs<T>(idOf: T -> string, id: string): T -> bool {
    (y: T) => idOf(y) == id
  }

  /** The id of a habit. */
  function HabitId(): Habit -> string {
    (h: Habit) => h.id
  }

  /** The local branch of `updateHabit` / `updateEntry`: replace the first
      item with the same id; report failure when there is none. */
  function LocalReplace<T>(items: seq<T>, idOf: T -> string, x: T, stored: bool): (r: LocalWrite<T>)
    ensures |r.items| == |items|
    ensures r.ok <==> stored && exists i :: 0 <= i < |items| && idOf(items[i]) == idOf(x)
    ensures !r.ok ==> r.items == items
    ensures r.ok ==>
      exists k :: 0 <= k < |items| && idOf(items[k]) == idOf(x) &&
        (forall j :: 0 <= j < k ==> idOf(items[j]) != idOf(x)) &&
        r.items == items[k := x]
  {
    var k := FindIndex(items, IdIs(idOf, idOf(x)));
    if k == -1 then LocalWrite(false, items)
    else LocalWrite(stored, if stored then items[k := x] else items)
  }

  /** After a successful replacement, looking the id up finds the new item. */
  lemma LocalReplaceThenFind<T>(items: seq<T>, idOf: T -> string, x: T)
    requires exists i :: 0 <= i < |items| && idOf(items[i]) == idOf(x)
    ensures var r := LocalReplace(items, idOf, x, true);
      r.ok && Find(r.items, IdIs(idOf, idOf(x))) == Some(x)
  {
    var r := LocalReplace(items, idOf, x, true);
    var k :| 0 <= k < |items| && idOf(items[k]) == idOf(x) &&
      (forall j :: 0 <= j < k ==> idOf(items[j]) != idOf(x)) && r.items == items[k := x];
    var p := IdIs(idOf, idOf(x));
    var f := Find(r.items, p);
    assert p(r.items[k]);
    assert f.Some?;
    var i :| 0 <= i < |r.items| && r.items[i] == f.value && p(r.items[i]) &&
      forall j :: 0 <= j < i ==> !p(r.items[j]);
  }

  /** The local branch of `updateHabitFields`: merge the updates into the
      first habit with the id; report failure when there is none. */
  function LocalUpdateFields(hs: seq<Habit>, id: string, u: HabitPatch, stored: bool): (r: LocalWrite<Habit>)
    ensures |r.items| == |hs|
    ensures r.ok <==> stored && exists i :: 0 <= i < |hs| && hs[i].id == id
    ensures !r.ok ==> r.items == hs
    ensures r.ok ==>
      exists k :: 0 <= k < |hs| && hs[k].id == id &&
        (forall j :: 0 <= j < k ==> hs[j].id != id) &&
        r.items == hs[k := Merge(hs[k], u)]
  {
    var k := FindIndex(hs, IdIs(HabitId(), id));
    if k == -1 then LocalWrite(false, hs)
    else LocalWrite(stored, if stored then hs[k := Merge(hs[k], u)] else hs)
  }

  /** Updating fields is replacing the first habit with the id by its merge
      with the updates; an empty update leaves the list as it is. */
  lemma LocalUpdateFieldsIsReplace(hs: seq<Habit>, id: string, u: HabitPatch, stored: bool)
    ensures var k := FindIndex(hs, IdIs(HabitId(), id));
      k >= 0 ==> LocalUpdateFields(hs, id, u, stored) == LocalReplace(hs, HabitId(), Merge(hs[k], u), stored)
    ensures LocalUpdateFields(hs, id, EmptyPatch, true).items == hs
  {
    var k := FindIndex(hs, IdIs(HabitId(), id));
    if k >= 0 {
      var x := Merge(hs[k], u);
      MergeLaws(hs[k], u);
      assert HabitId()(x) == id;
    }
  }
}

=== FILE: streak.dfy ===
/** Level and streaks (`streakCalculator`). The local day on which an entry
    was recorded is the parameter `localDay`, mapping a timestamp to the
    `YYYY-MM-DD` string of its local calendar day. */
module Streak {
  import opened Seqs
  import opened Strings
  import opened Types
  import opened Dates

  /** The distinct `dateISO` values of the entries. */
  function DateSet(es: seq<Entry>): set<string> {
    set i | 0 <= i < |es| :: es[i].dateISO
  }

  /** The distinct days on which some entry was recorded on the day it is
      dated (not backdated). */
  function SameDayDateSet(es: seq<Entry>, localDay: Timestamp -> string): set<string> {
    set i | 0 <= i < |es| && localDay(es[i].timestamp) == es[i].dateISO :: es[i].dateISO
  }

  lemma DateSetSnoc(es: seq<Entry>, e: Entry)
    ensures DateSet(es + [e]) == DateSet(es) + {e.dateISO}
  {
    var t := es + [e];
    assert t[|es|] == e;
    forall d | d in DateSet(es)
      ensures d in DateSet(t)
    {
      var i :| 0 <= i < |es| && es[i].dateISO == d;
      assert t[i] == es[i];
    }
  }

  lemma SameDaySnoc(es: seq<Entry>, e: Entry, localDay: Timestamp -> string)
    ensures SameDayDateSet(es + [e], localDay) ==
      SameDayDateSet(es, localDay) + (if localDay(e.timestamp) == e.dateISO then {e.dateISO} else {})
  {
    var t := es + [e];
    assert t[|es|] == e;
    forall d | d in SameDayDateSet(es, localDay)
      ensures d in SameDayDateSet(t, localDay)
    {
      var i :| 0 <= i < |es| && localDay(es[i].timestamp) == es[i].dateISO && es[i].dateISO == d;
      assert t[i] == es[i];
    }
  }

  /** `calculateLevel(entries)`: the number of distinct days with a same-day
      entry. */
  method CalculateLevel(es: seq<Entry>, localDay: Timestamp -> string) returns (level: nat)
    ensures level == |SameDayDateSet(es, localDay)|
  {
    var sameDay: set<string> := {};
    for i := 0 to |es|
      invariant sameDay == SameDayDateSet(es[..i], localDay)
    {
      var e := es[i];
      assert es[..i + 1] == es[..i] + [e];
      SameDaySnoc(es[..i], e, localDay);
      if localDay(e.timestamp) == e.dateISO {
        sameDay := sameDay + {e.dateISO};
      }
    }
    assert es[..|es|] == es;
    level := |sameDay|;
  }

  /** Level <= distinct dates <= number of entries. */
  lemma LevelBounds(es: seq<Entry>, localDay: Timestamp -> string)
    ensures |SameDayDateSet(es, localDay)| <= |DateSet(es)| <= |es|
  {
    SubsetCard(SameDayDateSet(es, localDay), DateSet(es));
    DateSetCard(es);
  }

  lemma {:induction false} DateSetCard(es: seq<Entry>)
    ensures |DateSet(es)| <= |es|
  {
    if |es| > 0 {
      var init := es[..|es| - 1];
      assert es == init + [es[|es| - 1]];
      DateSetCard(init);
      DateSetSnoc(init, es[|es| - 1]);
    }
  }

  lemma {:induction false} SubsetCard<T>(a: set<T>, b: set<T>)
    requires a <= b
    ensures |a| <= |b|
    decreases |b|
  {
    if a != {} {
      var x :| x in a;
      SubsetCard(a - {x}, b - {x});
    }
  }

  /** Recording a backdated entry never raises the level. */
  lemma BackdatedEntryKeepsLevel(es: seq<Entry>, e: Entry, localDay: Timestamp -> string)
    requires localDay(e.timestamp) != e.dateISO
    ensures SameDayDateSet(es + [e], localDay) == SameDayDateSet(es, localDay)
  {
    SameDaySnoc(es, e, localDay);
  }

  // ---------------------------------------------------------------- active days

  predicate StrictlySorted(s: seq<string>) {
    forall i, j :: 0 <= i < j < |s| ==> Less(s[i], s[j])
  }

  lemma SortedCons(x: string, s: seq<string>)
    requires StrictlySorted(s)
    requires forall j :: 0 <= j < |s| ==> Less(x, s[j])
    ensures StrictlySorted([x] + s)
  {
    var r := [x] + s;
    forall i, j | 0 <= i < j < |r|
      ensures Less(r[i], r[j])
    {
      if i > 0 { assert r[i] == s[i - 1]; }
      assert r[j] == s[j - 1];
    }
  }

  /** Insert x into a strictly ascending list unless it is already there:
      sorting a set of strings incrementally. */
  function InsertSorted(s: seq<string>, x: string): (r: seq<string>)
    requires StrictlySorted(s)
    ensures StrictlySorted(r)
    ensures forall y :: y in r <==> y in s || y == x
    decreases |s|
  {
    if |s| == 0 then [x]
    else if x == s[0] then s
    else if Less(x, s[0]) then
      assert forall j :: 0 <= j < |s| ==> Less(x, s[j]) by {
        forall j | 0 < j < |s|
          ensures Less(x, s[j])
        {
          LessTransitive(x, s[0], s[j]);
        }
      }
      SortedCons(x, s);
      [x] + s
    else
      var rest := InsertSorted(s[1..], x);
      assert Less(s[0], x) by { LessTotal(x, s[0]); }
      assert forall j :: 0 <= j < |rest| ==> Less(s[0], rest[j]) by {
        forall j | 0 <= j < |rest|
          ensures Less(s[0], rest[j])
        {
          if rest[j] != x {
            assert rest[j] in rest;
            var k :| 0 <= k < |s[1..]| && s[1..][k] == rest[j];
            assert s[k + 1] == rest[j];
          }
        }
      }
      SortedCons(s[0], rest);
      [s[0]] + rest
  }

  /** A strictly ascending list is determined by its elements: whatever order
      the days were collected in, sorting gives the same list. */
  lemma {:induction false} SortedUnique(a: seq<string>, b: seq<string>)
    requires StrictlySorted(a) && StrictlySorted(b)
    requires forall y :: y in a <==> y in b
    ensures a == b
    decreases |a|
  {
    if |a| > 0 { assert a[0] in a; }
    if |b| > 0 { assert b[0] in b; }
    if |a| > 0 && |b| > 0 {
      assert a[0] == b[0] by {
        assert a[0] in a && b[0] in b;
        if a[0] != b[0] {
          var i :| 0 <= i < |b| && b[i] == a[0];
          var j :| 0 <= j < |a| && a[j] == b[0];
          assert Less(b[0], a[0]) && Less(a[0], b[0]) by {
            if i == 0 { assert false; }
            if j == 0 { assert false; }
          }
          LessAsymmetric(a[0], b[0]);
        }
      }
      forall y
        ensures y in a[1..] <==> y in b[1..]
      {
        assert a == [a[0]] + a[1..] && b == [b[0]] + b[1..];
        if y in a[1..] {
          var k :| 0 <= k < |a[1..]| && a[1..][k] == y;
          assert a[k + 1] == y;
          assert y != a[0] by { LessIrreflexive(a[0]); }
          assert y in a && y in b && y != b[0];
        }
        if y in b[1..] {
          var k :| 0 <= k < |b[1..]| && b[1..][k] == y;
          assert b[k + 1] == y;
          assert y != b[0] by { LessIrreflexive(b[0]); }
          assert y in b && y in a && y != a[0];
        }
      }
      SortedUnique(a[1..], b[1..]);
      assert a == [a[0]] + a[1..] && b == [b[0]] + b[1..];
    }
  }

  /** The sorted distinct days of the entries (`Array.from(uniqueDates).sort()`),
      together with the set of them. */
  method ActiveDays(es: seq<Entry>) returns (dates: set<string>, days: seq<string>)
    ensures dates == DateSet(es)
    ensures StrictlySorted(days)
    ensures forall d :: d in days <==> d in dates
  {
    dates := {};
    days := [];
    for i := 0 to |es|
      invariant dates == DateSet(es[..i])
      invariant StrictlySorted(days)
      invariant forall d :: d in days <==> d in dates
    {
      var e := es[i];
      assert es[..i + 1] == es[..i] + [e];
      DateSetSnoc(es[..i], e);
      dates := dates + {e.dateISO};
      days := InsertSorted(days, e.dateISO);
    }
    assert es[..|es|] == es;
  }

  // ---------------------------------------------------------------- current streak

  /** Day `today - j` is active. */
  predicate ActiveOn(dates: set<string>, today: Civil, j: int)
    requires Valid(today)
  {
    DaysAgoISO(today, j) in dates
  }

  /** The days-ago test as a value, so that equal calls give equal tests. */
  function ActiveDaysAgo(dates: set<string>, today: Civil): int -> bool
    requires Valid(today)
  {
    (j: int) => ActiveOn(dates, today, j)
  }

  /** `cur` is the streak of `active` days: 0 when neither day 0 nor day 1
      is active; otherwise the run of active days going back from day 0
      (from day 1 when day 0 is not active), looking no further back than
      day 364. */
  predicate IsStreakOf(active: int -> bool, cur: nat) {
    var start := if active(0) then 0 else 1;
    if !active(0) && !active(1) then cur == 0
    else
      1 <= cur && start + cur <= 365 &&
      (forall j :: start <= j < start + cur ==> active(j)) &&
      (start + cur == 365 || !active(start + cur))
  }

  /** `cur` is the current streak for the active dates, with day j being
      `getDaysAgo(j)`. */
  predicate IsCurrentStreak(dates: set<string>, today: Civil, cur: nat)
    requires Valid(today)
  {
    IsStreakOf(ActiveDaysAgo(dates, today), cur)
  }

  /** The current-streak loop of `calculateStreak`, over the test "day j
      ago is active". */
  method StreakOf(active: int -> bool) returns (cur: nat)
    ensures IsStreakOf(active, cur)
    ensures cur <= 365
  {
    var startDay := if active(0) then 0 else 1;
    cur := 0;
    if startDay == 0 || active(1) {
      cur := 1;
      var i := startDay + 1;
      while i < 365
        invariant startDay + 1 <= i <= 365
        invariant cur == i - startDay
        invariant forall j :: startDay <= j < i ==> active(j)
      {
        if active(i) {
          cur := cur + 1;
          i := i + 1;
        } else {
          break;
        }
      }
    }
  }

  /** The current streak: day 0 is today, whose test is `uniqueDates.has(today)`. */
  method CurrentStreak(dates: set<string>, today: Civil) returns (cur: nat)
    requires Valid(today)
    ensures IsCurrentStreak(dates, today, cur)
    ensures cur <= 365
    ensures cur > 0 <==> TodayISO(today) in dates || DaysAgoISO(today, 1) in dates
  {
    TodayIsZeroDaysAgo(dates, today);
    cur := StreakOf(ActiveDaysAgo(dates, today));
  }

  lemma TodayIsZeroDaysAgo(dates: set<string>, today: Civil)
    requires Valid(today)
    ensures ActiveDaysAgo(dates, today)(0) <==> TodayISO(today) in dates
    ensures ActiveDaysAgo(dates, today)(1) <==> DaysAgoISO(today, 1) in dates
  {
    assert DaysAgoISO(today, 0) == TodayISO(today);
  }

  // ---------------------------------------------------------------- longest streak

  /** Whole days from day a to day b, or `None` when either names no day
      (the difference of two `Invalid Date`s is NaN). */
  function DayDiff(a: string, b: string): (r: Option<int>)
    ensures r.Some? <==> ParseISO(a).Some? && ParseISO(b).Some?
  {
    match (ParseISO(a), ParseISO(b))
    case (Some(ca), Some(cb)) => Some(DayNumber(cb) - DayNumber(ca))
    case _ => None
  }

  /** s[k] is the day after s[k - 1]. */
  predicate Linked(s: seq<string>, k: int) {
    0 < k < |s| && DayDiff(s[k - 1], s[k]) == Some(1)
  }

  /** The link test of a list as a value, so that equal calls give equal
      tests. */
  function LinksOf(s: seq<string>): int -> bool {
    (k: int) => Linked(s, k)
  }

  /** Positions a..b of a list of n days form a run: each one after the
      first is linked to its predecessor. */
  predicate IsRunOf(linked: int -> bool, n: int, a: int, b: int) {
    0 <= a < b <= n && forall k :: a < k < b ==> linked(k)
  }

  /** s[a..b] is a run of consecutive calendar days. */
  predicate IsRun(s: seq<string>, a: int, b: int) {
    IsRunOf(LinksOf(s), |s|, a, b)
  }

  /** A run cannot reach back across a position that is not linked to its
      predecessor. */
  lemma RunStartsAfterBreak(linked: int -> bool, n: int, a: int, b: int, st: int)
    requires IsRunOf(linked, n, a, b) && 0 <= st < b
    requires st == 0 || !linked(st)
    ensures st <= a
  {
  }

  /** The `maxStreak` loop over n positions and a link test: the length of
      the longest run. */
  method MaxRun(n: nat, linked: int -> bool) returns (m: nat)
    requires n >= 1
    ensures 1 <= m <= n
    ensures exists a, b :: IsRunOf(linked, n, a, b) && b - a == m
    ensures forall a, b :: IsRunOf(linked, n, a, b) ==> b - a <= m
  {
    m := 1;
    var streak := 1;
    var i := 1;
    assert IsRunOf(linked, n, 0, 1);
    while i < n
      invariant 1 <= i <= n
      invariant 1 <= streak <= m <= i
      invariant IsRunOf(linked, n, i - streak, i)
      invariant i - streak == 0 || !linked(i - streak)
      invariant exists a, b :: IsRunOf(linked, n, a, b) && b <= i && b - a == m
      invariant forall a, b :: IsRunOf(linked, n, a, b) && b <= i ==> b - a <= m
    {
      if linked(i) {
        streak := streak + 1;
        assert IsRunOf(linked, n, i + 1 - streak, i + 1);
        if streak > m {
          m := streak;
        }
      } else {
        streak := 1;
        assert IsRunOf(linked, n, i, i + 1);
      }
      forall a, b | IsRunOf(linked, n, a, b) && b == i + 1
        ensures b - a <= streak
      {
        RunStartsAfterBreak(linked, n, a, b, i + 1 - streak);
      }
      i := i + 1;
    }
  }

  /** The longest run of consecutive days in the sorted day list, where
      position i is linked when the whole-day difference from position
      i - 1 is exactly 1. */
  method LongestRun(s: seq<string>) returns (m: nat)
    requires |s| >= 1
    ensures 1 <= m <= |s|
    ensures exists a, b :: IsRun(s, a, b) && b - a == m
    ensures forall a, b :: IsRun(s, a, b) ==> b - a <= m
  {
    m := MaxRun(|s|, LinksOf(s));
    var a, b :| IsRunOf(LinksOf(s), |s|, a, b) && b - a == m;
    assert IsRun(s, a, b);
  }

  datatype StreakInfo = StreakInfo(currentStreak: nat, longestStreak: nat, activeDays: seq<string>)

  /** `calculateStreak(entries)` on the given local day. */
  method CalculateStreak(es: seq<Entry>, today: Civil) returns (r: StreakInfo)
    requires Valid(today)
    ensures |es| == 0 ==> r == StreakInfo(0, 0, [])
    ensures StrictlySorted(r.activeDays)
    ensures forall d :: d in r.activeDays <==> d in DateSet(es)
    ensures |es| > 0 ==> IsCurrentStreak(DateSet(es), today, r.currentStreak)
    ensures r.longestStreak >= r.currentStreak
    ensures |es| > 0 ==> 1 <= r.longestStreak
    ensures forall a, b :: IsRun(r.activeDays, a, b) ==> b - a <= r.longestStreak
    ensures |es| > 0 ==>
      r.longestStreak == r.currentStreak || exists a, b :: IsRun(r.activeDays, a, b) && b - a == r.longestStreak
  {
    var dates, days := ActiveDays(es);
    assert |es| > 0 ==> es[0].dateISO in dates;
    if |dates| == 0 {
      return StreakInfo(0, 0, []);
    }
    var cur := CurrentStreak(dates, today);
    var longest := LongestRun(days);
    r := StreakInfo(cur, if cur >= longest then cur else longest, days);
  }
}

=== FILE: strings.dfy ===
/** JavaScript string behaviour the application relies on: the `<` ordering of
    strings, decimal formatting of numbers (`String(n)`), `padStart` and
    `trim`. */
module Strings {

  /** JavaScript's `a < b` on strings, as lexicographic order on code
      points, where a proper prefix sorts first. JavaScript compares UTF-16
      code units; the two orders agree except between characters in
      U+E000..U+FFFF and characters beyond U+FFFF, and so on every string
      of ASCII digits and dashes compared here. The same order is what
      `Array.prototype.sort` uses when no comparator is given. */
  predicate Less(a: string, b: string)
    decreases |a|
  {
    if |a| == 0 then |b| > 0
    else if |b| == 0 then false
    else if a[0] != b[0] then a[0] < b[0]
    else Less(a[1..], b[1..])
  }

  /** JavaScript's `a <= b` on strings. */
  predicate LessEq(a: string, b: string) {
    Less(a, b) || a == b
  }

  lemma LessIrreflexive(a: string)
    ensures !Less(a, a)
  {
    if |a| > 0 { LessIrreflexive(a[1..]); }
  }

  lemma {:induction false} LessAsymmetric(a: string, b: string)
    ensures !(Less(a, b) && Less(b, a))
    decreases |a|
  {
    if |a| > 0 && |b| > 0 && a[0] == b[0] {
      LessAsymmetric(a[1..], b[1..]);
    }
  }

  lemma {:induction false} LessTransitive(a: string, b: string, c: string)
    requires Less(a, b) && Less(b, c)
    ensures Less(a, c)
    decreases |a|
  {
    if |a| > 0 && a[0] == b[0] && b[0] == c[0] {
      LessTransitive(a[1..], b[1..], c[1..]);
    }
  }

  lemma {:induction false} LessTotal(a: string, b: string)
    requires a != b
    ensures Less(a, b) || Less(b, a)
    decreases |a|
  {
    if |a| > 0 && |b| > 0 && a[0] == b[0] {
      assert a == [a[0]] + a[1..] && b == [b[0]] + b[1..];
      LessTotal(a[1..], b[1..]);
    }
  }

  /** Comparing two strings that start with prefixes of the same length:
      the prefixes decide unless they are equal. */
  lemma {:induction false} LessAppend(p: string, q: string, s: string, t: string)
    requires |p| == |q|
    ensures Less(p + s, q + t) <==> Less(p, q) || (p == q && Less(s, t))
    decreases |p|
  {
    if |p| == 0 {
      assert p + s == s && q + t == t;
    } else {
      assert (p + s)[0] == p[0] && (q + t)[0] == q[0];
      assert (p + s)[1..] == p[1..] + s && (q + t)[1..] == q[1..] + t;
      LessAppend(p[1..], q[1..], s, t);
      if p[0] == q[0] {
        assert p == [p[0]] + p[1..] && q == [q[0]] + q[1..];
      }
    }
  }

  // ---------------------------------------------------------------- digits

  predicate IsDigit(c: char) {
    '0' <= c <= '9'
  }

  predicate AllDigits(s: string) {
    forall i :: 0 <= i < |s| ==> IsDigit(s[i])
  }

  function Digit(n: int): (c: char)
    requires 0 <= n < 10
    ensures IsDigit(c)
  {
    (48 + n) as char
  }

  function DigitValue(c: char): (n: int)
    requires IsDigit(c)
    ensures 0 <= n < 10 && Digit(n) == c
  {
    c as int - 48
  }

  function Pow10(k: nat): (p: nat)
    ensures p >= 1
  {
    if k == 0 then 1 else 10 * Pow10(k - 1)
  }

  /** `String(n)` for a non-negative integer: its decimal digits, no padding. */
  function NatToString(n: nat): (s: string)
    ensures |s| >= 1 && AllDigits(s)
    decreases n
  {
    if n < 10 then [Digit(n)] else NatToString(n / 10) + [Digit(n % 10)]
  }

  /** `String(i)` / `${i}` for any integer. */
  function IntToString(i: int): string {
    if i < 0 then "-" + NatToString(-i) else NatToString(i)
  }

  /** The last k decimal digits of n, zero padded to exactly k characters. */
  function Fixed(n: nat, k: nat): (s: string)
    ensures |s| == k && AllDigits(s)
  {
    if k == 0 then [] else Fixed(n / 10, k - 1) + [Digit(n % 10)]
  }

  /** The value of a string of decimal digits (`"" ` reads as 0). */
  function ParseDigits(s: string): nat
    requires AllDigits(s)
  {
    if |s| == 0 then 0 else 10 * ParseDigits(s[..|s| - 1]) + DigitValue(s[|s| - 1])
  }

  /** A number with exactly k digits prints as its k-digit form. */
  lemma {:induction false} NatToStringFixed(n: nat, k: nat)
    requires 1 <= k && Pow10(k - 1) <= n < Pow10(k)
    ensures NatToString(n) == Fixed(n, k)
    decreases k
  {
    if k > 1 {
      assert Pow10(k - 1) == 10 * Pow10(k - 2);
      NatToStringFixed(n / 10, k - 1);
    }
  }

  /** A four-digit year prints as its four digits. */
  lemma FourDigits(n: int)
    requires 1000 <= n <= 9999
    ensures IntToString(n) == Fixed(n, 4)
  {
    assert Pow10(3) == 1000 && Pow10(4) == 10000;
    NatToStringFixed(n, 4);
  }

  /** Reading back the k-digit form of n gives n. */
  lemma {:induction false} ParseFixed(n: nat, k: nat)
    requires n < Pow10(k)
    ensures ParseDigits(Fixed(n, k)) == n
    decreases k
  {
    if k > 0 {
      var s := Fixed(n, k);
      assert s[..k - 1] == Fixed(n / 10, k - 1);
      ParseFixed(n / 10, k - 1);
    }
  }

  /** Appending digit d to the decimal digits of m. */
  lemma LastDigit(m: nat, d: int)
    requires 0 <= d < 10
    ensures (10 * m + d) / 10 == m && (10 * m + d) % 10 == d
  {
  }

  /** Every digit string is the k-digit form of its value. */
  lemma {:induction false} FixedParse(s: string)
    requires AllDigits(s)
    ensures ParseDigits(s) < Pow10(|s|)
    ensures Fixed(ParseDigits(s), |s|) == s
    decreases |s|
  {
    if |s| > 0 {
      var init := s[..|s| - 1];
      FixedParse(init);
      var m, d := ParseDigits(init), DigitValue(s[|s| - 1]);
      LastDigit(m, d);
      assert s == init + [s[|s| - 1]];
    }
  }

  lemma FixedInjective(m: nat, n: nat, k: nat)
    requires m < Pow10(k) && n < Pow10(k)
    ensures Fixed(m, k) == Fixed(n, k) <==> m == n
  {
    if Fixed(m, k) == Fixed(n, k) {
      ParseFixed(m, k);
      ParseFixed(n, k);
    }
  }

  /** For k-digit forms, string order is numeric order. */
  lemma {:induction false} FixedLess(m: nat, n: nat, k: nat)
    requires m < Pow10(k) && n < Pow10(k)
    ensures Less(Fixed(m, k), Fixed(n, k)) <==> m < n
    decreases k
  {
    if k == 0 {
      assert m == 0 && n == 0;
    } else {
      assert Pow10(k) == 10 * Pow10(k - 1);
      var p, q := Fixed(m / 10, k - 1), Fixed(n / 10, k - 1);
      FixedLess(m / 10, n / 10, k - 1);
      FixedInjective(m / 10, n / 10, k - 1);
      LessAppend(p, q, [Digit(m % 10)], [Digit(n % 10)]);
    }
  }

  // ---------------------------------------------------------------- padStart

  function Repeat(c: char, n: nat): (s: string)
    ensures |s| == n && forall i :: 0 <= i < n ==> s[i] == c
  {
    if n == 0 then [] else [c] + Repeat(c, n - 1)
  }

  /** `s.padStart(n, c)` for a one-character filler. */
  function PadStart(s: string, n: nat, c: char): (r: string)
    ensures |r| == if |s| >= n then |s| else n
  {
    if |s| >= n then s else Repeat(c, n - |s|) + s
  }

  /** `String(n).padStart(2, '0')` is the two-digit form of any n below 100. */
  lemma PadTwoDigits(n: nat)
    requires n < 100
    ensures PadStart(NatToString(n), 2, '0') == Fixed(n, 2)
  {
    if n < 10 {
      assert Fixed(n, 2) == Fixed(0, 1) + [Digit(n)];
      assert Fixed(0, 1) == [Digit(0)];
    } else {
      NatToStringFixed(n, 2);
    }
  }

  // ---------------------------------------------------------------- trim

  /** The characters `String.prototype.trim` removes: ECMAScript WhiteSpace
      (tab, vertical tab, form feed, space, no-break space, byte order mark and
      the other space separators) and LineTerminator. */
  predicate IsWhitespace(c: char) {
    || c == '\t' || c == '\n' || c == '\U{000B}' || c == '\U{000C}' || c == '\r' || c == ' '
    || c == '\U{00A0}' || c == '\U{1680}' || ('\U{2000}' <= c <= '\U{200A}')
    || c == '\U{2028}' || c == '\U{2029}' || c == '\U{202F}' || c == '\U{205F}'
    || c == '\U{3000}' || c == '\U{FEFF}'
  }

  predicate AllWhitespace(s: string) {
    forall i :: 0 <= i < |s| ==> IsWhitespace(s[i])
  }

  function TrimStart(s: string): (r: string)
    ensures |r| <= |s| && r == s[|s| - |r|..]
    ensures AllWhitespace(s[..|s| - |r|])
    ensures |r| == 0 || !IsWhitespace(r[0])
  {
    if |s| > 0 && IsWhitespace(s[0]) then TrimStart(s[1..]) else s
  }

  function TrimEnd(s: string): (r: string)
    ensures |r| <= |s| && r == s[..|r|]
    ensures AllWhitespace(s[|r|..])
    ensures |r| == 0 || !IsWhitespace(r[|r| - 1])
  {
    if |s| > 0 && IsWhitespace(s[|s| - 1]) then TrimEnd(s[..|s| - 1]) else s
  }

  /** `s.trim()`: no longer than s, neither starting nor ending with
      whitespace, and empty when s is all whitespace. */
  function Trim(s: string): (r: string)
    ensures |r| <= |s|
    ensures |r| == 0 || (!IsWhitespace(r[0]) && !IsWhitespace(r[|r| - 1]))
    ensures AllWhitespace(s) ==> r == ""
  {
    var t := TrimStart(s);
    assert |TrimEnd(t)| > 0 ==> TrimEnd(t)[0] == t[0];
    if AllWhitespace(s) then
      assert AllWhitespace(t);
      TrimEndAllWhitespace(t);
      TrimEnd(t)
    else
      TrimEnd(t)
  }

  /** `trim` removes exactly a whitespace prefix and a whitespace suffix, and
      what remains neither starts nor ends with whitespace. */
  lemma TrimSpec(s: string)
    ensures exists i, j :: 0 <= i <= j <= |s| && Trim(s) == s[i..j] &&
                           AllWhitespace(s[..i]) && AllWhitespace(s[j..])
    ensures |Trim(s)| == 0 || (!IsWhitespace(Trim(s)[0]) && !IsWhitespace(Trim(s)[|Trim(s)| - 1]))
  {
    var i, j := TrimWindow(s);
  }

  /** The bounds of what `trim` keeps. */
  lemma TrimWindow(s: string) returns (i: nat, j: nat)
    ensures i <= j <= |s| && Trim(s) == s[i..j]
    ensures AllWhitespace(s[..i]) && AllWhitespace(s[j..])
  {
    var t := TrimStart(s);
    i := |s| - |t|;
    var r := TrimEnd(t);
    j := i + |r|;
    assert t == s[i..];
    assert r == s[i..j];
    assert s[j..] == t[|r|..];
  }

  /** A trimmed string is empty exactly when the original is all whitespace. */
  lemma TrimEmptyIff(s: string)
    ensures Trim(s) == "" <==> AllWhitespace(s)
  {
    var t := TrimStart(s);
    if Trim(s) == "" {
      assert AllWhitespace(t);
      assert s == s[..|s| - |t|] + t;
    }
  }

  lemma TrimEndAllWhitespace(t: string)
    requires AllWhitespace(t)
    ensures TrimEnd(t) == ""
  {
    if |t| > 0 { TrimEndAllWhitespace(t[..|t| - 1]); }
  }

  lemma TrimIdempotent(s: string)
    ensures Trim(Trim(s)) == Trim(s)
  {
    var r := Trim(s);
    TrimSpec(s);
    if |r| > 0 {
      assert TrimStart(r) == r;
      assert TrimEnd(r) == r;
    }
  }
}

=== FILE: summary.dfy ===
/** Aggregates over days: entries grouped by their day (`entriesByDate`),
    the averages of the summary page and the rows of the history list. */
module Summary {
  import opened Seqs
  import opened Strings
  import opened Types
  import opened Radar
  import opened Streak

  /** One key/value pair of `entriesByDate`. */
  datatype DayGroup = DayGroup(dateISO: string, entries: seq<Entry>)

  /** The test `entriesByDate.has(day)` looks for. */
  function HasDay(d: string): DayGroup -> bool {
    (g: DayGroup) => g.dateISO == d
  }

  /** Add one entry: push it onto its day's group, or open a new group at
      the end (a `Map` keeps insertion order). */
  function AddToGroups(gs: seq<DayGroup>, e: Entry): (r: seq<DayGroup>)
    ensures |r| == |gs| || |r| == |gs| + 1
    ensures |r| > 0
  {
    var k := FindIndex(gs, HasDay(e.dateISO));
    if k == -1 then gs + [DayGroup(e.dateISO, [e])]
    else gs[k := gs[k].(entries := gs[k].entries + [e])]
  }

  /** `entries.forEach(entry => entriesByDate.set(...))`: at most one group
      per entry, and no groups exactly when there are no entries. */
  function GroupByDate(es: seq<Entry>): (gs: seq<DayGroup>)
    ensures |gs| <= |es|
    ensures |gs| == 0 <==> |es| == 0
    decreases |es|
  {
    if |es| == 0 then [] else AddToGroups(GroupByDate(es[..|es| - 1]), es[|es| - 1])
  }

  /** No two groups share a day. */
  predicate DistinctDays(gs: seq<DayGroup>) {
    forall i, j :: 0 <= i < j < |gs| ==> gs[i].dateISO != gs[j].dateISO
  }

  /** Each group holds exactly the entries of its day, in their original
      order, and is not empty. */
  predicate ExactGroups(gs: seq<DayGroup>, es: seq<Entry>) {
    forall i :: 0 <= i < |gs| ==> gs[i].entries == Filter(es, OnDay(gs[i].dateISO)) && |gs[i].entries| > 0
  }

  /** Some group is for day d. */
  predicate HasGroup(gs: seq<DayGroup>, d: string) {
    exists k :: 0 <= k < |gs| && gs[k].dateISO == d
  }

  /** Every entry's day has a group. */
  predicate CoversDays(gs: seq<DayGroup>, es: seq<Entry>) {
    forall i :: 0 <= i < |es| ==> HasGroup(gs, es[i].dateISO)
  }

  /** The grouping is exact. */
  predicate GroupsOf(gs: seq<DayGroup>, es: seq<Entry>) {
    DistinctDays(gs) && ExactGroups(gs, es) && CoversDays(gs, es)
  }

  lemma FilterSingleton(e: Entry, d: string)
    ensures Filter([e], OnDay(d)) == if e.dateISO == d then [e] else []
  {
    assert [e][1..] == [];
  }

  lemma {:induction false} GroupByDateIsExact(es: seq<Entry>)
    ensures GroupsOf(GroupByDate(es), es)
    decreases |es|
  {
    if |es| > 0 {
      var init, e := es[..|es| - 1], es[|es| - 1];
      assert es == init + [e];
      GroupByDateIsExact(init);
      AddToGroupsIsExact(GroupByDate(init), init, e);
    }
  }

  lemma FilterSnocOnDay(init: seq<Entry>, e: Entry, d: string)
    ensures Filter(init + [e], OnDay(d)) == Filter(init, OnDay(d)) + (if e.dateISO == d then [e] else [])
  {
    FilterAppend(init, [e], OnDay(d));
    FilterSingleton(e, d);
  }

  /** Adding an entry to an exact grouping of `init` gives an exact grouping
      of `init + [e]`. */
  lemma AddToGroupsIsExact(gs: seq<DayGroup>, init: seq<Entry>, e: Entry)
    requires GroupsOf(gs, init)
    ensures GroupsOf(AddToGroups(gs, e), init + [e])
  {
    var k := FindIndex(gs, HasDay(e.dateISO));
    if k == -1 {
      NewGroupIsExact(gs, init, e);
    } else {
      PushKeepsDays(gs, e, k);
      PushIsExact(gs, init, e, k);
      PushCoversDays(gs, init, e, k);
    }
  }

  lemma PushKeepsDays(gs: seq<DayGroup>, e: Entry, k: int)
    requires DistinctDays(gs) && 0 <= k < |gs|
    ensures DistinctDays(gs[k := gs[k].(entries := gs[k].entries + [e])])
  {
    var r := gs[k := gs[k].(entries := gs[k].entries + [e])];
    assert forall i :: 0 <= i < |r| ==> r[i].dateISO == gs[i].dateISO;
  }

  lemma PushIsExact(gs: seq<DayGroup>, init: seq<Entry>, e: Entry, k: int)
    requires ExactGroups(gs, init) && 0 <= k < |gs| && gs[k].dateISO == e.dateISO
    requires forall i :: 0 <= i < |gs| && i != k ==> gs[i].dateISO != e.dateISO
    ensures ExactGroups(gs[k := gs[k].(entries := gs[k].entries + [e])], init + [e])
  {
    var r := gs[k := gs[k].(entries := gs[k].entries + [e])];
    forall i | 0 <= i < |r|
      ensures r[i].entries == Filter(init + [e], OnDay(r[i].dateISO)) && |r[i].entries| > 0
    {
      FilterSnocOnDay(init, e, r[i].dateISO);
    }
  }

  lemma PushCoversDays(gs: seq<DayGroup>, init: seq<Entry>, e: Entry, k: int)
    requires CoversDays(gs, init) && 0 <= k < |gs| && gs[k].dateISO == e.dateISO
    ensures CoversDays(gs[k := gs[k].(entries := gs[k].entries + [e])], init + [e])
  {
    var es := init + [e];
    var r := gs[k := gs[k].(entries := gs[k].entries + [e])];
    forall i | 0 <= i < |es|
      ensures HasGroup(r, es[i].dateISO)
    {
      if i < |init| {
        assert es[i] == init[i];
        var m :| 0 <= m < |gs| && gs[m].dateISO == init[i].dateISO;
        assert r[m].dateISO == gs[m].dateISO;
      } else {
        assert r[k].dateISO == e.dateISO;
      }
    }
  }

  lemma NewGroupIsExact(gs: seq<DayGroup>, init: seq<Entry>, e: Entry)
    requires GroupsOf(gs, init)
    requires forall i :: 0 <= i < |gs| ==> gs[i].dateISO != e.dateISO
    ensures GroupsOf(gs + [DayGroup(e.dateISO, [e])], init + [e])
  {
    NewGroupKeepsDays(gs, e);
    NewGroupIsExactGroups(gs, init, e);
    NewGroupCoversDays(gs, init, e);
  }

  lemma NewGroupKeepsDays(gs: seq<DayGroup>, e: Entry)
    requires DistinctDays(gs)
    requires forall i :: 0 <= i < |gs| ==> gs[i].dateISO != e.dateISO
    ensures DistinctDays(gs + [DayGroup(e.dateISO, [e])])
  {
  }

  lemma NewGroupIsExactGroups(gs: seq<DayGroup>, init: seq<Entry>, e: Entry)
    requires ExactGroups(gs, init) && CoversDays(gs, init)
    requires forall i :: 0 <= i < |gs| ==> gs[i].dateISO != e.dateISO
    ensures ExactGroups(gs + [DayGroup(e.dateISO, [e])], init + [e])
  {
    var r := gs + [DayGroup(e.dateISO, [e])];
    forall j | 0 <= j < |init|
      ensures !OnDay(e.dateISO)(init[j])
    {
      assert HasGroup(gs, init[j].dateISO);
      var m :| 0 <= m < |gs| && gs[m].dateISO == init[j].dateISO;
    }
    FilterNone(init, OnDay(e.dateISO));
    forall i | 0 <= i < |r|
      ensures r[i].entries == Filter(init + [e], OnDay(r[i].dateISO)) && |r[i].entries| > 0
    {
      FilterSnocOnDay(init, e, r[i].dateISO);
    }
  }

  lemma NewGroupCoversDays(gs: seq<DayGroup>, init: seq<Entry>, e: Entry)
    requires CoversDays(gs, init)
    ensures CoversDays(gs + [DayGroup(e.dateISO, [e])], init + [e])
  {
    var es := init + [e];
    var r := gs + [DayGroup(e.dateISO, [e])];
    forall i | 0 <= i < |es|
      ensures HasGroup(r, es[i].dateISO)
    {
      if i < |init| {
        assert es[i] == init[i];
        var m :| 0 <= m < |gs| && gs[m].dateISO == init[i].dateISO;
        assert r[m] == gs[m];
      } else {
        assert r[|gs|].dateISO == e.dateISO;
      }
    }
  }

  /** Total number of entries over the groups. */
  function GroupedCount(gs: seq<DayGroup>): nat {
    if |gs| == 0 then 0 else |gs[0].entries| + GroupedCount(gs[1..])
  }

  lemma {:induction false} GroupedCountAppend(a: seq<DayGroup>, b: seq<DayGroup>)
    ensures GroupedCount(a + b) == GroupedCount(a) + GroupedCount(b)
    decreases |a|
  {
    if |a| == 0 {
      assert a + b == b;
    } else {
      assert (a + b)[1..] == a[1..] + b;
      GroupedCountAppend(a[1..], b);
    }
  }

  lemma {:induction false} GroupedCountUpdate(gs: seq<DayGroup>, k: int, g: DayGroup)
    requires 0 <= k < |gs|
    ensures GroupedCount(gs[k := g]) == GroupedCount(gs) - |gs[k].entries| + |g.entries|
    decreases |gs|
  {
    if k > 0 {
      assert gs[k := g][1..] == gs[1..][k - 1 := g];
      GroupedCountUpdate(gs[1..], k - 1, g);
    } else {
      assert gs[k := g][1..] == gs[1..];
    }
  }

  /** Every entry falls into exactly one group: the group sizes add up to the
      number of entries. */
  lemma {:induction false} GroupedCountIsTotal(es: seq<Entry>)
    ensures GroupedCount(GroupByDate(es)) == |es|
    decreases |es|
  {
    if |es| > 0 {
      var init, e := es[..|es| - 1], es[|es| - 1];
      GroupedCountIsTotal(init);
      var gs := GroupByDate(init);
      var k := FindIndex(gs, HasDay(e.dateISO));
      if k == -1 {
        GroupedCountAppend(gs, [DayGroup(e.dateISO, [e])]);
        assert GroupedCount([DayGroup(e.dateISO, [e])]) == 1;
      } else {
        GroupedCountUpdate(gs, k, gs[k].(entries := gs[k].entries + [e]));
      }
    }
  }

  function GroupDays(gs: seq<DayGroup>): set<string> {
    set i | 0 <= i < |gs| :: gs[i].dateISO
  }

  /** There is one group per distinct entry day. */
  lemma GroupDaysAreDateSet(es: seq<Entry>)
    ensures GroupDays(GroupByDate(es)) == DateSet(es)
    ensures |GroupByDate(es)| == |DateSet(es)|
  {
    var gs := GroupByDate(es);
    GroupByDateIsExact(es);
    GroupDaysWithin(gs, es);
    DateSetWithin(gs, es);
    DistinctDaysCard(gs);
  }

  lemma GroupDaysWithin(gs: seq<DayGroup>, es: seq<Entry>)
    requires GroupsOf(gs, es)
    ensures GroupDays(gs) <= DateSet(es)
  {
    forall d | d in GroupDays(gs)
      ensures d in DateSet(es)
    {
      var k :| 0 <= k < |gs| && gs[k].dateISO == d;
      var x := gs[k].entries[0];
      assert x in es;
      var i :| 0 <= i < |es| && es[i] == x;
    }
  }

  lemma DateSetWithin(gs: seq<DayGroup>, es: seq<Entry>)
    requires GroupsOf(gs, es)
    ensures DateSet(es) <= GroupDays(gs)
  {
    forall d | d in DateSet(es)
      ensures d in GroupDays(gs)
    {
      var i :| 0 <= i < |es| && es[i].dateISO == d;
      var k :| 0 <= k < |gs| && gs[k].dateISO == d;
    }
  }

  lemma {:induction false} DistinctDaysCard(gs: seq<DayGroup>)
    requires DistinctDays(gs)
    ensures |GroupDays(gs)| == |gs|
    decreases |gs|
  {
    if |gs| > 0 {
      var rest := gs[1..];
      DistinctDaysCard(rest);
      var s := GroupDays(rest);
      forall d | d in GroupDays(gs)
        ensures d in s + {gs[0].dateISO}
      {
        var k :| 0 <= k < |gs| && gs[k].dateISO == d;
        if k > 0 { assert rest[k - 1] == gs[k]; }
      }
      forall d | d in s
        ensures d in GroupDays(gs) && d != gs[0].dateISO
      {
        var k :| 0 <= k < |rest| && rest[k].dateISO == d;
        assert gs[k + 1] == rest[k];
      }
      assert GroupDays(gs) == s + {gs[0].dateISO};
    }
  }

  // ---------------------------------------------------------------- summary page

  /** Sum over the groups of one category's percentage. */
  function SumPercentages(gs: seq<DayGroup>, hs: seq<Habit>, sqrt: real -> real, c: Category): (r: real)
    requires IsSqrt(sqrt)
    ensures 0.0 <= r <= 100.0 * |gs| as real
  {
    if |gs| == 0 then 0.0
    else ComputeRadarData(gs[0].entries, hs, sqrt).percentages.Get(c) + SumPercentages(gs[1..], hs, sqrt, c)
  }

  /** Sum over the groups of the score. */
  function SumScores(gs: seq<DayGroup>, hs: seq<Habit>, sqrt: real -> real): (r: real)
    requires IsSqrt(sqrt)
    ensures 0.0 <= r <= 100.0 * |gs| as real
  {
    if |gs| == 0 then 0.0
    else ComputeRadarData(gs[0].entries, hs, sqrt).balanceScore + SumScores(gs[1..], hs, sqrt)
  }

  /** A mean of values in [0, 100] is in [0, 100]. */
  lemma MeanBounds(total: real, n: nat)
    requires n > 0 && 0.0 <= total <= 100.0 * n as real
    ensures 0.0 <= total / n as real <= 100.0
    ensures (total / n as real) * n as real == total
  {
    var m := total / n as real;
    assert m * n as real == total;
    if m > 100.0 {
      assert m * n as real > 100.0 * n as real;
    }
  }

  /** `total / n` for a total of n values in [0, 100]. */
  function Mean(total: real, n: nat): (m: real)
    requires n > 0 && 0.0 <= total <= 100.0 * n as real
    ensures 0.0 <= m <= 100.0
    ensures m * n as real == total
  {
    MeanBounds(total, n);
    total / n as real
  }

  /** `totalEntries / totalDays`. */
  function Ratio(x: real, n: nat): real
    requires n > 0
  {
    x / n as real
  }

  lemma RatioTimes(x: real, n: nat)
    requires n > 0
    ensures Ratio(x, n) * n as real == x
  {
  }

  /** Per-category means over the day groups. */
  function AveragePercentages(gs: seq<DayGroup>, hs: seq<Habit>, sqrt: real -> real): (p: PerCategory<real>)
    requires IsSqrt(sqrt) && |gs| > 0
    ensures forall c :: 0.0 <= p.Get(c) <= 100.0
    ensures forall c :: p.Get(c) == SumPercentages(gs, hs, sqrt, c) / |gs| as real
  {
    Tabulate((c: Category) => Mean(SumPercentages(gs, hs, sqrt, c), |gs|))
  }

  datatype SummaryStats = SummaryStats(averageRadarData: RadarData, totalDays: nat, avgTasksPerDay: real)

  /** The `useMemo` of the summary page. */
  function ComputeSummary(es: seq<Entry>, hs: seq<Habit>, sqrt: real -> real): (r: SummaryStats)
    requires IsSqrt(sqrt)
    ensures r.totalDays == |DateSet(es)|
    ensures |es| == 0 ==> r == SummaryStats(ZeroRadar, 0, 0.0)
    ensures r.totalDays == 0 <==> |es| == 0
    ensures r.totalDays == 0 ==> r.avgTasksPerDay == 0.0
    ensures r.totalDays > 0 ==> r.avgTasksPerDay == Ratio(|es| as real, r.totalDays)
    ensures forall c :: 0.0 <= r.averageRadarData.percentages.Get(c) <= 100.0
    ensures 0.0 <= r.averageRadarData.balanceScore <= 100.0
    ensures r.totalDays > 0 ==>
      r.averageRadarData.balanceScore == SumScores(GroupByDate(es), hs, sqrt) / r.totalDays as real &&
      forall c :: r.averageRadarData.percentages.Get(c) == SumPercentages(GroupByDate(es), hs, sqrt, c) / r.totalDays as real
  {
    var gs := GroupByDate(es);
    GroupDaysAreDateSet(es);
    GroupedCountIsTotal(es);
    if |gs| == 0 then
      assert |es| == 0;
      SummaryStats(ZeroRadar, 0, 0.0)
    else
      SummaryStats(RadarData(AveragePercentages(gs, hs, sqrt), Mean(SumScores(gs, hs, sqrt), |gs|)),
                   |gs|, Ratio(|es| as real, |gs|))
  }

  /** An average that is zero on no days and the ratio otherwise, multiplied
      back by the number of days, gives the total. */
  lemma AverageTimesDays(avg: real, days: nat, total: nat)
    requires days == 0 <==> total == 0
    requires days == 0 ==> avg == 0.0
    requires days > 0 ==> avg == Ratio(total as real, days)
    ensures avg * days as real == total as real
  {
    if days > 0 { RatioTimes(total as real, days); }
  }

  // ---------------------------------------------------------------- history list

  /** `Math.round` on a non-negative value: the nearest integer, halves up. */
  function Round(x: real): int {
    (x + 0.5).Floor
  }

  datatype DaySummary = DaySummary(dateISO: string, completedTasks: nat, totalTasks: nat, prosperityLevel: int)

  /** The prosperity level of a day's entries: its radar score, rounded. */
  function LevelOf(day: seq<Entry>, hs: seq<Habit>, sqrt: real -> real): (l: int)
    requires IsSqrt(sqrt)
    ensures 0 <= l <= 100
  {
    var b := ComputeRadarData(day, hs, sqrt).balanceScore;
    RoundBounds(b);
    Round(b)
  }

  lemma RoundBounds(x: real)
    requires 0.0 <= x <= 100.0
    ensures 0 <= Round(x) <= 100
  {
  }

  /** `LevelOf` as the function the rows are built with. */
  function DayLevel(hs: seq<Habit>, sqrt: real -> real): seq<Entry> -> int
    requires IsSqrt(sqrt)
  {
    (day: seq<Entry>) => LevelOf(day, hs, sqrt)
  }

  /** The summary row of one day group, given the number of pinned habits
      and how a day's entries are scored. */
  function RowOf(g: DayGroup, pinned: nat, level: seq<Entry> -> int): DaySummary {
    DaySummary(g.dateISO, |g.entries|, pinned, level(g.entries))
  }

  function Rows(gs: seq<DayGroup>, pinned: nat, level: seq<Entry> -> int): (rs: seq<DaySummary>)
    ensures |rs| == |gs| && forall i :: 0 <= i < |gs| ==> rs[i] == RowOf(gs[i], pinned, level)
  {
    if |gs| == 0 then [] else [RowOf(gs[0], pinned, level)] + Rows(gs[1..], pinned, level)
  }

  predicate StrictlyDescending(rs: seq<DaySummary>) {
    forall i, j :: 0 <= i < j < |rs| ==> Less(rs[j].dateISO, rs[i].dateISO)
  }

  lemma DescendingCons(r: DaySummary, rs: seq<DaySummary>)
    requires StrictlyDescending(rs)
    requires forall j :: 0 <= j < |rs| ==> Less(rs[j].dateISO, r.dateISO)
    ensures StrictlyDescending([r] + rs)
  {
    var out := [r] + rs;
    forall i, j | 0 <= i < j < |out|
      ensures Less(out[j].dateISO, out[i].dateISO)
    {
      if i > 0 { assert out[i] == rs[i - 1]; }
      assert out[j] == rs[j - 1];
    }
  }

  /** Insert a row into a list sorted by day, most recent first. */
  function InsertDescending(r: DaySummary, rs: seq<DaySummary>): (out: seq<DaySummary>)
    requires StrictlyDescending(rs)
    requires forall i :: 0 <= i < |rs| ==> rs[i].dateISO != r.dateISO
    ensures StrictlyDescending(out)
    ensures |out| == |rs| + 1
    ensures forall x :: x in out <==> x == r || x in rs
    ensures CompletedTotal(out) == r.completedTasks + CompletedTotal(rs)
    decreases |rs|
  {
    if |rs| == 0 then [r]
    else if Less(rs[0].dateISO, r.dateISO) then
      InsertAtHead(r, rs);
      assert ([r] + rs)[1..] == rs;
      [r] + rs
    else
      var rest := InsertDescending(r, rs[1..]);
      InsertBelowHead(r, rs, rest);
      assert rs == [rs[0]] + rs[1..];
      assert ([rs[0]] + rest)[1..] == rest;
      [rs[0]] + rest
  }

  /** A row later than the head of a descending list goes in front. */
  lemma InsertAtHead(r: DaySummary, rs: seq<DaySummary>)
    requires StrictlyDescending(rs) && |rs| > 0 && Less(rs[0].dateISO, r.dateISO)
    ensures StrictlyDescending([r] + rs)
  {
    forall j | 0 < j < |rs|
      ensures Less(rs[j].dateISO, r.dateISO)
    {
      LessTransitive(rs[j].dateISO, rs[0].dateISO, r.dateISO);
    }
    DescendingCons(r, rs);
  }

  /** A row not later than the head is inserted into the tail, and the head
      stays in front. */
  lemma InsertBelowHead(r: DaySummary, rs: seq<DaySummary>, rest: seq<DaySummary>)
    requires StrictlyDescending(rs) && |rs| > 0 && !Less(rs[0].dateISO, r.dateISO) && rs[0].dateISO != r.dateISO
    requires StrictlyDescending(rest)
    requires forall x :: x in rest <==> x == r || x in rs[1..]
    ensures StrictlyDescending([rs[0]] + rest)
  {
    assert Less(r.dateISO, rs[0].dateISO) by { LessTotal(r.dateISO, rs[0].dateISO); }
    forall j | 0 <= j < |rest|
      ensures Less(rest[j].dateISO, rs[0].dateISO)
    {
      assert rest[j] in rest;
      if rest[j] != r {
        var k :| 0 <= k < |rs[1..]| && rs[1..][k] == rest[j];
        assert rs[k + 1] == rest[j];
      }
    }
    DescendingCons(rs[0], rest);
  }

  /** `daySummaries.sort((a, b) => b.dateISO.localeCompare(a.dateISO))`. */
  function SortDescending(rs: seq<DaySummary>): (out: seq<DaySummary>)
    requires forall i, j :: 0 <= i < j < |rs| ==> rs[i].dateISO != rs[j].dateISO
    ensures StrictlyDescending(out)
    ensures |out| == |rs|
    ensures forall x :: x in out <==> x in rs
    ensures CompletedTotal(out) == CompletedTotal(rs)
  {
    if |rs| == 0 then []
    else
      var rest := SortDescending(rs[1..]);
      assert forall i :: 0 <= i < |rest| ==> rest[i].dateISO != rs[0].dateISO by {
        forall i | 0 <= i < |rest|
          ensures rest[i].dateISO != rs[0].dateISO
        {
          assert rest[i] in rest;
          var k :| 0 <= k < |rs[1..]| && rs[1..][k] == rest[i];
          assert rs[k + 1] == rest[i];
        }
      }
      assert rs == [rs[0]] + rs[1..];
      InsertDescending(rs[0], rest)
  }

  /** The day rows of the history list, one per group of `entriesByDate`,
      most recent first. */
  function HistoryRowsWith(es: seq<Entry>, pinned: nat, level: seq<Entry> -> int): (out: seq<DaySummary>)
    ensures StrictlyDescending(out)
  {
    GroupByDateIsExact(es);
    SortDescending(Rows(GroupByDate(es), pinned, level))
  }

  /** `daySummaries` of the history page. */
  function HistoryRows(es: seq<Entry>, hs: seq<Habit>, sqrt: real -> real): (out: seq<DaySummary>)
    requires IsSqrt(sqrt)
    ensures StrictlyDescending(out)
  {
    HistoryRowsWith(es, Count(hs, IsPinned), DayLevel(hs, sqrt))
  }

  /** A row of the grouped days describes the day it names. */
  lemma RowFacts(es: seq<Entry>, pinned: nat, level: seq<Entry> -> int, k: int)
    requires 0 <= k < |GroupByDate(es)|
    ensures var g := GroupByDate(es)[k]; var row := RowOf(g, pinned, level);
      row.dateISO == g.dateISO && g.dateISO in DateSet(es) &&
      row.completedTasks == Count(es, OnDay(g.dateISO)) &&
      row.totalTasks == pinned &&
      row.prosperityLevel == level(Filter(es, OnDay(g.dateISO)))
  {
    var gs := GroupByDate(es);
    GroupByDateIsExact(es);
    GroupDaysAreDateSet(es);
    assert gs[k].dateISO in GroupDays(gs);
  }

  /** Each row comes from some group. */
  lemma RowSource(es: seq<Entry>, pinned: nat, level: seq<Entry> -> int, i: int) returns (k: int)
    requires 0 <= i < |HistoryRowsWith(es, pinned, level)|
    ensures 0 <= k < |GroupByDate(es)|
    ensures HistoryRowsWith(es, pinned, level)[i] == RowOf(GroupByDate(es)[k], pinned, level)
  {
    var rows := Rows(GroupByDate(es), pinned, level);
    var out := HistoryRowsWith(es, pinned, level);
    assert out[i] in out;
    k :| 0 <= k < |rows| && rows[k] == out[i];
  }

  lemma HistoryRowFactsWith(es: seq<Entry>, pinned: nat, level: seq<Entry> -> int, i: int)
    requires 0 <= i < |HistoryRowsWith(es, pinned, level)|
    ensures var row := HistoryRowsWith(es, pinned, level)[i];
      row.dateISO in DateSet(es) &&
      row.completedTasks == Count(es, OnDay(row.dateISO)) &&
      row.totalTasks == pinned &&
      row.prosperityLevel == level(Filter(es, OnDay(row.dateISO)))
  {
    var k := RowSource(es, pinned, level, i);
    RowFacts(es, pinned, level, k);
  }

  /** Each history row names a day with entries and carries that day's entry
      count, the number of pinned habits and the rounded score of that day,
      which lies in 0..100. */
  lemma HistoryRowFacts(es: seq<Entry>, hs: seq<Habit>, sqrt: real -> real, i: int)
    requires IsSqrt(sqrt)
    requires 0 <= i < |HistoryRows(es, hs, sqrt)|
    ensures var row := HistoryRows(es, hs, sqrt)[i];
      row.dateISO in DateSet(es) &&
      row.completedTasks == Count(es, OnDay(row.dateISO)) &&
      row.totalTasks == Count(hs, IsPinned) &&
      0 <= row.prosperityLevel <= 100 &&
      row.prosperityLevel == Round(ComputeRadarData(Filter(es, OnDay(row.dateISO)), hs, sqrt).balanceScore)
  {
    var row := HistoryRows(es, hs, sqrt)[i];
    HistoryRowFactsWith(es, Count(hs, IsPinned), DayLevel(hs, sqrt), i);
    assert row.prosperityLevel == LevelOf(Filter(es, OnDay(row.dateISO)), hs, sqrt);
  }

  /** Some row is for day d. */
  predicate HasRow(rs: seq<DaySummary>, d: string) {
    exists i :: 0 <= i < |rs| && rs[i].dateISO == d
  }

  lemma HistoryRowsDaysWith(es: seq<Entry>, pinned: nat, level: seq<Entry> -> int)
    ensures |HistoryRowsWith(es, pinned, level)| == |DateSet(es)|
    ensures forall d :: d in DateSet(es) <==> HasRow(HistoryRowsWith(es, pinned, level), d)
  {
    var gs := GroupByDate(es);
    GroupDaysAreDateSet(es);
    var rows := Rows(gs, pinned, level);
    var out := HistoryRowsWith(es, pinned, level);
    forall i | 0 <= i < |out|
      ensures out[i].dateISO in DateSet(es)
    {
      HistoryRowFactsWith(es, pinned, level, i);
    }
    forall d | d in DateSet(es)
      ensures HasRow(out, d)
    {
      assert d in GroupDays(gs);
      var k :| 0 <= k < |gs| && gs[k].dateISO == d;
      assert rows[k] in rows;
      var i :| 0 <= i < |out| && out[i] == rows[k];
    }
  }

  /** There is exactly one history row per distinct entry day. */
  lemma HistoryRowsDays(es: seq<Entry>, hs: seq<Habit>, sqrt: real -> real)
    requires IsSqrt(sqrt)
    ensures |HistoryRows(es, hs, sqrt)| == |DateSet(es)|
    ensures forall d :: d in DateSet(es) <==> HasRow(HistoryRows(es, hs, sqrt), d)
  {
    HistoryRowsDaysWith(es, Count(hs, IsPinned), DayLevel(hs, sqrt));
    assert HistoryRows(es, hs, sqrt) == HistoryRowsWith(es, Count(hs, IsPinned), DayLevel(hs, sqrt));
  }

  /** The completed counts of the rows add up to the number of entries. */
  function CompletedTotal(rs: seq<DaySummary>): nat {
    if |rs| == 0 then 0 else rs[0].completedTasks + CompletedTotal(rs[1..])
  }

  lemma {:induction false} RowsCompletedTotal(gs: seq<DayGroup>, pinned: nat, level: seq<Entry> -> int)
    ensures CompletedTotal(Rows(gs, pinned, level)) == GroupedCount(gs)
    decreases |gs|
  {
    if |gs| > 0 {
      RowsCompletedTotal(gs[1..], pinned, level);
      assert Rows(gs, pinned, level)[1..] == Rows(gs[1..], pinned, level);
    }
  }

  /** The completed counts of the history rows add up to the number of
      entries. */
  lemma HistoryRowsCompletedTotal(es: seq<Entry>, hs: seq<Habit>, sqrt: real -> real)
    requires IsSqrt(sqrt)
    ensures CompletedTotal(HistoryRows(es, hs, sqrt)) == |es|
  {
    RowsCompletedTotal(GroupByDate(es), Count(hs, IsPinned), DayLevel(hs, sqrt));
    GroupedCountIsTotal(es);
  }
}

=== FILE: types.dfy ===
/** The application's records: the six life categories, habits, entries and the
    partial updates the UI sends for a habit. Optional TypeScript fields are
    `Option`s; the JavaScript truthiness tests the code applies to them are
    spelled out once here. */
module Types {
  import opened Seqs

  /** The six life areas; every habit and every entry belongs to exactly one. */
  datatype Category = Cuerpo | Energia | Mente | Trabajo | Relaciones | Dinero

  /** Display and iteration order used by every per-category computation. */
  const CategoriesOrder: seq<Category> := [Cuerpo, Energia, Trabajo, Dinero, Relaciones, Mente]

  lemma CategoriesOrderIsComplete(c: Category)
    ensures c in CategoriesOrder
  {
  }

  /** A `Record<Category, T>`: one value per category. */
  datatype PerCategory<T> = PerCategory(cuerpo: T, energia: T, mente: T, trabajo: T, relaciones: T, dinero: T) {
    function Get(c: Category): T {
      match c
      case Cuerpo => cuerpo
      case Energia => energia
      case Mente => mente
      case Trabajo => trabajo
      case Relaciones => relaciones
      case Dinero => dinero
    }

    /** The values in `CategoriesOrder`. */
    function Values(): (vs: seq<T>)
      ensures |vs| == 6
      ensures forall i :: 0 <= i < 6 ==> vs[i] == Get(CategoriesOrder[i])
    {
      [cuerpo, energia, trabajo, dinero, relaciones, mente]
    }

    /** The same record with the value for c replaced. */
    function Set(c: Category, v: T): (r: PerCategory<T>)
      ensures r.Get(c) == v
      ensures forall d :: d != c ==> r.Get(d) == Get(d)
    {
      match c
      case Cuerpo => this.(cuerpo := v)
      case Energia => this.(energia := v)
      case Mente => this.(mente := v)
      case Trabajo => this.(trabajo := v)
      case Relaciones => this.(relaciones := v)
      case Dinero => this.(dinero := v)
    }
  }

  /** `Object.fromEntries(CATEGORIES_ORDER.map(cat => [cat, f(cat)]))`. */
  function Tabulate<T>(f: Category -> T): (r: PerCategory<T>)
    ensures forall c :: r.Get(c) == f(c)
  {
    PerCategory(f(Cuerpo), f(Energia), f(Mente), f(Trabajo), f(Relaciones), f(Dinero))
  }

  function Constant<T>(v: T): (r: PerCategory<T>)
    ensures forall c :: r.Get(c) == v
  {
    PerCategory(v, v, v, v, v, v)
  }

  datatype UnitType = NoUnit | MinUnit | CountUnit
  datatype Periodicity = Once | Daily

  /** Epoch milliseconds. */
  type Timestamp = int

  datatype Habit = Habit(
    id: string,
    name: string,
    description: Option<string>,
    category: Category,
    xp: int,
    unitType: Option<UnitType>,
    minThreshold: Option<real>,
    tags: Option<seq<string>>,
    isPinned: Option<bool>,
    periodicity: Option<Periodicity>,
    daysOfWeek: Option<seq<int>>,
    targetDate: Option<string>,
    order: Option<int>,
    isBeforeSleep: Option<bool>,
    createdAt: Timestamp)

  datatype Entry = Entry(
    id: string,
    habitId: string,
    dateISO: string,
    timestamp: Timestamp,
    unitValue: Option<real>,
    xpBase: int,
    xpEffective: int,
    categorySnapshot: Category)

  /** `e => e.dateISO === d`: the entry is dated d. */
  function OnDay(d: string): Entry -> bool {
    (e: Entry) => e.dateISO == d
  }

  /** `e => e.habitId === id`: the entry belongs to habit id. */
  function OfHabit(id: string): Entry -> bool {
    (e: Entry) => e.habitId == id
  }

  /** No two habits share an id (ids are generated fresh). */
  predicate UniqueIds(hs: seq<Habit>) {
    forall i, j :: 0 <= i < j < |hs| ==> hs[i].id != hs[j].id
  }

  /** The ids of the habits (`new Set(habits.map(h => h.id))`). */
  function HabitIds(hs: seq<Habit>): set<string> {
    set i | 0 <= i < |hs| :: hs[i].id
  }

  /** `h.isPinned` as a condition: only an explicit `true` pins. */
  predicate IsPinned(h: Habit) {
    h.isPinned == Some(true)
  }

  /** `h.isBeforeSleep` as a condition. */
  predicate IsBeforeSleep(h: Habit) {
    h.isBeforeSleep == Some(true)
  }

  /** `h.periodicity || Periodicity.daily`: a missing periodicity means daily. */
  function PeriodicityOf(h: Habit): Periodicity {
    h.periodicity.GetOr(Daily)
  }

  /** A string is truthy exactly when it is non-empty. */
  predicate IsTruthy(s: Option<string>) {
    s.Some? && |s.value| > 0
  }

  /** `[0, 1, 2, 3, 4, 5, 6]`, Sunday first. */
  const AllDays: seq<int> := [0, 1, 2, 3, 4, 5, 6]

  /** `Partial<Omit<Habit, 'id' | 'createdAt'>>`. For an optional field,
      `None` is an absent key, `Some(None)` a key holding `undefined` (which a
      spread copies, clearing the field) and `Some(Some(v))` a value. */
  datatype HabitPatch = HabitPatch(
    name: Option<string>,
    description: Option<Option<string>>,
    category: Option<Category>,
    xp: Option<int>,
    unitType: Option<Option<UnitType>>,
    minThreshold: Option<Option<real>>,
    tags: Option<Option<seq<string>>>,
    isPinned: Option<Option<bool>>,
    periodicity: Option<Option<Periodicity>>,
    daysOfWeek: Option<Option<seq<int>>>,
    targetDate: Option<Option<string>>,
    order: Option<Option<int>>,
    isBeforeSleep: Option<Option<bool>>)

  /** The patch with no keys at all. */
  const EmptyPatch := HabitPatch(None, None, None, None, None, None, None, None, None, None, None, None, None)

  /** `{ order: o }`. */
  function OrderPatch(o: int): HabitPatch {
    EmptyPatch.(order := Some(Some(o)))
  }

  /** `{ isBeforeSleep: b }`. */
  function BeforeSleepPatch(b: bool): HabitPatch {
    EmptyPatch.(isBeforeSleep := Some(Some(b)))
  }

  /** `{ ...h, ...u }`: every key present in u overrides, the rest of h is kept. */
  function Merge(h: Habit, u: HabitPatch): (r: Habit)
    ensures r.id == h.id && r.createdAt == h.createdAt
    ensures r.name == (if u.name.Some? then u.name.value else h.name)
    ensures r.description == (if u.description.Some? then u.description.value else h.description)
    ensures r.category == (if u.category.Some? then u.category.value else h.category)
    ensures r.xp == (if u.xp.Some? then u.xp.value else h.xp)
    ensures r.unitType == (if u.unitType.Some? then u.unitType.value else h.unitType)
    ensures r.minThreshold == (if u.minThreshold.Some? then u.minThreshold.value else h.minThreshold)
    ensures r.tags == (if u.tags.Some? then u.tags.value else h.tags)
    ensures r.isPinned == (if u.isPinned.Some? then u.isPinned.value else h.isPinned)
    ensures r.periodicity == (if u.periodicity.Some? then u.periodicity.value else h.periodicity)
    ensures r.daysOfWeek == (if u.daysOfWeek.Some? then u.daysOfWeek.value else h.daysOfWeek)
    ensures r.targetDate == (if u.targetDate.Some? then u.targetDate.value else h.targetDate)
    ensures r.order == (if u.order.Some? then u.order.value else h.order)
    ensures r.isBeforeSleep == (if u.isBeforeSleep.Some? then u.isBeforeSleep.value else h.isBeforeSleep)
  {
    Habit(
      h.id,
      u.name.GetOr(h.name),
      u.description.GetOr(h.description),
      u.category.GetOr(h.category),
      u.xp.GetOr(h.xp),
      u.unitType.GetOr(h.unitType),
      u.minThreshold.GetOr(h.minThreshold),
      u.tags.GetOr(h.tags),
      u.isPinned.GetOr(h.isPinned),
      u.periodicity.GetOr(h.periodicity),
      u.daysOfWeek.GetOr(h.daysOfWeek),
      u.targetDate.GetOr(h.targetDate),
      u.order.GetOr(h.order),
      u.isBeforeSleep.GetOr(h.isBeforeSleep),
      h.createdAt)
  }

  /** Merging the empty patch changes nothing, and merging a patch twice is the
      same as merging it once. */
  lemma MergeLaws(h: Habit, u: HabitPatch)
    ensures Merge(h, EmptyPatch) == h
    ensures Merge(Merge(h, u), u) == Merge(h, u)
  {
  }

  /** The habit a creation payload describes once id and createdAt are added:
      `{ ...data, id, createdAt }`. Keys absent from the payload are unset. */
  predicate IsCreationPayload(u: HabitPatch) {
    u.name.Some? && u.category.Some? && u.xp.Some?
  }

  function NewHabit(u: HabitPatch, id: string, createdAt: Timestamp): (h: Habit)
    requires IsCreationPayload(u)
    ensures h.id == id && h.createdAt == createdAt
    ensures h.name == u.name.value && h.category == u.category.value
    ensures h.order == (if u.order.Some? then u.order.value else None)
  {
    var blank := Habit(id, u.name.value, None, u.category.value, u.xp.value,
                       None, None, None, None, None, None, None, None, None, createdAt);
    Merge(blank, u)
  }
}

=== FILE: weekdays.dfy ===
/** Toggling a weekday in the day picker of the quick-create panel and of the
    habit form (both use the same updater). Days are 0 (Sunday) to 6. */
module Weekdays {
  import opened Seqs

  /** `prev.includes(day) ? (prev.length <= 1 ? prev : prev.filter(d => d !== day)) : [...prev, day]`. */
  function ToggleDay(days: seq<int>, day: int): (r: seq<int>)
    ensures day !in days ==> r == days + [day]
    ensures day in days && |days| <= 1 ==> r == days
    ensures day in days && |days| > 1 ==>
      day !in r && IsSubsequence(r, days) && forall i :: 0 <= i < |days| && days[i] != day ==> days[i] in r
    ensures day in days && |days| > 1 ==>
      forall x :: multiset(r)[x] == if x != day then multiset(days)[x] else 0
  {
    if day in days then
      if |days| <= 1 then days
      else
        FilterIsSubsequence(days, (d: int) => d != day);
        FilterMultiset(days, (d: int) => d != day);
        Filter(days, (d: int) => d != day)
    else days + [day]
  }

  /** With no repeated day, toggling keeps the days distinct and never
      empties a non-empty list. */
  lemma ToggleDayKeepsADay(days: seq<int>, day: int)
    requires Distinct(days)
    ensures Distinct(ToggleDay(days, day))
    ensures |days| > 0 ==> |ToggleDay(days, day)| > 0
  {
    var r := ToggleDay(days, day);
    if day in days && |days| > 1 {
      var k :| 0 <= k < |days| && days[k] == day;
      var other := if k == 0 then 1 else 0;
      assert days[other] != day;
      assert days[other] in r;
      FilterKeepsDistinct(days, (d: int) => d != day);
    }
  }

  lemma FilterKeepsDistinct(s: seq<int>, p: int -> bool)
    requires Distinct(s)
    ensures Distinct(Filter(s, p))
  {
    var differ := (a: int, b: int) => a != b;
    assert Pairwise(s, differ);
    FilterKeepsPairwise(s, p, differ);
    assert Pairwise(Filter(s, p), differ);
  }

  /** Adding a day and then removing it again restores a non-empty list. */
  lemma ToggleDayTwice(days: seq<int>, day: int)
    requires |days| > 0 && day !in days
    ensures ToggleDay(ToggleDay(days, day), day) == days
  {
    var p := (d: int) => d != day;
    FilterAppend(days, [day], p);
    FilterAll(days, p);
  }

  /** A list consisting of one day twice is emptied by toggling that day:
      the length test counts entries, not distinct days. */
  lemma RepeatedDayEmpties(day: int)
    ensures ToggleDay([day, day], day) == []
  {
    assert Filter([day], (d: int) => d != day) == [];
  }
}
